=== FILE: README.md ===
# greenthumb storefront: a Dafny model of the frontend's decision logic

greenthumb is a plant-shop web application: a storefront for customers and an
admin panel for categories and products, backed by a REST API. This project
models the parts of its Next.js frontend that make decisions, and proves what
they promise:

- `Api` (`services/api.ts`): how `fetchAPI` prepares a request, and how it
  classifies every outcome of `fetch` into the `{data, error, status}`
  envelope. It also covers the anonymous cart client id kept in local
  storage, and the paths and bodies of the category, product, cart and auth
  endpoints.
- `ProductsPage` (`app/products/page.tsx`): the catalogue's filter-by-name
  and sort-by-price-or-name, the envelope-to-list mapping, and which view is
  shown.
- `ProductForm` and `CategoryForm`: populating a form from the record being
  edited, single-field edits, and the payload each form submits. The product
  payload is multipart, with a detail part chosen by the product type.
- `ProductCard`: the image URL, the add-to-cart button, and what a click
  does.
- `CartContext` and `AuthContext`: the cart's item count and fetch
  transition, and the profile-sync state machine behind sign-in.
- `AdminCategories` and `AdminProducts`: the admin pages' load, modal, save
  and delete handlers.
- `RegisterPage`: the registration form's validation and payload.

Shared modules:

- `Options` holds `Option` and `Result`.
- `JsText` holds the JavaScript string and number behaviour the code relies
  on:
  - `String(n)`;
  - `Number(s)` and `parseInt(s)`, as subset parsers where `None` stands for
    `NaN`;
  - `toLowerCase`, `includes`, and the `||` fallback on strings.
- `Types` holds the records of `libs/types.ts` and a `Json` value type.
- `FormUrlEncoded` holds the `application/x-www-form-urlencoded` serializer
  that `URLSearchParams` uses (section 5 of the WHATWG URL Standard), with
  its parser and UTF-8.

Everything outside the browser is an input to the model:

- the results of `fetch`, `res.json()` and `res.text()`;
- the identity provider's session and token calls;
- the backend's responses;
- `window.confirm`.

Local storage is a `map<string, string>`. Requests, redirects and logouts are
outputs. Each event handler is one atomic transition on an immutable state
record.

## Model

Source paths are relative to the repository root.

| member | source | states |
|---|---|---|
| Api.RequestUrl | greenthumb-frontend/frontend/src/services/api.ts:3-4 | every request URL is `http://localhost:8080/api` followed by the endpoint, which is recovered exactly from the URL |
| Api.HeadersFrom | greenthumb-frontend/frontend/src/services/api.ts:23 | `new Headers(init)` throws (no list) exactly when some name is not an HTTP token or some trimmed value holds NUL, CR, LF or a code point above U+00FF. Otherwise it keeps every header in order, with its name lower-cased and its value stripped of surrounding tab, line feed, carriage return and space |
| Api.NormalizeValueIgnoresPadding | greenthumb-frontend/frontend/src/services/api.ts:23 | HTTP white space added around a header value does not change the value `Headers` stores |
| Api.WithContentType | greenthumb-frontend/frontend/src/services/api.ts:26-30 | the given headers are kept as a prefix. At most one header is added, and only `content-type: application/json`. Multipart bodies and headers that already carry a content type are left exactly as given. Any other body ends up with a content type |
| Api.PrepareRequest | greenthumb-frontend/frontend/src/services/api.ts:20-36 | no request is made exactly when `new Headers` throws, before the `try`, so the call rejects. Otherwise the request goes to `RequestUrl(endpoint)` with the caller's method, and the normalized headers are kept as a prefix. An existing content type is never overwritten, and only a non-multipart body gets JSON added. An object or array body becomes a JSON blob, and any other body is passed through |
| Api.FirstNonEmpty | greenthumb-frontend/frontend/src/services/api.ts:50-52 | a `a \|\| b \|\| c` chain over strings is non-empty exactly when one of the candidates is |
| Api.FirstNonEmptyIsFirst | greenthumb-frontend/frontend/src/services/api.ts:50-52 | when the chain is non-empty, its value is a candidate and every earlier candidate is empty |
| Api.FirstNonEmptyOfThree | greenthumb-frontend/frontend/src/services/api.ts:52 | the three-way chain is the nested two-way fallback `text \|\| (statusText \|\| "Error de conexión: " + status)` |
| Api.ErrorMessage | greenthumb-frontend/frontend/src/services/api.ts:56 | the message of a JSON error body is never empty, whichever of `error`, `message` or the status-text fallback it takes |
| Api.Classify | greenthumb-frontend/frontend/src/services/api.ts:38-79 | an envelope never holds both data and error. A network error gives just its message, with no status. A failure whose body can be read carries the HTTP status and a non-empty error. For a parsed JSON body the error is `error`, then a non-empty `message`, then "Error en la petición: " + status text. A JSON `null` body throws the null-access `TypeError`, with no status. A JSON body that does not parse gives its text, or else "Error al parsear la respuesta de error JSON: " + the parse message. For another body the error is the first non-empty of body text, status text and "Error de conexión: " + status. A body read that rejects gives its own message with no status. An empty success (204, Content-Length "0" or no content type) wins over parsing and has neither data nor error. A JSON success returns the parsed body. A JSON success that does not parse gives the parse message with no status. A success of another type returns no data and no error |
| Api.GetAnonymousClientId | greenthumb-frontend/frontend/src/services/api.ts:7-16 | a stored non-empty id is returned with storage untouched. Otherwise "3" is stored and returned. The id is never empty, and no other key changes |
| Api.AnonymousClientIdIsStable | greenthumb-frontend/frontend/src/services/api.ts:7-16 | a second call returns the same id and leaves storage as the first call left it |
| Api.RecordPathsIdentifyRecord | greenthumb-frontend/frontend/src/services/api.ts:84-97 | distinct ids give distinct `/categorias/<id>` paths, and likewise for `/productos/<id>`, so an update or delete addresses exactly one record |
| Api.GetCategoryById | greenthumb-frontend/frontend/src/services/api.ts:84 | a GET with no body whose path reads back as `/categorias/` followed by the id |
| Api.CreateCategory | greenthumb-frontend/frontend/src/services/api.ts:85 | a POST to `/categorias` whose JSON body holds exactly `nombreCategoria` and `descripcionCategoria`, with the payload's values |
| Api.UpdateCategory | greenthumb-frontend/frontend/src/services/api.ts:86 | a PUT whose path reads back as the category's id, with a JSON body of exactly the two category fields |
| Api.DeleteCategory | greenthumb-frontend/frontend/src/services/api.ts:87 | a DELETE whose path reads back as the category's id, carrying the JSON body `{motivoBaja: "Eliminado desde panel de admin"}` and nothing else |
| Api.GetProducts | greenthumb-frontend/frontend/src/services/api.ts:90-93 | a GET with no body of `/productos?` followed by a query that the form-urlencoded parser reads back as exactly the parameters, in order |
| Api.GetProductsOfPlainPair | greenthumb-frontend/frontend/src/services/api.ts:91 | a single parameter whose name and value are ASCII alphanumerics or `*-._` appears in the path unescaped, as `name=value` |
| Api.FirstProductsPage | greenthumb-frontend/frontend/src/app/products/page.tsx:23 | the load of both product pages (also `app/admin/products/page.tsx:26`) is a GET with no body of `/productos?size=100` |
| Api.GetProductById | greenthumb-frontend/frontend/src/services/api.ts:94 | a GET with no body whose path reads back as `/productos/` followed by the id |
| Api.CreateProduct | greenthumb-frontend/frontend/src/services/api.ts:95 | a POST of the form data, unchanged, to `/productos` |
| Api.UpdateProduct | greenthumb-frontend/frontend/src/services/api.ts:96 | a PUT of the form data, unchanged, to a path that reads back as the product's id |
| Api.DeleteProduct | greenthumb-frontend/frontend/src/services/api.ts:97 | a DELETE whose path reads back as the product's id, carrying the JSON body `{motivoBaja: "Eliminado desde panel de admin"}` and nothing else |
| Api.QueryRoundTrip | greenthumb-frontend/frontend/src/services/api.ts:119 | a two-parameter query built from two integers is read back, through the form-urlencoded parser, as those keys with those integers |
| Api.CartQueryText | greenthumb-frontend/frontend/src/services/api.ts:119-125 | the cart queries are written without escapes, as `productoId=<p>&cantidad=<c>` and `productoId=<p>&nuevaCantidad=<c>` |
| Api.CartPathRoundTrip | greenthumb-frontend/frontend/src/services/api.ts:112-137 | every cart path reads back as the operation and arguments it was built from: view, add, set quantity, remove or empty |
| Api.CartPathsAreDistinct | greenthumb-frontend/frontend/src/services/api.ts:112-137 | distinct cart operations of one client use distinct paths |
| Api.GetCart | greenthumb-frontend/frontend/src/services/api.ts:112-115 | a GET with no body whose path reads back as viewing the stored client's cart. Storage evolves as in `GetAnonymousClientId` |
| Api.AddToCart | greenthumb-frontend/frontend/src/services/api.ts:117-121 | a POST with no body whose path reads back as adding the given quantity of the given product to the stored client's cart |
| Api.UpdateCartItemQuantity | greenthumb-frontend/frontend/src/services/api.ts:123-127 | a PUT with no body whose path reads back as setting the given product's quantity in the stored client's cart |
| Api.RemoveFromCart | greenthumb-frontend/frontend/src/services/api.ts:129-132 | a DELETE with no body whose path reads back as removing the given product from the stored client's cart |
| Api.ClearCart | greenthumb-frontend/frontend/src/services/api.ts:134-137 | a DELETE with no body whose path reads back as emptying the stored client's cart |
| Api.CheckoutCart | greenthumb-frontend/frontend/src/services/api.ts:139-146 | a POST to `/carrito/checkout`. The body's `clienteId` is `parseInt` of the stored id, overriding the caller's. The caller's payment method and notes are kept. The body's keys are exactly `metodoPago` and `clienteId`, plus `notasCliente` when the caller gave notes |
| Api.FreshCheckoutUsesDefaultClient | greenthumb-frontend/frontend/src/services/api.ts:139-146 | with empty storage the checkout is sent for client 3 |
| Api.CreateOrderAndGetPreference | greenthumb-frontend/frontend/src/services/api.ts:148-160 | a POST to `/carrito/checkout` whose JSON body holds exactly `clienteId` (the stored id through `parseInt`), `metodoPago` "Mercado Pago" and `notasCliente` "Pedido realizado desde la web." |
| Api.GetCategories | greenthumb-frontend/frontend/src/services/api.ts:83 | a GET with no body of `/categorias`, a path that names no single category |
| Api.LetterSegmentIsNoId | greenthumb-frontend/frontend/src/services/api.ts:94-101 | a path segment that starts with a letter is not read as a record id |
| Api.GetTiposProducto | greenthumb-frontend/frontend/src/services/api.ts:100-102 | a GET with no body of `/productos/tipos-producto`, which shares the products root but names no product |
| Api.GetNivelesLuz | greenthumb-frontend/frontend/src/services/api.ts:105 | a GET with no body of `/nivelesluz` |
| Api.GetFrecuenciasRiego | greenthumb-frontend/frontend/src/services/api.ts:106 | a GET with no body of `/frecuenciasriego` |
| Api.GetDashboardData | greenthumb-frontend/frontend/src/services/api.ts:109 | a GET with no body of `/dashboard/metrics` |
| Api.StringField | greenthumb-frontend/frontend/src/services/api.ts:163-175 | a property is read as text exactly when the body is an object holding that key with a string value, and then it is that string |
| Api.LoginUser | greenthumb-frontend/frontend/src/services/api.ts:163-168 | a POST to `/auth/login` whose JSON body holds exactly `email` and `contrasena`, and reads back as the credentials |
| Api.RegisterClient | greenthumb-frontend/frontend/src/services/api.ts:170-175 | a POST to `/auth/register` whose JSON body holds exactly the ten registration fields, and reads back as the registration |
| Api.ClienteRegistroRoundTrip | greenthumb-frontend/frontend/src/services/api.ts:170-175 | reading each field of the registration body as a string gives back the registration that was written |
| FormUrlEncoded.Utf8 | greenthumb-frontend/frontend/src/services/api.ts:91 | a code point becomes one to four bytes. It is a single byte exactly for ASCII, and that byte is the code point |
| FormUrlEncoded.Utf8ReadsBack | greenthumb-frontend/frontend/src/services/api.ts:91 | a code point's encoding is a well-formed sequence: a lead byte announcing the length, continuation bytes in 0x80–0xBF, no overlong form. The bytes spell the code point |
| FormUrlEncoded.Utf8OfCodePoint | greenthumb-frontend/frontend/src/services/api.ts:91 | every well-formed sequence is the encoding of the code point it spells |
| FormUrlEncoded.DecodeUtf8Of | greenthumb-frontend/frontend/src/services/api.ts:91 | UTF-8 decoding of a string's bytes gives the string back |
| FormUrlEncoded.Utf8OfDecode | greenthumb-frontend/frontend/src/services/api.ts:91 | whatever bytes UTF-8 decoding accepts are exactly the encoding of the text it returns |
| FormUrlEncoded.DecodeUtf8Exactly | greenthumb-frontend/frontend/src/services/api.ts:91 | bytes decode to a string exactly when they are that string's UTF-8, in both directions |
| FormUrlEncoded.DecodeUtf8RefusesMalformed | greenthumb-frontend/frontend/src/services/api.ts:91 | an overlong form, a stray continuation byte, a bad continuation byte and an encoded surrogate are refused |
| FormUrlEncoded.PercentByte | greenthumb-frontend/frontend/src/services/api.ts:91 | a byte is written as `%` and two hex digits whose value is the byte |
| FormUrlEncoded.EncodeChar | greenthumb-frontend/frontend/src/services/api.ts:91 | an ASCII alphanumeric or one of `*-._` is written as itself, and every code point is written with at least one character, each an unreserved one, `+` or `%` |
| FormUrlEncoded.DecodePercentThen | greenthumb-frontend/frontend/src/services/api.ts:91 | decoding percent-encoded bytes followed by more text gives those bytes, then the rest decoded |
| FormUrlEncoded.DecodeCharThen | greenthumb-frontend/frontend/src/services/api.ts:91 | decoding a written code point followed by more text gives the code point's UTF-8 bytes, then the rest decoded. So a space comes back from `+` and every other code point from itself or its `%XX` bytes |
| FormUrlEncoded.Encode | greenthumb-frontend/frontend/src/services/api.ts:91 | every character written is an ASCII alphanumeric, one of `*-._`, `+` or `%`, so a written name or value holds no `&` or `=` |
| FormUrlEncoded.EncodeOfUnreserved | greenthumb-frontend/frontend/src/services/api.ts:91 | text of ASCII alphanumerics and `*-._` is written unchanged |
| FormUrlEncoded.DecodeOfEncode | greenthumb-frontend/frontend/src/services/api.ts:91 | decoding a written name or value gives back the original text |
| FormUrlEncoded.DecodeExactly | greenthumb-frontend/frontend/src/services/api.ts:91 | a written name or value is read as a text exactly when the bytes it stands for are that text's UTF-8 |
| FormUrlEncoded.DecodeRefusesOverlong | greenthumb-frontend/frontend/src/services/api.ts:91 | `%C0%80`, an overlong NUL, is refused instead of being read as a character |
| FormUrlEncoded.ParseOfSerialize | greenthumb-frontend/frontend/src/services/api.ts:91 | parsing `new URLSearchParams(params).toString()` gives back exactly the pairs, in order |
| FormUrlEncoded.SerializeOneUnreserved | greenthumb-frontend/frontend/src/services/api.ts:91 | one pair of unreserved text is written `name=value` |
| FormUrlEncoded.SerializeTwoUnreserved | greenthumb-frontend/frontend/src/services/api.ts:119-125 | two pairs of unreserved text are written `name=value&name=value` |
| FormUrlEncoded.IntToStringIsUnreserved | greenthumb-frontend/frontend/src/services/api.ts:119-125 | `String` of an integer consists only of characters the serializer writes unchanged |
| JsText.NumberOfIntToString | greenthumb-frontend/frontend/src/components/ProductForm.tsx:188-189 | `Number(String(n))` is `n` for every integer |
| JsText.NumberReadsValidFloats | greenthumb-frontend/frontend/src/components/ProductForm.tsx:160-171 | `Number` reads every value a number input can hold, exponents such as "1e3" included, and reads "" as 0 |
| JsText.NumberReadsExponent | greenthumb-frontend/frontend/src/components/ProductForm.tsx:163 | an exponent scales the digits before it by that power of ten |
| JsText.NumberSkipsWhiteSpace | greenthumb-frontend/frontend/src/components/ProductForm.tsx:163 | white space around the text does not change what `Number` reads |
| JsText.ParseIntOfIntToString | greenthumb-frontend/frontend/src/services/api.ts:141 | `parseInt(String(n))` is `n` for every integer |
| JsText.ParseIntSkipsWhiteSpace | greenthumb-frontend/frontend/src/services/api.ts:141 | leading white space does not change what `parseInt` reads |
| JsText.IntToStringInjective | greenthumb-frontend/frontend/src/services/api.ts:84 | distinct integers print differently |
| JsText.ContainsIffOccurs | greenthumb-frontend/frontend/src/app/products/page.tsx:65 | `s.includes(t)` holds exactly when `t` occurs at some index of `s` |
| ProductsPage.SortBy | greenthumb-frontend/frontend/src/app/products/page.tsx:69-79 | the sort returns a permutation of its input, ordered by the page's comparator |
| ProductsPage.Insert | greenthumb-frontend/frontend/src/app/products/page.tsx:69-79 | inserting into a sorted list adds exactly that element and keeps the list sorted |
| ProductsPage.BeforeTotal | greenthumb-frontend/frontend/src/app/products/page.tsx:71-77 | the comparator relates every two products one way or the other, whatever the sort key |
| ProductsPage.BeforeTransitive | greenthumb-frontend/frontend/src/app/products/page.tsx:71-77 | the comparator is transitive, whatever the sort key |
| ProductsPage.FilterByName | greenthumb-frontend/frontend/src/app/products/page.tsx:62-66 | each product is kept as often as it occurs in the input when its lower-cased name contains the lower-cased term, and never otherwise |
| ProductsPage.FilterByNameKeepsMatches | greenthumb-frontend/frontend/src/app/products/page.tsx:62-66 | the filter keeps a sub-multiset of the input, and a product is in the result exactly when it is in the input and matches |
| ProductsPage.FilterAndSort | greenthumb-frontend/frontend/src/app/products/page.tsx:51-82 | the result holds only input products, never more copies than the input, and is never longer. An empty term keeps every product. A non-empty term keeps exactly the matching ones. "price-asc" gives non-decreasing prices, "price-desc" non-increasing ones, and every other key orders by name |
| ProductsPage.FetchProducts | greenthumb-frontend/frontend/src/app/products/page.tsx:18-49 | page content replaces the list and clears the error. Without content the list is emptied and the error becomes the response's or the default message. Loading ends either way |
| ProductsPage.Render | greenthumb-frontend/frontend/src/app/products/page.tsx:84-120 | loading shows the loader, and only then. A truthy error shows that error once loading is over, and an error view shows nothing else. Otherwise the grid appears exactly when the filtered, sorted list is non-empty and shows exactly that list, and the no-matches notice appears in its place |
| ProductsPage.RenderAfterFetch | greenthumb-frontend/frontend/src/app/products/page.tsx:18-120 | after a fetch with content, the grid lists exactly the fetched products that match the term, in the selected order, and the no-matches notice appears exactly when none matches. After a fetch without content, the error view shows the envelope's error or "No se recibieron datos de productos o el formato fue inesperado." |
| ProductForm.IdTextRoundTrip | greenthumb-frontend/frontend/src/components/ProductForm.tsx:94-95 | an id written into its select with `String(id \|\| '')` comes back from `Number(...)` as the same id, 0 included |
| ProductForm.IdTextOfSmallIds | greenthumb-frontend/frontend/src/components/ProductForm.tsx:194-200 | a stored type id writes the discriminator "1", "2" or "3" exactly when it is 1, 2 or 3 |
| ProductForm.Populate | greenthumb-frontend/frontend/src/components/ProductForm.tsx:85-146 | a product sets every field to its stored value: price and cost fall back to 0, ids go through the select text, and absent detail blocks reset to empty. No product resets every field. The chosen images are never touched |
| ProductForm.PopulateForgetsPriorEdits | greenthumb-frontend/frontend/src/components/ProductForm.tsx:85-146 | the populated form does not depend on what was typed before |
| ProductForm.InputNamesAreDistinct | greenthumb-frontend/frontend/src/components/ProductForm.tsx:264-308 | the detail inputs have distinct names, so a computed key `[name]` selects one field |
| ProductForm.FieldOf | greenthumb-frontend/frontend/src/components/ProductForm.tsx:27-48 | `pesoKG` and `profundidadSiembraCM` are the numeric detail fields and `esVenenosa` and `requiereMantenimiento` the boolean ones |
| ProductForm.FieldsDetermineBlocks | greenthumb-frontend/frontend/src/components/ProductForm.tsx:27-48 | two forms that agree on every detail field have equal detail blocks, so the field-wise contract of `HandleDetailsChange` pins the blocks down |
| ProductForm.HandleDetailsChange | greenthumb-frontend/frontend/src/components/ProductForm.tsx:149-175 | the named field takes the event's value: a `Number` for `pesoKG`/`profundidadSiembraCM`, the checked state for checkboxes, the text otherwise. No other detail field changes, nor any other block or common field |
| ProductForm.Submit | greenthumb-frontend/frontend/src/components/ProductForm.tsx:177-210 | the payload has one to three parts, the product part first, each named `producto`, `imagen` or a detail block |
| ProductForm.ProductoPartFields | greenthumb-frontend/frontend/src/components/ProductForm.tsx:182-191 | the product part carries name, description, stock, price and cost from the form, with both ids converted by `Number` (NaN is written as null) |
| ProductForm.SubmitSelectsDetail | greenthumb-frontend/frontend/src/components/ProductForm.tsx:193-203 | there is at most one detail part. `detallesPlanta`, `detallesHerramienta` or `detallesSemilla` is present exactly when the type is "1", "2" or "3", and it holds that block as edited |
| ProductForm.SubmitSendsFirstImage | greenthumb-frontend/frontend/src/components/ProductForm.tsx:205-207 | an `imagen` part is sent exactly when files were chosen, and it is the first file |
| ProductForm.SubmitLabel | greenthumb-frontend/frontend/src/components/ProductForm.tsx:322-323 | the caption is "Guardando..." exactly while submitting. Otherwise it is "Guardar Cambios" when editing and "Crear Producto" when creating |
| ProductForm.PopulateThenSubmit | greenthumb-frontend/frontend/src/components/ProductForm.tsx:85-210 | saving a loaded product unchanged sends back its category and type ids, and the detail block of its type, as stored or empty. An unknown type sends no detail part |
| CategoryForm.Populate | greenthumb-frontend/frontend/src/components/CategoryForm.tsx:20-25 | a category overwrites both fields, and none leaves them unchanged (there is no reset) |
| CategoryForm.Submit | greenthumb-frontend/frontend/src/components/CategoryForm.tsx:27-33 | the payload is exactly the two fields, from which the form is recovered |
| CategoryForm.SubmitIsInjective | greenthumb-frontend/frontend/src/components/CategoryForm.tsx:29-32 | distinct forms submit distinct payloads |
| CategoryForm.PopulateThenSubmit | greenthumb-frontend/frontend/src/components/CategoryForm.tsx:20-33 | saving a loaded category unchanged sends back its stored name and description |
| CategoryForm.RenderButtons | greenthumb-frontend/frontend/src/components/CategoryForm.tsx:62-66 | both buttons are disabled exactly while submitting. The caption is "Guardando..." exactly then, and otherwise "Guardar Cambios" exactly when editing |
| ProductCard.BackendUrl | greenthumb-frontend/frontend/src/components/ProductCard.tsx:15 | the configured URL when it is set and non-empty, else `http://localhost:8080`. It is never empty |
| ProductCard.ImageUrl | greenthumb-frontend/frontend/src/components/ProductCard.tsx:19-21 | a non-empty stored path is served from the backend URL. An absent or empty path gives `/placeholder.png` |
| ProductCard.StoredImageIsServedByBackend | greenthumb-frontend/frontend/src/components/ProductCard.tsx:19-20 | a stored image's URL splits into the backend URL followed by the stored path |
| ProductCard.RenderButton | greenthumb-frontend/frontend/src/components/ProductCard.tsx:48-50 | the button is disabled exactly when adding or out of stock. Out of stock always reads "Sin Stock"; otherwise it reads "Añadiendo..." exactly while adding, else "Añadir al Carrito" |
| ProductCard.EnabledIffOffersAdd | greenthumb-frontend/frontend/src/components/ProductCard.tsx:48-50 | the button can be pressed exactly when it reads "Añadir al Carrito" |
| ProductCard.ClickAsWritten | greenthumb-frontend/frontend/src/components/ProductCard.tsx:11-28 | the click as written reads `addItem`, which the cart context does not provide. It sets `isAdding`, makes no cart call, rejects with "addItem is not a function" and leaves `isAdding` set |
| ProductCard.Handle | greenthumb-frontend/frontend/src/components/ProductCard.tsx:23-28 | the handler raises `isAdding` first. It calls the cart with this product and quantity 1 exactly when the context provides the member, and otherwise rejects with "<member> is not a function". The flag comes down exactly when the call resolved or the reset sits in a `finally` |
| ProductCard.MissingFinallyLocksOnRejection | greenthumb-frontend/frontend/src/components/ProductCard.tsx:25-27 | without a `finally`, any rejected call, even to a member the context provides, leaves an in-stock product's button disabled |
| ProductCard.ClickAsWrittenLocksButton | greenthumb-frontend/frontend/src/components/ProductCard.tsx:11-50 | after one click as written, an in-stock product's button stays disabled on "Añadiendo...", and nothing was added |
| ProductCard.ClickCorrected | greenthumb-frontend/frontend/src/components/ProductCard.tsx:23-28 | a click with `addToCart` and the reset in a `finally` adds quantity 1 of this product, rejects exactly when the call does, and raises then clears `isAdding` whatever the outcome |
| ProductCard.ClickCorrectedRestoresButton | greenthumb-frontend/frontend/src/components/ProductCard.tsx:23-50 | a corrected click disables the button while pending and then restores it exactly |
| CartContext.CartItemCountAppend | greenthumb-frontend/frontend/src/contexts/CartContext.tsx:90-92 | the item count of a concatenation is the sum of the counts |
| CartContext.CartItemCountFromFront | greenthumb-frontend/frontend/src/contexts/CartContext.tsx:90-92 | the left fold equals the sum of quantities taken from the front |
| CartContext.CartItemCountBoundsEach | greenthumb-frontend/frontend/src/contexts/CartContext.tsx:90-92 | with non-negative quantities, each item's quantity is at most the count |
| CartContext.CartItemCountNonNegative | greenthumb-frontend/frontend/src/contexts/CartContext.tsx:90-92 | with non-negative quantities the count is non-negative |
| CartContext.FetchCart | greenthumb-frontend/frontend/src/contexts/CartContext.tsx:30-57 | signed out: the items are emptied and the error is kept. Signed in without a token: the error is "No autenticado" and the items are kept. Signed in with a token: the items are empty and there is no error. Loading always ends false |
| CartContext.Step | greenthumb-frontend/frontend/src/contexts/CartContext.tsx:63-88 | the four mutators leave the state unchanged, `checkout` resolves to null, and a fetch ends loading |
| CartContext.CartStaysEmpty | greenthumb-frontend/frontend/src/contexts/CartContext.tsx:26-88 | from an empty cart, every sequence of fetches and mutations leaves it empty, with a count of 0 |
| CartContext.FetchEndsLoading | greenthumb-frontend/frontend/src/contexts/CartContext.tsx:49-55 | once any fetch has run, the context is no longer loading |
| CartContext.MutatorsKeepLoading | greenthumb-frontend/frontend/src/contexts/CartContext.tsx:49-88 | once loading is off, no event turns it back on |
| CartContext.UseCart | greenthumb-frontend/frontend/src/contexts/CartContext.tsx:111-116 | inside a provider the context is returned. Outside one, "useCart debe ser usado dentro de un CartProvider" is thrown |
| AuthContext.Sincronizar | greenthumb-frontend/frontend/src/contexts/AuthContext.tsx:34-58 | with a provider session, a complete profile is stored. An incomplete one is not stored and redirects to `/completar-registro`. A failure stores nothing and asks the provider to log out. The sync flag ends false in all three. Without a session, only the flag changes, once the provider is done loading. The user changes only to a synced complete profile |
| AuthContext.Logout | greenthumb-frontend/frontend/src/contexts/AuthContext.tsx:66-69 | from any state the user is dropped, so `isAuthenticated` is false, and the provider is asked to log out |
| AuthContext.IsLoading | greenthumb-frontend/frontend/src/contexts/AuthContext.tsx:81 | the context is settled exactly when both the provider and the sync are |
| AuthContext.GetAccessToken | greenthumb-frontend/frontend/src/contexts/AuthContext.tsx:71-78 | the provider's token when its call succeeds, and `undefined` instead of a throw when it fails |
| AuthContext.UseAuth | greenthumb-frontend/frontend/src/contexts/AuthContext.tsx:90-96 | inside a provider the context is returned; outside one, an error is thrown |
| AuthContext.RunKeepsValid | greenthumb-frontend/frontend/src/contexts/AuthContext.tsx:41-69 | no sequence of syncs and logouts exposes a user whose registration is incomplete |
| AuthContext.ExposedUserCameFromSync | greenthumb-frontend/frontend/src/contexts/AuthContext.tsx:41-46 | starting signed out, an authenticated user is always one that a sync returned |
| AuthContext.SyncAsWrittenNeverSignsIn | greenthumb-frontend/frontend/src/contexts/AuthContext.tsx:36-51 | when every sync fails, as the call of the unexported `sincronizarUsuario` makes it, a signed-out context never becomes authenticated, whatever syncs and logouts follow |
| AuthContext.ExposedUserCameFromSyncFrom | greenthumb-frontend/frontend/src/contexts/AuthContext.tsx:45-67 | the user at the end of any run is the initial one or came from a sync |
| AdminCategories.Load | greenthumb-frontend/frontend/src/app/admin/categories/page.tsx:24-44 | data with a falsy error replaces the list and leaves a previous error shown. Otherwise, including data with a truthy error, the list is kept and the error becomes the response's truthy error or "No se recibieron datos de categorías.". Loading ends and the modal is untouched |
| AdminCategories.OpenForCreate | greenthumb-frontend/frontend/src/app/admin/categories/page.tsx:50-53 | the modal opens with nothing selected, and nothing else changes |
| AdminCategories.OpenForEdit | greenthumb-frontend/frontend/src/app/admin/categories/page.tsx:55-58 | the modal opens with the category selected, and nothing else changes |
| AdminCategories.CloseModal | greenthumb-frontend/frontend/src/app/admin/categories/page.tsx:60-63 | the modal closes with nothing selected, and nothing else changes |
| AdminCategories.Submit | greenthumb-frontend/frontend/src/app/admin/categories/page.tsx:66-83 | while pending the page is submitting with no error. The request is a PUT to the selected category or a POST to `/categorias`, carrying the payload. Afterwards the modal is closed, nothing is selected, the list is reloaded and submitting is over |
| AdminCategories.SubmitIgnoresSaveResult | greenthumb-frontend/frontend/src/app/admin/categories/page.tsx:70-76 | the envelope the save returns, error or not, has no effect on the page |
| AdminCategories.Delete | greenthumb-frontend/frontend/src/app/admin/categories/page.tsx:85-96 | an unconfirmed delete changes nothing and sends nothing. A confirmed one clears the error, sends a DELETE for the id and reloads |
| AdminCategories.RunKeepsConsistent | greenthumb-frontend/frontend/src/app/admin/categories/page.tsx:50-83 | across every run of the page's events, a category is selected only while the modal is open, and no save is left pending |
| AdminProducts.Load | greenthumb-frontend/frontend/src/app/admin/products/page.tsx:22-39 | the page content replaces the list, or the list becomes empty without it. The error is cleared and loading ends either way |
| AdminProducts.OpenForCreate | greenthumb-frontend/frontend/src/app/admin/products/page.tsx:46-49 | the modal opens with nothing selected, and nothing else changes |
| AdminProducts.OpenForEdit | greenthumb-frontend/frontend/src/app/admin/products/page.tsx:51-67 | the product's details are fetched from `/productos/<id>`. The modal opens in edit mode with them, or in create mode when none came back. Loading ends |
| AdminProducts.CloseModal | greenthumb-frontend/frontend/src/app/admin/products/page.tsx:69-72 | the modal closes with nothing selected, and nothing else changes |
| AdminProducts.Submit | greenthumb-frontend/frontend/src/app/admin/products/page.tsx:74-91 | while pending the page is submitting with no error. The multipart request is a PUT to the selected product or a POST to `/productos`. Afterwards the modal is closed, the list is reloaded and submitting is over |
| AdminProducts.SubmitIgnoresSaveResult | greenthumb-frontend/frontend/src/app/admin/products/page.tsx:78-84 | the envelope the save returns has no effect on the page |
| AdminProducts.Delete | greenthumb-frontend/frontend/src/app/admin/products/page.tsx:93-104 | an unconfirmed delete changes nothing and sends nothing. A confirmed one sends a DELETE for the id and reloads with the error cleared |
| AdminProducts.RunKeepsConsistent | greenthumb-frontend/frontend/src/app/admin/products/page.tsx:46-91 | across every run of the page's events, a product is selected only while the modal is open, and no save is left pending |
| RegisterPage.InputNamesAreDistinct | greenthumb-frontend/frontend/src/app/register/page.tsx:35-38 | the form's inputs have distinct names, so a computed key `[name]` selects one field |
| RegisterPage.FieldsDetermineForm | greenthumb-frontend/frontend/src/app/register/page.tsx:11-23 | two forms that agree on every field are equal, so the field-wise contract of `HandleChange` pins the form down |
| RegisterPage.HandleChange | greenthumb-frontend/frontend/src/app/register/page.tsx:35-38 | the named field takes the value and no other field changes |
| RegisterPage.StripConfirmation | greenthumb-frontend/frontend/src/app/register/page.tsx:49 | the payload has every field of the form except the confirmation, each unchanged |
| RegisterPage.StripConfirmationRoundTrip | greenthumb-frontend/frontend/src/app/register/page.tsx:49 | putting the confirmation back restores the form, and stripping it from a rebuilt form returns the payload |
| RegisterPage.HandleSubmit | greenthumb-frontend/frontend/src/app/register/page.tsx:40-57 | mismatched passwords show "Las contraseñas no coinciden." and send nothing. With matching passwords and no `register` in the context value, the call throws "register is not a function": nothing is sent, the error stays cleared and the handler rejects. Otherwise the form minus its confirmation is sent. A failure shows the result's error, or "Error al registrar el usuario." when that is empty, and success leaves no error |
| RegisterPage.SubmitAsWritten | greenthumb-frontend/frontend/src/app/register/page.tsx:25-57 | against the provider's actual value, which has no `register`, nothing is ever sent. Mismatched passwords show the mismatch message. Matching ones show no error, and the handler rejects with "register is not a function" |
| RegisterPage.Submit | greenthumb-frontend/frontend/src/app/register/page.tsx:40-57 | with `register` provided the handler never rejects. Mismatched passwords show "Las contraseñas no coinciden." and send nothing. Otherwise the form minus its confirmation is sent. Success leaves no error, since the error was cleared at the start. A failure shows the result's error, or "Error al registrar el usuario." when that is empty |
| RegisterPage.SubmitAsWrittenNeverRegisters | greenthumb-frontend/frontend/src/app/register/page.tsx:25-57 | with matching passwords the page as written shows no error and sends nothing, whatever `register` would have answered, while the intended page sends the form minus its confirmation |
| RegisterPage.ReadFlag | greenthumb-frontend/frontend/src/app/register/page.tsx:25 | a destructured member is `undefined` exactly when the context value does not define it, and otherwise it is the value's flag |
| RegisterPage.RedirectAsWritten | greenthumb-frontend/frontend/src/app/register/page.tsx:25-33 | `loading` is `undefined`, so the redirect to `/` fires exactly when signed in, loading or not |
| RegisterPage.ShouldRedirect | greenthumb-frontend/frontend/src/app/register/page.tsx:29-33 | reading the context's `isLoading`, the redirect to `/` fires exactly when signed in and not loading |
| RegisterPage.RedirectAsWrittenIgnoresLoading | greenthumb-frontend/frontend/src/app/register/page.tsx:25-33 | signed in while the context is still loading, the page as written redirects and the intended one waits |
| RegisterPage.ButtonAsWritten | greenthumb-frontend/frontend/src/app/register/page.tsx:112-113 | with `loading` undefined, the button is never disabled and always reads "Registrarse" |
| RegisterPage.ButtonCorrected | greenthumb-frontend/frontend/src/app/register/page.tsx:112-113 | reading `isLoading`, the button is disabled exactly while loading, and reads "Registrando..." exactly then, "Registrarse" otherwise |
| RegisterPage.ButtonAsWrittenIgnoresLoading | greenthumb-frontend/frontend/src/app/register/page.tsx:112-113 | while the context is loading, the button as written stays enabled and the intended one is disabled |

## Left out

- Rendering, CSS and layout: components that only present data are not modelled (`Modal`, `Header`, `Footer`, `AdminNavCard`, layouts, providers).
- `app/cart/page.tsx`: it reads cart fields (`items`, `total`, `updateItemQuantity`, `clearAllItems`) that `CartContext.tsx` does not provide, so it has no contract to model.
- The thin fetch-and-render pages (`app/page.tsx`, `app/categories/page.tsx`, `app/admin/page.tsx`, `app/login/page.tsx`, `app/registro/page.tsx`): the admin pages already model the same envelope-to-state pattern. Two of them call functions that `api.ts` and `AuthContext.tsx` do not export.
- Real I/O: `fetch`, `Headers`, `Blob`/`FormData` bytes, JSON text, `localStorage`, `window.confirm`, router pushes, the identity provider's SDK and console logging. Their results are inputs and their requests are outputs.
- AuthContext.Sincronizar: `AuthContext.tsx:6` imports `sincronizarUsuario` from `services/api.ts`, but that file exports no such function (only the `FRONT FRAN` copy does, at `FRONT FRAN/greenthumb-frontend/frontend/src/services/api.ts:149`). As written, the call at `AuthContext.tsx:39` is a call of `undefined`: it throws a `TypeError` into the `catch`, so every sync ends in the `SyncFailed` outcome. The model takes the sync's result, together with the token call's, as the `SyncOutcome` input, which admits a successful sync the code as written cannot reach; the invariants proved over it hold for the failing-only case too, and `AuthContext.SyncAsWrittenNeverSignsIn` shows that then nobody is ever signed in.
- Concurrency: effect scheduling, overlapping async calls, the un-awaited reloads of the products page and post-unmount updates. Each handler is one atomic transition.
- Floating point: prices, weights and depths are `real`, and formatting (`toFixed`) is not modelled.
- `localeCompare` is modelled as ordinal lexicographic order on names, a total preorder like the real one.
- `toLowerCase` is modelled on ASCII and Latin-1 letters only.
- JsText.ParseNumber: reads white space, signs, fractions, exponents and `0x`/`0o`/`0b` literals as exact reals. The `Infinity` literal, overflow to infinity, underflow and rounding to a double are not modelled.
- JsText.ParseInt: reads base 10, and base 16 after `0x`, into an unbounded integer. Rounding of very long digit runs to a double is not modelled.
- Api.HeadersFrom: a header list is a sequence of name/value pairs. `Headers` built from a record or another `Headers` object, and the combining of repeated names by `get`, are not modelled.
- Api.PrepareRequest: a body is nothing, form data, a blob, a string or a JSON object or array. Numeric and boolean bodies, which `fetch` would send as their text, are not representable, since no caller passes one.
- Api.Classify: requires that a truthy `error` field of a JSON error body is a string, because the envelope's `error` is typed as a string. A non-string would pass through unchanged at run time.
- Api.Classify: the message of the `TypeError` thrown when an error body is JSON `null` is an input (`nullAccess`). The same goes for the result of `res.text()` after `res.json()` has consumed the body: the model takes it as a separate read outcome.
- The `catch` branches of the pages' load, save and delete handlers are not modelled: `fetchAPI` catches every exception and resolves to an envelope, so those branches cannot run.
- ProductsPage.FilterAndSort: does not model the guard that turns a non-array `products` state into `[]` (`app/products/page.tsx:54-57`), because the page's loader only ever stores arrays. Stability of the sort is true by construction of the insertion sort but is not stated.
- ProductForm.HandleDetailsChange: requires the event to come from one of the rendered detail inputs (its name is a field of the block it is wired to; checkboxes are exactly the boolean fields; the two numeric fields are number inputs). An arbitrary name would add a key the record type cannot hold.
- The product form's common inputs (name, category, price, cost, stock, type select, file input) are single-field setters and are not modelled separately. Their values are the `FormState` fields.
- The product form's reference data loading (categories, light levels, watering frequencies) only fills select options and is not modelled.
- AuthContext.Sincronizar: a failed sync keeps the previous local user, as the code does; it only asks the provider to log out.
- `login` in `AuthContext.tsx` only redirects to the provider and is not modelled.
- RegisterPage.Submit: what `register` resolves to is an input (`RegisterResult`). `AuthContext.tsx` defines no `register`, so the corrected page is stated against a context value that adds one (see "## Findings").
- JsText.IntToString: writes every integer in plain decimal digits. JavaScript's `String` switches to exponent form from 1e21 (`"1e+21"`) and is exact only below 2^53. So `JsText.ParseIntOfIntToString` and the read-backs of `CategoryPath`, `ProductPath` and `CartPath` hold for integers below those bounds, the ids and quantities the backend issues, and not for every JavaScript number.
- Api.GetProducts: the parameters are a sequence of string pairs in order. The conversion of numeric values with `String`, and JavaScript's enumeration order of object keys (integer-like keys first), are not modelled.
- FormUrlEncoded.Parse: bytes that are not well-formed UTF-8 make the parse fail (`None`), where the WHATWG parser substitutes U+FFFD for each bad sequence and carries on. Well-formed means what `FormUrlEncoded.WellFormed` states: a lead byte in 0x00–0x7F or 0xC2–0xF4, continuation bytes in 0x80–0xBF, no overlong form, no surrogate and nothing above U+10FFFF. Lone surrogates, which `URLSearchParams` replaces with U+FFFD when it writes, cannot occur in a Dafny string.

## Findings

| source | as written | input that shows it | evidently intended | confidence | as-written member | corrected member |
|---|---|---|---|---|---|---|
| greenthumb-frontend/frontend/src/components/ProductCard.tsx:11-28 | the click handler calls `addItem` from `useCart()`, but the cart context provides `addToCart` and no `addItem`. The call throws a `TypeError` after `setIsAdding(true)`, and with no `finally` the flag is never cleared | any click on the add button of an in-stock product | add one unit of the product through the cart context, and clear `isAdding` once the call settles | not executed | ProductCard.ClickAsWritten | ProductCard.ClickCorrected |
| greenthumb-frontend/frontend/src/app/register/page.tsx:25-57 | `register` is destructured from `useAuth()`, whose value (`AuthContext.tsx:84`) has no `register`. With matching passwords `await register(...)` throws a `TypeError` after `setError(null)`: nothing is sent, no error is shown and the handler's promise rejects | any submit with matching passwords | send the form minus its confirmation, and show the result's error when registration fails | not executed | RegisterPage.SubmitAsWritten | RegisterPage.Submit |
| greenthumb-frontend/frontend/src/app/register/page.tsx:25-33 | `loading` is destructured from `useAuth()`, whose value defines `isLoading` instead. `!loading` is always true, so the redirect fires while the context is still loading | signed in while `isLoading` is true | redirect only once loading has finished | not executed | RegisterPage.RedirectAsWritten | RegisterPage.ShouldRedirect |
| greenthumb-frontend/frontend/src/app/register/page.tsx:112-113 | with `loading` undefined, the submit button is never disabled and never reads "Registrando..." | any render while `isLoading` is true | disable the button and show "Registrando..." while loading | not executed | RegisterPage.ButtonAsWritten | RegisterPage.ButtonCorrected |

=== FILE: admin_categories.dfy ===
/**
 * The category administration page (`app/admin/categories/page.tsx`):
 * loading the list, the create/edit modal, saving and deleting. Backend
 * responses and the confirmation dialog's answer are inputs; the requests the
 * page issues are outputs.
 */
module AdminCategories {
  import opened Options
  import opened JsText
  import opened Types
  import opened Api

  datatype PageState = PageState(
    categories: seq<Categoria>,
    isLoading: bool,
    error: Option<string>,
    isModalOpen: bool,
    selected: Option<Categoria>,
    isSubmitting: bool)

  const InitialPage: PageState := PageState([], true, None, false, None, false)

  const NoDataMessage: string := "No se recibieron datos de categorías."

  /**
   * `loadCategories`. Data with a falsy error replaces the list (a previous
   * error stays shown); otherwise the list is kept and the error becomes the
   * response's or the default message. Loading ends false either way.
   */
  function Load(s: PageState, response: ApiResponse<seq<Categoria>>): (r: PageState)
    ensures !r.isLoading
    ensures r.isModalOpen == s.isModalOpen && r.selected == s.selected && r.isSubmitting == s.isSubmitting
    ensures response.data.Some? && (response.error.None? || response.error.value == "") ==>
      r.categories == response.data.value && r.error == s.error
    ensures !(response.data.Some? && (response.error.None? || response.error.value == "")) ==>
      r.categories == s.categories && r.error.Some? && |r.error.value| > 0
    ensures !(response.data.Some? && (response.error.None? || response.error.value == "")) ==>
      (response.error.Some? && response.error.value != "" ==> r.error == response.error)
    ensures !(response.data.Some? && (response.error.None? || response.error.value == "")) ==>
      (response.error.None? || response.error.value == "" ==> r.error == Some(NoDataMessage))
  {
    if response.data.Some? && (response.error.None? || response.error.value == "") then
      s.(categories := response.data.value, isLoading := false)
    else
      s.(error := Some(OptionOrElse(response.error, NoDataMessage)), isLoading := false)
  }

  /** `handleOpenModalForCreate`. */
  function OpenForCreate(s: PageState): (r: PageState)
    ensures r.isModalOpen && r.selected.None?
    ensures r.(isModalOpen := s.isModalOpen, selected := s.selected) == s
  {
    s.(selected := None, isModalOpen := true)
  }

  /** `handleOpenModalForEdit`. */
  function OpenForEdit(s: PageState, c: Categoria): (r: PageState)
    ensures r.isModalOpen && r.selected == Some(c)
    ensures r.(isModalOpen := s.isModalOpen, selected := s.selected) == s
  {
    s.(selected := Some(c), isModalOpen := true)
  }

  /** `handleCloseModal`. */
  function CloseModal(s: PageState): (r: PageState)
    ensures !r.isModalOpen && r.selected.None?
    ensures r.(isModalOpen := s.isModalOpen, selected := s.selected) == s
  {
    s.(isModalOpen := false, selected := None)
  }

  /** A save: the state while the request is pending, the request, and the state once the reload is done. */
  datatype Save = Save(during: PageState, request: ApiCall, after: PageState)

  /**
   * `handleSubmitForm`. While pending, the page is submitting with no error.
   * The request updates the selected category, or creates one when none is
   * selected. Its envelope is not inspected: the modal closes and the list
   * reloads whatever it says.
   */
  function Submit(s: PageState, payload: CategoriaPayload, saved: ApiResponse<Json>,
                  reload: ApiResponse<seq<Categoria>>): (r: Save)
    ensures r.during.isSubmitting && r.during.error.None?
    ensures !r.after.isSubmitting && !r.after.isModalOpen && r.after.selected.None?
    ensures s.selected.Some? ==>
      r.request.endpoint == CategoryPath(s.selected.value.categoriaId) && r.request.options.httpMethod == Some("PUT")
    ensures s.selected.None? ==> r.request.endpoint == "/categorias" && r.request.options.httpMethod == Some("POST")
    ensures r.request.options.body == ObjectBody(CategoriaJson(payload))
    ensures r.after == Load(CloseModal(r.during), reload).(isSubmitting := false)
  {
    var during := s.(isSubmitting := true, error := None);
    var request := if s.selected.Some? then UpdateCategory(s.selected.value.categoriaId, payload) else CreateCategory(payload);
    Save(during, request, Load(CloseModal(during), reload).(isSubmitting := false))
  }

  /** The saved envelope, error or not, has no effect on the page. */
  lemma SubmitIgnoresSaveResult(s: PageState, payload: CategoriaPayload, saved1: ApiResponse<Json>,
                                saved2: ApiResponse<Json>, reload: ApiResponse<seq<Categoria>>)
    ensures Submit(s, payload, saved1, reload) == Submit(s, payload, saved2, reload)
  {
  }

  /**
   * `handleDelete`. Unconfirmed, nothing changes and nothing is sent.
   * Confirmed, the error is cleared, the delete is sent and the list reloads.
   */
  function Delete(s: PageState, id: int, confirmed: bool, reload: ApiResponse<seq<Categoria>>)
    : (r: (PageState, Option<ApiCall>))
    ensures !confirmed ==> r == (s, None)
    ensures confirmed ==> r.1 == Some(DeleteCategory(id)) && r.1.value.options.httpMethod == Some("DELETE")
    ensures confirmed ==> r.0 == Load(s.(error := None), reload)
  {
    if confirmed then (Load(s.(error := None), reload), Some(DeleteCategory(id))) else (s, None)
  }

  /** The page's events. */
  datatype PageEvent =
    | Loaded(response: ApiResponse<seq<Categoria>>)
    | OpenCreate
    | OpenEdit(category: Categoria)
    | Close
    | Submitted(payload: CategoriaPayload, saved: ApiResponse<Json>, reload: ApiResponse<seq<Categoria>>)
    | Deleted(id: int, confirmed: bool, reload: ApiResponse<seq<Categoria>>)

  function Step(s: PageState, e: PageEvent): PageState {
    match e
    case Loaded(response) => Load(s, response)
    case OpenCreate => OpenForCreate(s)
    case OpenEdit(c) => OpenForEdit(s, c)
    case Close => CloseModal(s)
    case Submitted(payload, saved, reload) => Submit(s, payload, saved, reload).after
    case Deleted(id, confirmed, reload) => Delete(s, id, confirmed, reload).0
  }

  function Run(s: PageState, events: seq<PageEvent>): PageState
    decreases |events|
  {
    if |events| == 0 then s else Run(Step(s, events[0]), events[1..])
  }

  /** A category is selected only while the modal is open, and no save is left pending. */
  ghost predicate Consistent(s: PageState) {
    (s.selected.Some? ==> s.isModalOpen) && !s.isSubmitting
  }

  /** Every run from a consistent page keeps it consistent. */
  lemma {:induction false} RunKeepsConsistent(s: PageState, events: seq<PageEvent>)
    requires Consistent(s)
    ensures Consistent(Run(s, events))
    decreases |events|
  {
    if |events| > 0 {
      var next := Step(s, events[0]);
      assert Consistent(next);
      RunKeepsConsistent(next, events[1..]);
    }
  }
}

=== FILE: admin_products.dfy ===
/**
 * The product administration page (`app/admin/products/page.tsx`): loading
 * the list, opening the form for a new or an existing product, saving and
 * deleting. Backend responses and the confirmation dialog's answer are
 * inputs; the requests the page issues are outputs.
 */
module AdminProducts {
  import opened Options
  import opened Types
  import opened Api

  datatype PageState = PageState(
    products: seq<ProductoListado>,
    isLoading: bool,
    error: Option<string>,
    isModalOpen: bool,
    selected: Option<ProductoDetalle>,
    isSubmitting: bool)

  const InitialPage: PageState := PageState([], true, None, false, None, false)

  /**
   * `loadProducts`: the page's content when present, else the empty list;
   * the error is cleared and loading ends either way.
   */
  function Load(s: PageState, response: ApiResponse<Page<ProductoListado>>): (r: PageState)
    ensures !r.isLoading && r.error.None?
    ensures r.isModalOpen == s.isModalOpen && r.selected == s.selected && r.isSubmitting == s.isSubmitting
    ensures response.data.Some? && response.data.value.content.Some? ==> r.products == response.data.value.content.value
    ensures response.data.None? || response.data.value.content.None? ==> r.products == []
  {
    var products := if response.data.Some? && response.data.value.content.Some? then response.data.value.content.value else [];
    s.(products := products, error := None, isLoading := false)
  }

  /** `handleOpenModalForCreate`. */
  function OpenForCreate(s: PageState): (r: PageState)
    ensures r.isModalOpen && r.selected.None?
    ensures r.(isModalOpen := s.isModalOpen, selected := s.selected) == s
  {
    s.(selected := None, isModalOpen := true)
  }

  /**
   * `handleOpenModalForEdit`: fetch the product's details; the modal opens in
   * edit mode with them, or in create mode when none came back.
   */
  function OpenForEdit(s: PageState, productId: int, details: ApiResponse<ProductoDetalle>)
    : (r: (ApiCall, PageState))
    ensures r.0 == GetProductById(productId) && r.0.endpoint == ProductPath(productId)
    ensures r.1.isModalOpen && r.1.selected == details.data && !r.1.isLoading
    ensures r.1.products == s.products && r.1.error == s.error && r.1.isSubmitting == s.isSubmitting
  {
    (GetProductById(productId), s.(selected := details.data, isModalOpen := true, isLoading := false))
  }

  /** `handleCloseModal`. */
  function CloseModal(s: PageState): (r: PageState)
    ensures !r.isModalOpen && r.selected.None?
    ensures r.(isModalOpen := s.isModalOpen, selected := s.selected) == s
  {
    s.(isModalOpen := false, selected := None)
  }

  /** A save: the state while the request is pending, the request, and the state once the reload is done. */
  datatype Save = Save(during: PageState, request: ApiCall, after: PageState)

  /**
   * `handleSubmitForm`. While pending, the page is submitting with no error.
   * The multipart request updates the selected product, or creates one when
   * none is selected; then the modal closes and the list reloads.
   */
  function Submit(s: PageState, fd: seq<FormEntry>, saved: ApiResponse<Json>,
                  reload: ApiResponse<Page<ProductoListado>>): (r: Save)
    ensures r.during.isSubmitting && r.during.error.None?
    ensures !r.after.isSubmitting && !r.after.isModalOpen && r.after.selected.None?
    ensures s.selected.Some? ==>
      r.request.endpoint == ProductPath(s.selected.value.productoId) && r.request.options.httpMethod == Some("PUT")
    ensures s.selected.None? ==> r.request.endpoint == "/productos" && r.request.options.httpMethod == Some("POST")
    ensures r.request.options.body == FormDataBody(fd)
    ensures r.after == Load(CloseModal(r.during), reload).(isSubmitting := false)
  {
    var during := s.(isSubmitting := true, error := None);
    var request := if s.selected.Some? then UpdateProduct(s.selected.value.productoId, fd) else CreateProduct(fd);
    Save(during, request, Load(CloseModal(during), reload).(isSubmitting := false))
  }

  /** The saved envelope, error or not, has no effect on the page. */
  lemma SubmitIgnoresSaveResult(s: PageState, fd: seq<FormEntry>, saved1: ApiResponse<Json>,
                                saved2: ApiResponse<Json>, reload: ApiResponse<Page<ProductoListado>>)
    ensures Submit(s, fd, saved1, reload) == Submit(s, fd, saved2, reload)
  {
  }

  /**
   * `handleDelete`. Unconfirmed, nothing changes and nothing is sent.
   * Confirmed, the error is cleared, the delete is sent and the list reloads.
   */
  function Delete(s: PageState, id: int, confirmed: bool, reload: ApiResponse<Page<ProductoListado>>)
    : (r: (PageState, Option<ApiCall>))
    ensures !confirmed ==> r == (s, None)
    ensures confirmed ==> r.1 == Some(DeleteProduct(id)) && r.1.value.options.httpMethod == Some("DELETE")
    ensures confirmed ==> r.0 == Load(s, reload) && r.0.error.None?
  {
    if confirmed then (Load(s.(error := None), reload), Some(DeleteProduct(id))) else (s, None)
  }

  /** The page's events. */
  datatype PageEvent =
    | Loaded(response: ApiResponse<Page<ProductoListado>>)
    | OpenCreate
    | OpenEdit(productId: int, details: ApiResponse<ProductoDetalle>)
    | Close
    | Submitted(fd: seq<FormEntry>, saved: ApiResponse<Json>, reload: ApiResponse<Page<ProductoListado>>)
    | Deleted(id: int, confirmed: bool, reload: ApiResponse<Page<ProductoListado>>)

  function Step(s: PageState, e: PageEvent): PageState {
    match e
    case Loaded(response) => Load(s, response)
    case OpenCreate => OpenForCreate(s)
    case OpenEdit(id, details) => OpenForEdit(s, id, details).1
    case Close => CloseModal(s)
    case Submitted(fd, saved, reload) => Submit(s, fd, saved, reload).after
    case Deleted(id, confirmed, reload) => Delete(s, id, confirmed, reload).0
  }

  function Run(s: PageState, events: seq<PageEvent>): PageState
    decreases |events|
  {
    if |events| == 0 then s else Run(Step(s, events[0]), events[1..])
  }

  /** A product is selected only while the modal is open, and no save is left pending. */
  ghost predicate Consistent(s: PageState) {
    (s.selected.Some? ==> s.isModalOpen) && !s.isSubmitting
  }

  /** Every run from a consistent page keeps it consistent. */
  lemma {:induction false} RunKeepsConsistent(s: PageState, events: seq<PageEvent>)
    requires Consistent(s)
    ensures Consistent(Run(s, events))
    decreases |events|
  {
    if |events| > 0 {
      var next := Step(s, events[0]);
      assert Consistent(next);
      RunKeepsConsistent(next, events[1..]);
    }
  }
}

=== FILE: api.dfy ===
/**
 * The HTTP client wrapper (`services/api.ts`): request preparation, the
 * classification of a response (or a transport failure) into an
 * `ApiResponse` envelope, the anonymous client id kept in local storage, and
 * the endpoint builders for categories, products and the cart.
 */
module Api {
  import opened Options
  import opened JsText
  import opened Types
  import FormUrlEncoded

  const ApiBaseUrl: string := "http://localhost:8080"
  const ApiPrefix: string := "/api"
  const JsonContentType: string := "application/json"

  /** The URL requested for an endpoint path: base URL, then `/api`, then the path. */
  function RequestUrl(endpoint: string): (url: string)
    ensures IsPrefix(ApiBaseUrl + ApiPrefix, url)
    ensures url[|ApiBaseUrl + ApiPrefix|..] == endpoint
  {
    ApiBaseUrl + ApiPrefix + endpoint
  }

  // ---------------------------------------------------------------- requests

  datatype Header = Header(name: string, value: string)

  /** HTTP white space: tab, line feed, carriage return and space. */
  predicate IsHttpWhiteSpace(c: char) {
    c == '\t' || c == '\n' || c == '\r' || c == ' '
  }

  /** A header value as `Headers` stores it: HTTP white space removed from both ends. */
  function NormalizeValue(v: string): (t: string)
    ensures |t| > 0 ==> !IsHttpWhiteSpace(t[0]) && !IsHttpWhiteSpace(t[|t| - 1])
  {
    TrimBy(v, IsHttpWhiteSpace)
  }

  /** Padding a value with HTTP white space does not change what is stored. */
  lemma NormalizeValueIgnoresPadding(before: string, v: string, after: string)
    requires forall i :: 0 <= i < |before| ==> IsHttpWhiteSpace(before[i])
    requires forall i :: 0 <= i < |after| ==> IsHttpWhiteSpace(after[i])
    ensures NormalizeValue(before + v + after) == NormalizeValue(v)
  {
    TrimByIgnoresPadding(before, v, after, IsHttpWhiteSpace);
  }

  /** A character of an HTTP token (section 5.6.2 of RFC 9110). */
  predicate IsTokenChar(c: char) {
    ('a' <= c <= 'z') || ('A' <= c <= 'Z') || ('0' <= c <= '9') || c in "!#$%&'*+-.^_`|~"
  }

  /** A header name: a non-empty token. */
  predicate IsHeaderName(n: string) {
    |n| > 0 && forall i :: 0 <= i < |n| ==> IsTokenChar(n[i])
  }

  /** A normalized header value: bytes only (no code point above U+00FF), and no NUL, CR or LF. */
  predicate IsHeaderValue(v: string) {
    forall i :: 0 <= i < |v| ==> v[i] <= '\U{FF}' && v[i] != '\0' && v[i] != '\n' && v[i] != '\r'
  }

  /** A header `new Headers` accepts. */
  predicate IsValidHeader(h: Header) {
    IsHeaderName(h.name) && IsHeaderValue(NormalizeValue(h.value))
  }

  /**
   * `new Headers(init)`: it throws a `TypeError` (`None`) when any name is
   * not a token or any normalized value holds a forbidden character;
   * otherwise it keeps every header in order, its name lower-cased and its
   * value normalized.
   */
  function HeadersFrom(init: seq<Header>): (hs: Option<seq<Header>>)
    ensures hs.Some? <==> forall i :: 0 <= i < |init| ==> IsValidHeader(init[i])
    ensures hs.Some? ==> |hs.value| == |init|
    ensures hs.Some? ==>
      forall i :: 0 <= i < |init| ==> hs.value[i] == Header(ToLower(init[i].name), NormalizeValue(init[i].value))
  {
    if |init| == 0 then Some([])
    else if !IsValidHeader(init[0]) then None
    else
      var tail := init[1..];
      assert forall i :: 0 <= i < |tail| ==> tail[i] == init[i + 1];
      match HeadersFrom(tail)
      case None => None
      case Some(rest) => Some([Header(ToLower(init[0].name), NormalizeValue(init[0].value))] + rest)
  }

  /** The stored (lower-case) name of the `Content-Type` header. */
  const ContentTypeName: string := "content-type"

  /**
   * `headers.has(name)` for a lower-case `name`; `has` lower-cases its
   * argument, so `has('Content-Type')` is `Has(hs, ContentTypeName)`.
   */
  predicate Has(hs: seq<Header>, name: string) {
    exists i :: 0 <= i < |hs| && hs[i].name == name
  }

  /** What `typeof body === 'object'` holds for on a truthy JSON value: an object or an array. */
  type JsonObject = j: Json | j.JObject? || j.JArray? witness JObject(map[])

  /**
   * A request body. A plain object or array is `ObjectBody`; a string is
   * `TextBody`; `null` and `undefined` are `NoBody`.
   */
  datatype RequestBody =
    | NoBody
    | FormDataBody(entries: seq<FormEntry>)
    | BlobBody(blob: Blob)
    | TextBody(text: string)
    | ObjectBody(json: JsonObject)

  datatype RequestOptions = RequestOptions(httpMethod: Option<string>, headers: seq<Header>, body: RequestBody)

  datatype Request = Request(url: string, httpMethod: Option<string>, headers: seq<Header>, body: RequestBody)

  /** The header list after the content-type step: JSON is added unless multipart or already present. */
  function WithContentType(given: seq<Header>, multipart: bool): (hs: seq<Header>)
    ensures |given| <= |hs| <= |given| + 1 && hs[..|given|] == given
    ensures (multipart || Has(given, ContentTypeName)) ==> hs == given
    ensures !multipart ==> Has(hs, ContentTypeName)
    ensures |hs| > |given| ==> !multipart && hs[|given|] == Header(ContentTypeName, JsonContentType)
  {
    if !multipart && !Has(given, ContentTypeName) then
      var hs := given + [Header(ContentTypeName, JsonContentType)];
      assert hs[|given|].name == ContentTypeName;
      hs
    else given
  }

  /**
   * The request `fetchAPI` hands to `fetch`, or `None` when `new Headers`
   * throws; that happens before the `try`, so the call rejects instead of
   * returning an envelope. A JSON content type is added unless the body is
   * multipart or a content type is already there, and an object or array
   * body is serialized into a JSON blob.
   */
  function PrepareRequest(endpoint: string, options: RequestOptions): (r: Option<Request>)
    ensures r.Some? <==> forall i :: 0 <= i < |options.headers| ==> IsValidHeader(options.headers[i])
    ensures r.Some? ==>
      var given := HeadersFrom(options.headers).value;
      && r.value.url == RequestUrl(endpoint) && r.value.httpMethod == options.httpMethod
      // the caller's headers are all kept, in order, and at most one is added
      && |given| <= |r.value.headers| <= |given| + 1
      && r.value.headers[..|given|] == given
      // a multipart body gets no content type from us (the transport sets the boundary)
      && (options.body.FormDataBody? ==> r.value.headers == given)
      // an existing content type is never overwritten
      && (Has(given, ContentTypeName) ==> r.value.headers == given)
      // every other request carries a content type
      && (!options.body.FormDataBody? ==> Has(r.value.headers, ContentTypeName))
      // and the one added, if any, is JSON
      && (|r.value.headers| > |given| ==>
            !options.body.FormDataBody? && r.value.headers[|given|] == Header(ContentTypeName, JsonContentType))
      // only an object or array body is serialized; any other body is sent as given
      && (options.body.ObjectBody? ==> r.value.body == BlobBody(JsonBlob(options.body.json)))
      && (!options.body.ObjectBody? ==> r.value.body == options.body)
  {
    match HeadersFrom(options.headers)
    case None => None
    case Some(given) =>
      var headers := WithContentType(given, options.body.FormDataBody?);
      var body := if options.body.ObjectBody? then BlobBody(JsonBlob(options.body.json)) else options.body;
      Some(Request(RequestUrl(endpoint), options.httpMethod, headers, body))
  }

  // --------------------------------------------------------------- responses

  /** What reading a body (`res.json()` or `res.text()`) resolves to. */
  datatype Read<T> = Read(value: T) | Rejected(message: string)

  /**
   * An HTTP response as `fetchAPI` can observe it. The three read outcomes
   * are what `res.json()` and `res.text()` yield on the unread body, and what
   * `res.text()` yields once a `res.json()` call has rejected.
   */
  datatype HttpResponse = HttpResponse(
    status: int,
    statusText: string,
    contentType: Option<string>,
    contentLength: Option<string>,
    json: Read<Json>,
    text: Read<string>,
    textAfterJson: Read<string>)

  /** The outcome of `fetch`: a transport failure, or a response. */
  datatype Exchange = NetworkError(message: string) | Responded(response: HttpResponse)

  /** `res.ok`. */
  predicate IsOk(status: int) {
    200 <= status <= 299
  }

  /** `contentType && contentType.includes('application/json')`. */
  predicate IsJsonType(contentType: Option<string>) {
    contentType.Some? && Contains(contentType.value, JsonContentType)
  }

  /** `!contentType`: no header, or an empty one. */
  predicate NoContentType(contentType: Option<string>) {
    contentType.None? || contentType.value == ""
  }

  /** A success the wrapper treats as carrying no body, before looking at the content type. */
  predicate IsEmptySuccess(res: HttpResponse) {
    res.status == 204 || res.contentLength == Some("0") || NoContentType(res.contentType)
  }

  const ParseErrorPrefix: string := "Error al parsear la respuesta de error JSON: "
  const RequestErrorPrefix: string := "Error en la petición: "
  const ConnectionErrorPrefix: string := "Error de conexión: "

  /** The envelope's `error` is typed `string`: a truthy `error` field of a JSON error body must be text. */
  predicate ErrorFieldIsText(body: Json) {
    var e := Field(body, "error");
    e.Some? && Truthy(e.value) ==> e.value.JString?
  }

  /** The first non-empty string of a list, or the empty string. */
  function FirstNonEmpty(candidates: seq<string>): (r: string)
    ensures r != "" <==> exists i :: 0 <= i < |candidates| && candidates[i] != ""
  {
    if |candidates| == 0 then ""
    else if candidates[0] != "" then candidates[0]
    else
      var r := FirstNonEmpty(candidates[1..]);
      assert forall i :: 1 <= i < |candidates| ==> candidates[i] == candidates[1..][i - 1];
      r
  }

  /** The chosen candidate is the first non-empty one: every earlier candidate is empty. */
  lemma {:induction false} FirstNonEmptyIsFirst(candidates: seq<string>)
    ensures FirstNonEmpty(candidates) != "" ==>
      exists i :: 0 <= i < |candidates| && candidates[i] == FirstNonEmpty(candidates)
        && (forall j :: 0 <= j < i ==> candidates[j] == "")
  {
    if |candidates| > 0 && candidates[0] == "" {
      FirstNonEmptyIsFirst(candidates[1..]);
      if FirstNonEmpty(candidates) != "" {
        var i :| 0 <= i < |candidates| - 1 && candidates[1..][i] == FirstNonEmpty(candidates[1..])
          && (forall j :: 0 <= j < i ==> candidates[1..][j] == "");
        assert forall j :: 1 <= j < i + 1 ==> candidates[j] == candidates[1..][j - 1];
      }
    }
  }

  lemma FirstNonEmptyOfThree(a: string, b: string, c: string)
    ensures FirstNonEmpty([a, b, c]) == OrElse(a, OrElse(b, c))
  {
    assert [c][1..] == [];
    assert FirstNonEmpty([c]) == c;
    assert [b, c][1..] == [c];
    assert FirstNonEmpty([b, c]) == OrElse(b, c);
    assert [a, b, c][1..] == [b, c];
  }

  lemma FirstNonEmptyOfTwo(a: string, b: string)
    ensures FirstNonEmpty([a, b]) == OrElse(a, b)
  {
    assert [b][1..] == [];
    assert FirstNonEmpty([b]) == b;
    assert [a, b][1..] == [b];
  }

  /** The message picked from a parsed, non-null JSON error body. */
  function ErrorMessage(body: Json, statusText: string): (m: string)
    requires ErrorFieldIsText(body)
    ensures |m| > 0
  {
    var e := Field(body, "error");
    var msg := Field(body, "message");
    if e.Some? && Truthy(e.value) then e.value.s
    else if msg.Some? && msg.value.JString? && |msg.value.s| > 0 then msg.value.s
    else RequestErrorPrefix + statusText
  }

  /** Reading a failed response's body throws inside `fetchAPI` (caught by its outer handler). */
  predicate FailureBodyThrows(res: HttpResponse) {
    if IsJsonType(res.contentType) then
      (res.json.Read? && res.json.value.JNull?) || (res.json.Rejected? && res.textAfterJson.Rejected?)
    else res.text.Rejected?
  }

  /** The precondition of `Classify`, on a response. */
  predicate WellTypedErrorBody(ex: Exchange) {
    (ex.Responded? && !IsOk(ex.response.status) && IsJsonType(ex.response.contentType) && ex.response.json.Read?)
    ==> ErrorFieldIsText(ex.response.json.value)
  }

  /** The envelope for a non-ok response; `nullAccess` is the TypeError raised by reading a property of `null`. */
  function ClassifyFailure(res: HttpResponse, nullAccess: string): ApiResponse<Json>
    requires WellTypedErrorBody(Responded(res)) && !IsOk(res.status)
  {
    if IsJsonType(res.contentType) then
      match res.json
      case Read(body) =>
        if body.JNull? then ApiResponse(None, Some(nullAccess), None)
        else ApiResponse(None, Some(ErrorMessage(body, res.statusText)), Some(res.status))
      case Rejected(e) =>
        match res.textAfterJson
        case Rejected(m) => ApiResponse(None, Some(m), None)
        case Read(t) =>
          var message := OrElse(t, ParseErrorPrefix + e);
          ApiResponse(None, Some(ErrorMessage(JObject(map["message" := JString(message)]), res.statusText)), Some(res.status))
    else
      match res.text
      case Rejected(m) => ApiResponse(None, Some(m), None)
      case Read(t) =>
        var message := OrElse(t, OrElse(res.statusText, ConnectionErrorPrefix + IntToString(res.status)));
        ApiResponse(None, Some(ErrorMessage(JObject(map["message" := JString(message)]), res.statusText)), Some(res.status))
  }

  /** The envelope for an ok response. */
  function ClassifySuccess(res: HttpResponse): ApiResponse<Json> {
    if IsEmptySuccess(res) then ApiResponse(None, None, Some(res.status))
    else if IsJsonType(res.contentType) then
      match res.json
      case Read(data) => ApiResponse(Some(data), None, Some(res.status))
      case Rejected(m) => ApiResponse(None, Some(m), None)
    else ApiResponse(None, None, Some(res.status))
  }

  /** `fetchAPI`'s result for an exchange: it never throws, every outcome becomes an envelope. */
  function Classify(ex: Exchange, nullAccess: string): (r: ApiResponse<Json>)
    requires WellTypedErrorBody(ex)
    // never both a payload and a message
    ensures !(r.data.Some? && r.error.Some?)
    // a payload only comes from a JSON success
    ensures r.data.Some? ==>
      (ex.Responded? && IsOk(ex.response.status) && IsJsonType(ex.response.contentType)
       && ex.response.json == Read(r.data.value) && r.status == Some(ex.response.status))
    // a transport failure is reported, with no status
    ensures ex.NetworkError? ==> r == ApiResponse(None, Some(ex.message), None)
    ensures ex.Responded? ==> (
      var res := ex.response;
      // a non-ok response whose body can be read: error set, no data, the HTTP status
      && (!IsOk(res.status) && !FailureBodyThrows(res) ==>
            r.data.None? && r.error.Some? && |r.error.value| > 0 && r.status == Some(res.status))
      // a non-ok response whose body read throws: the thrown message, no status
      && (!IsOk(res.status) && FailureBodyThrows(res) ==>
            r.data.None? && r.error.Some? && r.status.None?)
      // ... reading `.error` of a `null` JSON body throws a TypeError
      && (!IsOk(res.status) && IsJsonType(res.contentType) && res.json == Read(JNull) ==>
            r == ApiResponse(None, Some(nullAccess), None))
      // ... `res.text()` rejecting after `res.json()` did, or on a non-JSON body, rejects with its own message
      && (!IsOk(res.status) && IsJsonType(res.contentType) && res.json.Rejected? && res.textAfterJson.Rejected? ==>
            r == ApiResponse(None, Some(res.textAfterJson.message), None))
      && (!IsOk(res.status) && !IsJsonType(res.contentType) && res.text.Rejected? ==>
            r == ApiResponse(None, Some(res.text.message), None))
      // an unparsable JSON error body: the body text, else the parse error
      && (!IsOk(res.status) && IsJsonType(res.contentType) && res.json.Rejected? && res.textAfterJson.Read? ==>
            r == ApiResponse(None, Some(FirstNonEmpty([res.textAfterJson.value, ParseErrorPrefix + res.json.message])),
                             Some(res.status)))
      // precedence for a parsed JSON error body: `error`, then a non-empty `message`, then the status text
      && (!IsOk(res.status) && IsJsonType(res.contentType) && res.json.Read? && !res.json.value.JNull? ==>
            var e, msg := Field(res.json.value, "error"), Field(res.json.value, "message");
            if e.Some? && Truthy(e.value) then r.error == Some(e.value.s)
            else if msg.Some? && msg.value.JString? && msg.value.s != "" then r.error == Some(msg.value.s)
            else r.error == Some(RequestErrorPrefix + res.statusText))
      // a non-JSON error body: the first non-empty of body text, status text, "Error de conexión: <status>"
      && (!IsOk(res.status) && !IsJsonType(res.contentType) && res.text.Read? ==>
            r.error == Some(FirstNonEmpty([res.text.value, res.statusText,
                                           ConnectionErrorPrefix + IntToString(res.status)])))
      // an empty success (204, Content-Length "0", no content type) wins over JSON parsing
      && (IsOk(res.status) && IsEmptySuccess(res) ==> r == ApiResponse(None, None, Some(res.status)))
      // a JSON success returns the parsed payload
      && (IsOk(res.status) && !IsEmptySuccess(res) && IsJsonType(res.contentType) && res.json.Read? ==>
            r == ApiResponse(Some(res.json.value), None, Some(res.status)))
      // a JSON success whose body does not parse: `res.json()` rejects into the outer catch
      && (IsOk(res.status) && !IsEmptySuccess(res) && IsJsonType(res.contentType) && res.json.Rejected? ==>
            r == ApiResponse(None, Some(res.json.message), None))
      // a success of any other content type carries neither payload nor message
      && (IsOk(res.status) && !IsEmptySuccess(res) && !IsJsonType(res.contentType) ==>
            r == ApiResponse(None, None, Some(res.status))))
  {
    match ex
    case NetworkError(m) => ApiResponse(None, Some(m), None)
    case Responded(res) =>
      if !IsOk(res.status) then
        var text := if res.text.Read? then res.text.value else "";
        FirstNonEmptyOfThree(text, res.statusText, ConnectionErrorPrefix + IntToString(res.status));
        var afterJson := if res.json.Rejected? && res.textAfterJson.Read? then res.textAfterJson.value else "";
        FirstNonEmptyOfTwo(afterJson, ParseErrorPrefix + (if res.json.Rejected? then res.json.message else ""));
        ClassifyFailure(res, nullAccess)
      else ClassifySuccess(res)
  }

  // ------------------------------------------------------- anonymous client id

  type Store = map<string, string>

  const AnonymousIdKey: string := "greenthumb_anonymous_id"
  const DefaultClientId: string := "3"

  /**
   * `getAnonymousClientId`: the stored id when there is a non-empty one,
   * otherwise "3", which is stored. Returns the id and the store afterwards.
   */
  function GetAnonymousClientId(store: Store): (r: (string, Store))
    ensures AnonymousIdKey in store && store[AnonymousIdKey] != "" ==> r == (store[AnonymousIdKey], store)
    ensures AnonymousIdKey !in store || store[AnonymousIdKey] == "" ==>
      r == (DefaultClientId, store[AnonymousIdKey := DefaultClientId])
    ensures r.0 != "" && AnonymousIdKey in r.1 && r.1[AnonymousIdKey] == r.0
    ensures r.1.Keys == store.Keys + {AnonymousIdKey}
    ensures forall k :: k in store && k != AnonymousIdKey ==> r.1[k] == store[k]
  {
    if AnonymousIdKey in store && store[AnonymousIdKey] != "" then (store[AnonymousIdKey], store)
    else (DefaultClientId, store[AnonymousIdKey := DefaultClientId])
  }

  /** A second lookup returns the same id and writes nothing. */
  lemma AnonymousClientIdIsStable(store: Store)
    ensures var (id, after) := GetAnonymousClientId(store); GetAnonymousClientId(after) == (id, after)
  {
  }

  // ------------------------------------------------------------- endpoints

  /** A call of `fetchAPI`: the endpoint path and the options. */
  datatype ApiCall = ApiCall(endpoint: string, options: RequestOptions)

  function Fetch(endpoint: string): ApiCall {
    ApiCall(endpoint, RequestOptions(None, [], NoBody))
  }

  function Send(endpoint: string, httpMethod: string, body: RequestBody): ApiCall {
    ApiCall(endpoint, RequestOptions(Some(httpMethod), [], body))
  }

  /** `new URLSearchParams(params).toString()`. */
  function QueryString(params: seq<(string, string)>): string {
    FormUrlEncoded.Serialize(params)
  }

  const CategoriesRoot: string := "/categorias"
  const ProductsRoot: string := "/productos"

  function CategoryPath(id: int): string { CategoriesRoot + "/" + IntToString(id) }

  function ProductPath(id: int): string { ProductsRoot + "/" + IntToString(id) }

  /** The record id a `<root>/<id>` path names, read back. */
  function RecordIdOf(root: string, endpoint: string): Option<int> {
    if IsPrefix(root + "/", endpoint) then ExactInt(endpoint[|root| + 1..]) else None
  }

  lemma RecordIdOfPath(root: string, id: int)
    ensures RecordIdOf(root, root + "/" + IntToString(id)) == Some(id)
  {
    assert (root + "/" + IntToString(id))[|root| + 1..] == IntToString(id);
    ExactIntOfIntToString(id);
  }

  /** A segment that starts with a letter is not an id: `String` of an integer starts with a digit or `-`. */
  lemma LetterSegmentIsNoId(segment: string)
    requires |segment| > 0 && 'a' <= segment[0] <= 'z'
    ensures ExactInt(segment).None?
  {
    var r := ExactInt(segment);
    assert r.Some? ==> IntToString(r.value)[0] == '-' || IsDigit(IntToString(r.value)[0]);
  }

  /** `getCategories`: a GET of the whole collection, whose path names no single category. */
  function GetCategories(): (r: ApiCall)
    ensures r.endpoint == CategoriesRoot && RecordIdOf(CategoriesRoot, r.endpoint).None?
    ensures r.options.httpMethod.None? && r.options.body.NoBody?
  {
    Fetch(CategoriesRoot)
  }

  /** The reason every admin deletion sends. */
  const DeleteReasonText: string := "Eliminado desde panel de admin"

  /** A body holding exactly the category's two fields. */
  predicate IsCategoriaBody(body: RequestBody, c: CategoriaPayload) {
    && body.ObjectBody? && body.json.JObject?
    && body.json.fields.Keys == {"nombreCategoria", "descripcionCategoria"}
    && Field(body.json, "nombreCategoria") == Some(JString(c.nombreCategoria))
    && Field(body.json, "descripcionCategoria") == Some(JString(c.descripcionCategoria))
  }

  /** A body holding exactly the deletion reason. */
  predicate IsDeleteReasonBody(body: RequestBody) {
    && body.ObjectBody? && body.json.JObject?
    && body.json.fields.Keys == {"motivoBaja"}
    && Field(body.json, "motivoBaja") == Some(JString(DeleteReasonText))
  }

  const DeleteReason: JsonObject := JObject(map["motivoBaja" := JString(DeleteReasonText)])

  function CategoriaJson(c: CategoriaPayload): JsonObject {
    JObject(map["nombreCategoria" := JString(c.nombreCategoria),
                "descripcionCategoria" := JString(c.descripcionCategoria)])
  }

  function GetCategoryById(id: int): (r: ApiCall)
    ensures RecordIdOf(CategoriesRoot, r.endpoint) == Some(id)
    ensures r.options.httpMethod.None? && r.options.body.NoBody?
  {
    RecordIdOfPath(CategoriesRoot, id);
    Fetch(CategoryPath(id))
  }

  /** `createCategory`: a POST of the two category fields to the collection. */
  function CreateCategory(c: CategoriaPayload): (r: ApiCall)
    ensures r.endpoint == CategoriesRoot && r.options.httpMethod == Some("POST")
    ensures IsCategoriaBody(r.options.body, c)
  {
    Send(CategoriesRoot, "POST", ObjectBody(CategoriaJson(c)))
  }

  /** `updateCategory`: a PUT of the two category fields to the record's path. */
  function UpdateCategory(id: int, c: CategoriaPayload): (r: ApiCall)
    ensures RecordIdOf(CategoriesRoot, r.endpoint) == Some(id) && r.options.httpMethod == Some("PUT")
    ensures IsCategoriaBody(r.options.body, c)
  {
    RecordIdOfPath(CategoriesRoot, id);
    Send(CategoryPath(id), "PUT", ObjectBody(CategoriaJson(c)))
  }

  /** `deleteCategory`: a DELETE of the record's path carrying the deletion reason as JSON. */
  function DeleteCategory(id: int): (r: ApiCall)
    ensures RecordIdOf(CategoriesRoot, r.endpoint) == Some(id) && r.options.httpMethod == Some("DELETE")
    ensures IsDeleteReasonBody(r.options.body)
  {
    RecordIdOfPath(CategoriesRoot, id);
    Send(CategoryPath(id), "DELETE", ObjectBody(DeleteReason))
  }

  /** `getProducts(params)`: a GET of the collection with the parameters as its query. */
  function GetProducts(params: seq<(string, string)>): (r: ApiCall)
    ensures IsPrefix(ProductsRoot + "?", r.endpoint)
    ensures FormUrlEncoded.Parse(r.endpoint[|ProductsRoot| + 1..]) == Some(params)
    ensures r.options.httpMethod.None? && r.options.body.NoBody?
  {
    var e := ProductsRoot + "?" + QueryString(params);
    assert e[|ProductsRoot| + 1..] == QueryString(params);
    FormUrlEncoded.ParseOfSerialize(params);
    Fetch(e)
  }

  /** A single parameter of unreserved text is written into the path without escapes. */
  lemma GetProductsOfPlainPair(k: string, v: string)
    requires FormUrlEncoded.AllUnreserved(k) && FormUrlEncoded.AllUnreserved(v)
    ensures GetProducts([(k, v)]).endpoint == ProductsRoot + "?" + k + "=" + v
  {
    FormUrlEncoded.SerializeOneUnreserved(k, v);
  }

  /** The path of a first page of `size` products, for a size written in digits. */
  lemma SizePath(size: string)
    requires AllDigits(size)
    ensures FormUrlEncoded.AllUnreserved("size") && FormUrlEncoded.AllUnreserved(size)
    ensures ProductsRoot + "?" + "size" + "=" + size == "/productos?size=" + size
  {
  }

  /** The parameters both product pages pass to `getProducts`: one page of up to 100 products. */
  const FirstPageQuery: seq<(string, string)> := [("size", "100")]

  /** The request both product pages issue when they load: a GET of the first 100 products. */
  function FirstProductsPage(): (r: ApiCall)
    ensures r.endpoint == "/productos?size=" + "100"
    ensures r.options.httpMethod.None? && r.options.body.NoBody?
  {
    SizePath("100");
    GetProductsOfPlainPair("size", "100");
    GetProducts(FirstPageQuery)
  }

  function GetProductById(id: int): (r: ApiCall)
    ensures RecordIdOf(ProductsRoot, r.endpoint) == Some(id)
    ensures r.options.httpMethod.None? && r.options.body.NoBody?
  {
    RecordIdOfPath(ProductsRoot, id);
    Fetch(ProductPath(id))
  }

  /** `createProduct`: a multipart POST of the form to the collection. */
  function CreateProduct(fd: seq<FormEntry>): (r: ApiCall)
    ensures r.endpoint == ProductsRoot && r.options.httpMethod == Some("POST")
    ensures r.options.body == FormDataBody(fd)
  {
    Send(ProductsRoot, "POST", FormDataBody(fd))
  }

  /** `updateProduct`: a multipart PUT of the form to the record's path. */
  function UpdateProduct(id: int, fd: seq<FormEntry>): (r: ApiCall)
    ensures RecordIdOf(ProductsRoot, r.endpoint) == Some(id) && r.options.httpMethod == Some("PUT")
    ensures r.options.body == FormDataBody(fd)
  {
    RecordIdOfPath(ProductsRoot, id);
    Send(ProductPath(id), "PUT", FormDataBody(fd))
  }

  /** `deleteProduct`: a DELETE of the record's path carrying the deletion reason as JSON. */
  function DeleteProduct(id: int): (r: ApiCall)
    ensures RecordIdOf(ProductsRoot, r.endpoint) == Some(id) && r.options.httpMethod == Some("DELETE")
    ensures IsDeleteReasonBody(r.options.body)
  {
    RecordIdOfPath(ProductsRoot, id);
    Send(ProductPath(id), "DELETE", ObjectBody(DeleteReason))
  }

  /**
   * `getTiposProducto`: a GET under the products root that is not a
   * product's path, since no id reads back from it.
   */
  function GetTiposProducto(): (r: ApiCall)
    ensures r.endpoint == ProductsRoot + "/tipos-producto" && RecordIdOf(ProductsRoot, r.endpoint).None?
    ensures r.options.httpMethod.None? && r.options.body.NoBody?
  {
    var e := ProductsRoot + "/tipos-producto";
    assert IsPrefix(ProductsRoot + "/", e) && e[|ProductsRoot| + 1..] == "tipos-producto";
    LetterSegmentIsNoId("tipos-producto");
    Fetch(e)
  }

  /** `getNivelesLuz`: a GET of the light levels. */
  function GetNivelesLuz(): (r: ApiCall)
    ensures r.endpoint == "/nivelesluz" && r.options.httpMethod.None? && r.options.body.NoBody?
  {
    Fetch("/nivelesluz")
  }

  /** `getFrecuenciasRiego`: a GET of the watering frequencies. */
  function GetFrecuenciasRiego(): (r: ApiCall)
    ensures r.endpoint == "/frecuenciasriego" && r.options.httpMethod.None? && r.options.body.NoBody?
  {
    Fetch("/frecuenciasriego")
  }

  /** `getDashboardData`: a GET of the dashboard metrics. */
  function GetDashboardData(): (r: ApiCall)
    ensures r.endpoint == "/dashboard/metrics" && r.options.httpMethod.None? && r.options.body.NoBody?
  {
    Fetch("/dashboard/metrics")
  }

  /** Paths that name a record by id name exactly one record. */
  lemma RecordPathsIdentifyRecord(a: int, b: int)
    ensures CategoryPath(a) == CategoryPath(b) ==> a == b
    ensures ProductPath(a) == ProductPath(b) ==> a == b
  {
    RecordIdOfPath(CategoriesRoot, a);
    RecordIdOfPath(CategoriesRoot, b);
    RecordIdOfPath(ProductsRoot, a);
    RecordIdOfPath(ProductsRoot, b);
  }

  // ------------------------------------------------------------------ cart

  /** The root every per-client cart path starts with. */
  function CartRoot(clientId: string): string { "/carrito/" + clientId }

  /** The cart operation a per-client cart path asks for. */
  datatype CartAction =
    | ViewCart
    | AddItem(productoId: int, cantidad: int)
    | SetQuantity(productoId: int, nuevaCantidad: int)
    | RemoveItem(productoId: int)
    | EmptyCart

  /** The path of a cart operation, with the query `URLSearchParams` writes for it. */
  function CartPath(clientId: string, a: CartAction): string {
    CartRoot(clientId) +
      match a
      case ViewCart => ""
      case AddItem(p, c) => "/agregar?" + QueryString([("productoId", IntToString(p)), ("cantidad", IntToString(c))])
      case SetQuantity(p, c) =>
        "/actualizar?" + QueryString([("productoId", IntToString(p)), ("nuevaCantidad", IntToString(c))])
      case RemoveItem(p) => "/eliminar/" + IntToString(p)
      case EmptyCart => "/vaciar"
  }

  /** The integer `s` spells exactly as `String` writes it. */
  function ExactInt(s: string): (r: Option<int>)
    ensures r.Some? ==> IntToString(r.value) == s
  {
    match ParseInt(s)
    case Some(n) => if IntToString(n) == s then Some(n) else None
    case None => None
  }

  /** The two integers of a query `k1=<int>&k2=<int>`, read with the form-urlencoded parser. */
  function ParseQuery2(q: string, k1: string, k2: string): Option<(int, int)> {
    match FormUrlEncoded.Parse(q)
    case Some(ps) =>
      if |ps| != 2 || ps[0].0 != k1 || ps[1].0 != k2 then None
      else (match (ExactInt(ps[0].1), ExactInt(ps[1].1))
        case (Some(a), Some(b)) => Some((a, b))
        case _ => None)
    case None => None
  }

  /**
   * The operation a path names for the given client, read back: the root
   * alone views the cart; `/vaciar` empties it; `/eliminar/<id>` removes a
   * product; `/agregar?` and `/actualizar?` carry the product and quantity.
   */
  function ParseCartPath(endpoint: string, clientId: string): Option<CartAction> {
    var root := CartRoot(clientId);
    if !IsPrefix(root, endpoint) then None
    else ParseCartSuffix(endpoint[|root|..])
  }

  function ParseCartSuffix(rest: string): Option<CartAction> {
    if rest == "" then Some(ViewCart)
    else if rest == "/vaciar" then Some(EmptyCart)
    else if IsPrefix("/eliminar/", rest) then
      match ExactInt(rest[10..])
      case Some(p) => Some(RemoveItem(p))
      case None => None
    else if IsPrefix("/agregar?", rest) then
      match ParseQuery2(rest[9..], "productoId", "cantidad")
      case Some((p, c)) => Some(AddItem(p, c))
      case None => None
    else if IsPrefix("/actualizar?", rest) then
      match ParseQuery2(rest[12..], "productoId", "nuevaCantidad")
      case Some((p, c)) => Some(SetQuantity(p, c))
      case None => None
    else None
  }

  lemma ExactIntOfIntToString(n: int)
    ensures ExactInt(IntToString(n)) == Some(n)
  {
    ParseIntOfIntToString(n);
  }

  /** Reading back a two-key query of integers gives the integers written. */
  lemma QueryRoundTrip(k1: string, a: int, k2: string, b: int)
    ensures ParseQuery2(QueryString([(k1, IntToString(a)), (k2, IntToString(b))]), k1, k2) == Some((a, b))
  {
    FormUrlEncoded.ParseOfSerialize([(k1, IntToString(a)), (k2, IntToString(b))]);
    ExactIntOfIntToString(a);
    ExactIntOfIntToString(b);
  }

  /** The cart queries are written without escapes: `productoId=<p>&<key>=<c>`. */
  lemma CartQueryText(key: string, p: int, c: int)
    requires key == "cantidad" || key == "nuevaCantidad"
    ensures QueryString([("productoId", IntToString(p)), (key, IntToString(c))])
      == "productoId" + "=" + IntToString(p) + "&" + key + "=" + IntToString(c)
  {
    assert FormUrlEncoded.AllUnreserved("productoId");
    assert FormUrlEncoded.AllUnreserved(key);
    FormUrlEncoded.IntToStringIsUnreserved(p);
    FormUrlEncoded.IntToStringIsUnreserved(c);
    FormUrlEncoded.SerializeTwoUnreserved("productoId", IntToString(p), key, IntToString(c));
  }

  /** Every cart path reads back as the operation it was built from. */
  lemma CartPathRoundTrip(clientId: string, a: CartAction)
    ensures ParseCartPath(CartPath(clientId, a), clientId) == Some(a)
  {
    var root := CartRoot(clientId);
    var suffix := CartPath(clientId, a)[|root|..];
    assert CartPath(clientId, a) == root + suffix;
    assert IsPrefix(root, CartPath(clientId, a));
    CartSuffixRoundTrip(a, suffix);
  }

  /** The part after the root reads back as the operation. */
  lemma CartSuffixRoundTrip(a: CartAction, rest: string)
    requires rest == CartPath("", a)[|CartRoot("")|..]
    ensures ParseCartSuffix(rest) == Some(a)
  {
    match a
    case ViewCart =>
    case EmptyCart =>
    case RemoveItem(p) =>
      RemoveSuffixRoundTrip(p, rest);
    case AddItem(p, c) =>
      var q := QueryString([("productoId", IntToString(p)), ("cantidad", IntToString(c))]);
      QueryRoundTrip("productoId", p, "cantidad", c);
      AddSuffixRoundTrip(p, c, q, rest);
    case SetQuantity(p, c) =>
      var q := QueryString([("productoId", IntToString(p)), ("nuevaCantidad", IntToString(c))]);
      QueryRoundTrip("productoId", p, "nuevaCantidad", c);
      SetSuffixRoundTrip(p, c, q, rest);
  }

  lemma RemoveSuffixRoundTrip(p: int, rest: string)
    requires rest == "/eliminar/" + IntToString(p)
    ensures ParseCartSuffix(rest) == Some(RemoveItem(p))
  {
    assert rest[1] == 'e' && rest[..10] == "/eliminar/" && rest[10..] == IntToString(p);
    ExactIntOfIntToString(p);
  }

  /** Which branch of `ParseCartSuffix` a query suffix takes, and the query it hands on. */
  lemma QuerySuffixShape(q: string, rest: string)
    ensures rest == "/agregar?" + q ==>
      rest != "" && rest != "/vaciar" && !IsPrefix("/eliminar/", rest) && IsPrefix("/agregar?", rest) && rest[9..] == q
    ensures rest == "/actualizar?" + q ==>
      && rest != "" && rest != "/vaciar" && !IsPrefix("/eliminar/", rest) && !IsPrefix("/agregar?", rest)
      && IsPrefix("/actualizar?", rest) && rest[12..] == q
  {
    if rest == "/agregar?" + q {
      assert rest[1] == 'a' && rest[..9] == "/agregar?";
    }
    if rest == "/actualizar?" + q {
      assert rest[1] == 'a' && rest[2] == 'c' && rest[..12] == "/actualizar?";
    }
  }

  lemma AddSuffixRoundTrip(p: int, c: int, q: string, rest: string)
    requires ParseQuery2(q, "productoId", "cantidad") == Some((p, c))
    requires rest == "/agregar?" + q
    ensures ParseCartSuffix(rest) == Some(AddItem(p, c))
  {
    QuerySuffixShape(q, rest);
  }

  lemma SetSuffixRoundTrip(p: int, c: int, q: string, rest: string)
    requires ParseQuery2(q, "productoId", "nuevaCantidad") == Some((p, c))
    requires rest == "/actualizar?" + q
    ensures ParseCartSuffix(rest) == Some(SetQuantity(p, c))
  {
    QuerySuffixShape(q, rest);
  }

  /** Distinct cart operations of one client use distinct paths. */
  lemma CartPathsAreDistinct(clientId: string, a: CartAction, b: CartAction)
    requires a != b
    ensures CartPath(clientId, a) != CartPath(clientId, b)
  {
    CartPathRoundTrip(clientId, a);
    CartPathRoundTrip(clientId, b);
  }

  /** `getCart`: a plain GET of the client's cart root. */
  function GetCart(store: Store): (r: (ApiCall, Store))
    ensures var (id, after) := GetAnonymousClientId(store);
      && r.1 == after && ParseCartPath(r.0.endpoint, id) == Some(ViewCart)
      && r.0.options.httpMethod.None? && r.0.options.body.NoBody?
  {
    var (id, after) := GetAnonymousClientId(store);
    CartPathRoundTrip(id, ViewCart);
    (Fetch(CartPath(id, ViewCart)), after)
  }

  /** `addToCart`: a POST whose path carries the product and the quantity. */
  function AddToCart(store: Store, productoId: int, cantidad: int): (r: (ApiCall, Store))
    ensures var (id, after) := GetAnonymousClientId(store);
      && r.1 == after && ParseCartPath(r.0.endpoint, id) == Some(AddItem(productoId, cantidad))
      && r.0.options.httpMethod == Some("POST") && r.0.options.body.NoBody?
  {
    var (id, after) := GetAnonymousClientId(store);
    CartPathRoundTrip(id, AddItem(productoId, cantidad));
    (Send(CartPath(id, AddItem(productoId, cantidad)), "POST", NoBody), after)
  }

  /** `updateCartItemQuantity`: a PUT whose path carries the product and the new quantity. */
  function UpdateCartItemQuantity(store: Store, productoId: int, nuevaCantidad: int): (r: (ApiCall, Store))
    ensures var (id, after) := GetAnonymousClientId(store);
      && r.1 == after && ParseCartPath(r.0.endpoint, id) == Some(SetQuantity(productoId, nuevaCantidad))
      && r.0.options.httpMethod == Some("PUT") && r.0.options.body.NoBody?
  {
    var (id, after) := GetAnonymousClientId(store);
    CartPathRoundTrip(id, SetQuantity(productoId, nuevaCantidad));
    (Send(CartPath(id, SetQuantity(productoId, nuevaCantidad)), "PUT", NoBody), after)
  }

  /** `removeFromCart`: a DELETE whose path names the product. */
  function RemoveFromCart(store: Store, productoId: int): (r: (ApiCall, Store))
    ensures var (id, after) := GetAnonymousClientId(store);
      && r.1 == after && ParseCartPath(r.0.endpoint, id) == Some(RemoveItem(productoId))
      && r.0.options.httpMethod == Some("DELETE") && r.0.options.body.NoBody?
  {
    var (id, after) := GetAnonymousClientId(store);
    CartPathRoundTrip(id, RemoveItem(productoId));
    (Send(CartPath(id, RemoveItem(productoId)), "DELETE", NoBody), after)
  }

  /** `clearCart`: a DELETE of the client's whole cart. */
  function ClearCart(store: Store): (r: (ApiCall, Store))
    ensures var (id, after) := GetAnonymousClientId(store);
      && r.1 == after && ParseCartPath(r.0.endpoint, id) == Some(EmptyCart)
      && r.0.options.httpMethod == Some("DELETE") && r.0.options.body.NoBody?
  {
    var (id, after) := GetAnonymousClientId(store);
    CartPathRoundTrip(id, EmptyCart);
    (Send(CartPath(id, EmptyCart), "DELETE", NoBody), after)
  }

  /** `parseInt(clientId)` as `JSON.stringify` writes it (NaN becomes `null`). */
  function ClientIdJson(clientId: string): Json {
    match ParseInt(clientId)
    case Some(n) => JNumber(n as real)
    case None => JNull
  }

  function CheckoutJson(c: CheckoutRequest): Json {
    var base := map["metodoPago" := JString(c.metodoPago), "clienteId" := JNumber(c.clienteId as real)];
    match c.notasCliente
    case Some(n) => JObject(base["notasCliente" := JString(n)])
    case None => JObject(base)
  }

  /** The keys a checkout body holds: the payment method, the client id, and the notes when the caller gave some. */
  function CheckoutKeys(c: CheckoutRequest): set<string> {
    {"metodoPago", "clienteId"} + (if c.notasCliente.Some? then {"notasCliente"} else {})
  }

  /** `checkoutCart`: the caller's request with `clienteId` replaced by the stored client id. */
  function CheckoutCart(store: Store, c: CheckoutRequest): (r: (ApiCall, Store))
    ensures var (id, after) := GetAnonymousClientId(store);
      && r.1 == after
      && r.0.endpoint == "/carrito/checkout" && r.0.options.httpMethod == Some("POST")
      && r.0.options.body.ObjectBody?
      && Field(r.0.options.body.json, "clienteId") == Some(ClientIdJson(id))
      && Field(r.0.options.body.json, "metodoPago") == Some(JString(c.metodoPago))
      && (c.notasCliente.Some? ==> Field(r.0.options.body.json, "notasCliente") == Some(JString(c.notasCliente.value)))
      && (c.notasCliente.None? ==> Field(r.0.options.body.json, "notasCliente").None?)
      && r.0.options.body.json.JObject?
      && r.0.options.body.json.fields.Keys == CheckoutKeys(c)
  {
    var (id, after) := GetAnonymousClientId(store);
    (Send("/carrito/checkout", "POST", ObjectBody(CheckoutBody(c, id))), after)
  }

  /** `{ ...checkoutData, clienteId: parseInt(clientId) }`: the spread request with its client id replaced. */
  function CheckoutBody(c: CheckoutRequest, clientId: string): (j: JsonObject)
    ensures Field(j, "clienteId") == Some(ClientIdJson(clientId))
    ensures Field(j, "metodoPago") == Some(JString(c.metodoPago))
    ensures c.notasCliente.Some? ==> Field(j, "notasCliente") == Some(JString(c.notasCliente.value))
    ensures c.notasCliente.None? ==> Field(j, "notasCliente").None?
    ensures j.JObject? && j.fields.Keys == CheckoutKeys(c)
  {
    assert "clienteId" != "metodoPago" && "clienteId" != "notasCliente";
    CheckoutJsonKeys(c);
    JObject(CheckoutJson(c).fields["clienteId" := ClientIdJson(clientId)])
  }

  /** The spread request holds exactly the checkout keys. */
  lemma CheckoutJsonKeys(c: CheckoutRequest)
    ensures CheckoutJson(c).JObject? && CheckoutJson(c).fields.Keys == CheckoutKeys(c)
  {
  }

  /** With nothing stored, checkout is billed to client 3 whatever id the caller passed. */
  lemma FreshCheckoutUsesDefaultClient(c: CheckoutRequest)
    ensures Field(CheckoutCart(map[], c).0.options.body.json, "clienteId") == Some(JNumber(3.0))
  {
    assert DefaultClientId == IntToString(3);
    ParseIntOfIntToString(3);
  }

  /** `createOrderAndGetPreference`: a Mercado Pago checkout for the stored client. */
  function CreateOrderAndGetPreference(store: Store): (r: (ApiCall, Store))
    ensures var (id, after) := GetAnonymousClientId(store);
      && r.1 == after
      && r.0.endpoint == "/carrito/checkout" && r.0.options.httpMethod == Some("POST")
      && r.0.options.body.ObjectBody? && r.0.options.body.json.JObject?
      && r.0.options.body.json.fields.Keys == {"clienteId", "metodoPago", "notasCliente"}
      && Field(r.0.options.body.json, "clienteId") == Some(ClientIdJson(id))
      && Field(r.0.options.body.json, "metodoPago") == Some(JString("Mercado Pago"))
      && Field(r.0.options.body.json, "notasCliente") == Some(JString("Pedido realizado desde la web."))
  {
    var (id, after) := GetAnonymousClientId(store);
    (Send("/carrito/checkout", "POST", ObjectBody(PreferenceBody(id))), after)
  }

  /** The fixed Mercado Pago checkout request for a stored client id. */
  function PreferenceBody(clientId: string): (j: JsonObject)
    ensures j.JObject? && j.fields.Keys == {"clienteId", "metodoPago", "notasCliente"}
    ensures Field(j, "clienteId") == Some(ClientIdJson(clientId))
    ensures Field(j, "metodoPago") == Some(JString("Mercado Pago"))
    ensures Field(j, "notasCliente") == Some(JString("Pedido realizado desde la web."))
  {
    var fields := map["clienteId" := ClientIdJson(clientId),
                      "metodoPago" := JString("Mercado Pago"),
                      "notasCliente" := JString("Pedido realizado desde la web.")];
    KeysOfThree("clienteId", "metodoPago", "notasCliente", ClientIdJson(clientId),
                JString("Mercado Pago"), JString("Pedido realizado desde la web."));
    JObject(fields)
  }

  /** A map written with three keys has exactly those keys. */
  lemma KeysOfThree<V>(a: string, b: string, c: string, x: V, y: V, z: V)
    ensures map[a := x, b := y, c := z].Keys == {a, b, c}
  {
  }

  // ------------------------------------------------------------------ auth

  /** The text of string property `key`; `None` when it is missing or not a string. */
  function StringField(j: Json, key: string): (r: Option<string>)
    ensures r.Some? <==> j.JObject? && key in j.fields && j.fields[key].JString?
    ensures r.Some? ==> j.fields[key] == JString(r.value)
  {
    match Field(j, key)
    case Some(JString(t)) => Some(t)
    case _ => None
  }

  /** The credentials a login body carries, as the backend reads them. */
  function AuthRequestOf(j: Json): Option<AuthRequest> {
    match (StringField(j, "email"), StringField(j, "contrasena"))
    case (Some(e), Some(p)) => Some(AuthRequest(e, p))
    case _ => None
  }

  function AuthRequestJson(credentials: AuthRequest): Json {
    JObject(map["email" := JString(credentials.email), "contrasena" := JString(credentials.contrasena)])
  }

  /** `loginUser`: a POST to `/auth/login` of the credentials as JSON. */
  function LoginUser(credentials: AuthRequest): (r: ApiCall)
    ensures r.endpoint == "/auth/login" && r.options.httpMethod == Some("POST")
    ensures r.options.body.ObjectBody? && r.options.body.json.JObject?
    ensures r.options.body.json.fields.Keys == {"email", "contrasena"}
    ensures AuthRequestOf(r.options.body.json) == Some(credentials)
  {
    Send("/auth/login", "POST", ObjectBody(AuthRequestJson(credentials)))
  }

  /** The fields of a registration, in the order of the form. */
  const ClienteRegistroKeys: set<string> :=
    {"nombre", "apellido", "email", "contrasena", "telefono", "calle", "numero", "codigoPostal", "ciudad", "provincia"}

  function ClienteRegistroJson(c: ClienteRegistro): (j: Json)
    ensures j.JObject? && j.fields.Keys == ClienteRegistroKeys
  {
    JObject(map[
      "nombre" := JString(c.nombre), "apellido" := JString(c.apellido), "email" := JString(c.email),
      "contrasena" := JString(c.contrasena), "telefono" := JString(c.telefono), "calle" := JString(c.calle),
      "numero" := JString(c.numero), "codigoPostal" := JString(c.codigoPostal), "ciudad" := JString(c.ciudad),
      "provincia" := JString(c.provincia)])
  }

  /** The registration a body carries, as the backend reads it: every field must be a string. */
  function ClienteRegistroOf(j: Json): Option<ClienteRegistro> {
    var nombre, apellido, email := StringField(j, "nombre"), StringField(j, "apellido"), StringField(j, "email");
    var contrasena, telefono, calle := StringField(j, "contrasena"), StringField(j, "telefono"), StringField(j, "calle");
    var numero, codigoPostal := StringField(j, "numero"), StringField(j, "codigoPostal");
    var ciudad, provincia := StringField(j, "ciudad"), StringField(j, "provincia");
    if nombre.Some? && apellido.Some? && email.Some? && contrasena.Some? && telefono.Some? && calle.Some?
      && numero.Some? && codigoPostal.Some? && ciudad.Some? && provincia.Some?
    then Some(ClienteRegistro(nombre.value, apellido.value, email.value, contrasena.value, telefono.value,
                              calle.value, numero.value, codigoPostal.value, ciudad.value, provincia.value))
    else None
  }

  /** The backend reads back exactly the registration that was written. */
  lemma ClienteRegistroRoundTrip(c: ClienteRegistro)
    ensures ClienteRegistroOf(ClienteRegistroJson(c)) == Some(c)
  {
    var j := ClienteRegistroJson(c);
    assert StringField(j, "nombre") == Some(c.nombre) && StringField(j, "apellido") == Some(c.apellido);
    assert StringField(j, "email") == Some(c.email) && StringField(j, "contrasena") == Some(c.contrasena);
    assert StringField(j, "telefono") == Some(c.telefono) && StringField(j, "calle") == Some(c.calle);
    assert StringField(j, "numero") == Some(c.numero) && StringField(j, "codigoPostal") == Some(c.codigoPostal);
    assert StringField(j, "ciudad") == Some(c.ciudad) && StringField(j, "provincia") == Some(c.provincia);
  }

  /** `registerClient`: a POST to `/auth/register` of the registration as JSON. */
  function RegisterClient(c: ClienteRegistro): (r: ApiCall)
    ensures r.endpoint == "/auth/register" && r.options.httpMethod == Some("POST")
    ensures r.options.body.ObjectBody? && r.options.body.json.JObject?
    ensures r.options.body.json.fields.Keys == ClienteRegistroKeys
    ensures ClienteRegistroOf(r.options.body.json) == Some(c)
  {
    ClienteRegistroRoundTrip(c);
    Send("/auth/register", "POST", ObjectBody(ClienteRegistroJson(c)))
  }
}

=== FILE: auth_context.dfy ===
/**
 * The authentication context (`contexts/AuthContext.tsx`): the profile-sync
 * state machine that runs when the identity provider's session changes,
 * logout, token retrieval, and the values it exposes. The identity
 * provider's session, its token call and the backend sync call are inputs.
 */
module AuthContext {
  import opened Options
  import opened Types

  /** The provider's session as the context sees it. */
  datatype ProviderSession = ProviderSession(isAuthenticated: bool, isLoading: bool, hasUser: bool)

  /** How the token call and then the backend sync settled: the synced user, or the first failure. */
  datatype SyncOutcome = Synced(user: Usuario) | SyncFailed(message: string)

  /** Side effects the context asks for: a router push or a provider logout. */
  datatype Effect = Redirect(path: string) | ProviderLogout(returnTo: string)

  /** The context's own state: the synced user and the sync loading flag. */
  datatype AuthState = AuthState(localUser: Option<Usuario>, syncLoading: bool)

  const InitialAuth: AuthState := AuthState(None, true)
  const CompleteRegistrationPath: string := "/completar-registro"
  const OutsideProviderMessage: string := "useAuth debe ser usado dentro de un AuthProvider"

  /** A user is exposed only once their profile is complete. */
  ghost predicate Valid(s: AuthState) {
    s.localUser.Some? ==> s.localUser.value.registroCompleto
  }

  /**
   * `sincronizar`. With a provider session and user: a complete profile is
   * stored; an incomplete one is not stored and redirects to the
   * registration-completion page; a failure asks the provider to log out and
   * stores nothing (the previous user, if any, stays). The sync flag ends
   * false in all three. Without a session, the flag drops once the provider
   * has finished loading and nothing else happens.
   */
  function Sincronizar(s: AuthState, session: ProviderSession, outcome: SyncOutcome, origin: string)
    : (r: (AuthState, seq<Effect>))
    ensures session.isAuthenticated && session.hasUser ==> !r.0.syncLoading
    ensures !session.isLoading ==> !r.0.syncLoading
    ensures session.isLoading && !(session.isAuthenticated && session.hasUser) ==> r == (s, [])
    ensures r.0.localUser != s.localUser ==>
      session.isAuthenticated && session.hasUser && outcome.Synced? && outcome.user.registroCompleto
      && r.0.localUser == Some(outcome.user)
    ensures session.isAuthenticated && session.hasUser ==>
      && (outcome.Synced? && outcome.user.registroCompleto ==> r.0.localUser == Some(outcome.user) && r.1 == [])
      && (outcome.Synced? && !outcome.user.registroCompleto ==>
            r.0.localUser == s.localUser && r.1 == [Redirect(CompleteRegistrationPath)])
      && (outcome.SyncFailed? ==> r.0.localUser == s.localUser && r.1 == [ProviderLogout(origin)])
    ensures !(session.isAuthenticated && session.hasUser) ==> r.0.localUser == s.localUser && r.1 == []
  {
    if session.isAuthenticated && session.hasUser then
      match outcome
      case Synced(user) =>
        if !user.registroCompleto then (s.(syncLoading := false), [Redirect(CompleteRegistrationPath)])
        else (s.(localUser := Some(user), syncLoading := false), [])
      case SyncFailed(_) => (s.(syncLoading := false), [ProviderLogout(origin)])
    else if !session.isLoading then (s.(syncLoading := false), [])
    else (s, [])
  }

  /** `logout`: the user is dropped and the provider is asked to log out. */
  function Logout(s: AuthState, origin: string): (r: (AuthState, Effect))
    ensures !IsAuthenticated(r.0) && r.0.syncLoading == s.syncLoading
    ensures r.1 == ProviderLogout(origin)
  {
    (s.(localUser := None), ProviderLogout(origin))
  }

  /** The exposed `isAuthenticated`. */
  predicate IsAuthenticated(s: AuthState) {
    s.localUser.Some?
  }

  /** The exposed `isLoading`: either the provider or the sync is still loading. */
  function IsLoading(session: ProviderSession, s: AuthState): (loading: bool)
    ensures !loading <==> !session.isLoading && !s.syncLoading
  {
    session.isLoading || s.syncLoading
  }

  /** `getAccessToken`: the provider's token, or `undefined` when the provider call throws. */
  function GetAccessToken(tokenCall: Result<string>): (token: Option<string>)
    ensures token.Some? <==> tokenCall.Success?
    ensures token.Some? ==> token.value == tokenCall.value
  {
    match tokenCall
    case Success(t) => Some(t)
    case Failure(_) => None
  }

  /** The names the provider's context value defines; any other name reads as `undefined`. */
  const ContextMembers: set<string> := {"isAuthenticated", "isLoading", "user", "login", "logout", "getAccessToken"}

  /** `useAuth`: the context value inside a provider, an error outside one. */
  function UseAuth(context: Option<AuthState>): (r: Result<AuthState>)
    ensures r.Success? <==> context.Some?
    ensures r.Success? ==> r.value == context.value
    ensures r.Failure? ==> r.error == OutsideProviderMessage
  {
    match context
    case Some(c) => Success(c)
    case None => Failure(OutsideProviderMessage)
  }

  /** What can happen to the context: a sync run, or a logout. */
  datatype AuthEvent = Sync(session: ProviderSession, outcome: SyncOutcome) | LogoutEvent

  function Step(s: AuthState, e: AuthEvent, origin: string): AuthState {
    match e
    case Sync(session, outcome) => Sincronizar(s, session, outcome, origin).0
    case LogoutEvent => Logout(s, origin).0
  }

  function Run(s: AuthState, events: seq<AuthEvent>, origin: string): AuthState
    decreases |events|
  {
    if |events| == 0 then s else Run(Step(s, events[0], origin), events[1..], origin)
  }

  /** No sequence of syncs and logouts exposes a user whose registration is incomplete. */
  lemma {:induction false} RunKeepsValid(s: AuthState, events: seq<AuthEvent>, origin: string)
    requires Valid(s)
    ensures Valid(Run(s, events, origin))
    decreases |events|
  {
    if |events| > 0 {
      var next := Step(s, events[0], origin);
      assert Valid(next);
      RunKeepsValid(next, events[1..], origin);
    }
  }

  /** Starting signed out, an exposed user is always one that a sync returned. */
  lemma ExposedUserCameFromSync(s: AuthState, events: seq<AuthEvent>, origin: string)
    requires s.localUser.None?
    ensures Run(s, events, origin).localUser.Some? ==>
      exists i :: 0 <= i < |events| && events[i].Sync? && events[i].outcome.Synced?
                  && events[i].outcome.user == Run(s, events, origin).localUser.value
  {
    ExposedUserCameFromSyncFrom(s, events, origin);
  }

  /**
   * As the code is written, every sync fails, since the imported sync
   * function is not exported by the API module; then nobody signed out ever
   * becomes signed in.
   */
  lemma SyncAsWrittenNeverSignsIn(s: AuthState, events: seq<AuthEvent>, origin: string)
    requires s.localUser.None?
    requires forall i :: 0 <= i < |events| && events[i].Sync? ==> events[i].outcome.SyncFailed?
    ensures !IsAuthenticated(Run(s, events, origin))
  {
    ExposedUserCameFromSync(s, events, origin);
  }

  /** From a state with a user, the user at the end is the initial one or came from a sync. */
  lemma {:induction false} ExposedUserCameFromSyncFrom(s: AuthState, events: seq<AuthEvent>, origin: string)
    ensures var u := Run(s, events, origin).localUser;
      u.Some? ==> (u == s.localUser ||
        exists i :: 0 <= i < |events| && events[i].Sync? && events[i].outcome.Synced? && events[i].outcome.user == u.value)
    decreases |events|
  {
    if |events| > 0 {
      var next := Step(s, events[0], origin);
      var u := Run(s, events, origin).localUser;
      ExposedUserCameFromSyncFrom(next, events[1..], origin);
      if u.Some? && u != s.localUser {
        if u == next.localUser {
          assert events[0].Sync? && events[0].outcome.Synced? && events[0].outcome.user == u.value;
        } else {
          var i :| 0 <= i < |events[1..]| && events[1..][i].Sync? && events[1..][i].outcome.Synced?
                   && events[1..][i].outcome.user == u.value;
          assert events[i + 1] == events[1..][i];
        }
      }
    }
  }
}

=== FILE: cart_context.dfy ===
/**
 * The cart context (`contexts/CartContext.tsx`): the item count, the fetch
 * transition driven by authentication, the mutators (which are stubs in this
 * version), and the guard on using the context outside its provider.
 */
module CartContext {
  import opened Options
  import opened Types

  datatype CartState = CartState(items: seq<CarritoItem>, isLoading: bool, error: Option<string>)

  /** No items, loading, no error. */
  const InitialCart: CartState := CartState([], true, None)

  const NotAuthenticatedMessage: string := "No autenticado"
  const OutsideProviderMessage: string := "useCart debe ser usado dentro de un CartProvider"

  /** `cartItems.reduce((acc, item) => acc + item.cantidad, 0)`, folding from the left. */
  function CartItemCount(items: seq<CarritoItem>): int {
    if |items| == 0 then 0 else CartItemCount(items[..|items| - 1]) + items[|items| - 1].cantidad
  }

  /** The count of a concatenation is the sum of the counts. */
  lemma {:induction false} CartItemCountAppend(a: seq<CarritoItem>, b: seq<CarritoItem>)
    ensures CartItemCount(a + b) == CartItemCount(a) + CartItemCount(b)
    decreases |b|
  {
    if |b| == 0 {
      assert a + b == a;
    } else {
      var b' := b[..|b| - 1];
      assert (a + b)[..|a + b| - 1] == a + b';
      CartItemCountAppend(a, b');
    }
  }

  /** The count is the sum of the quantities, item by item from the front. */
  lemma {:induction false} CartItemCountFromFront(items: seq<CarritoItem>)
    requires |items| > 0
    ensures CartItemCount(items) == items[0].cantidad + CartItemCount(items[1..])
  {
    assert items == [items[0]] + items[1..];
    CartItemCountAppend([items[0]], items[1..]);
    assert [items[0]][..0] == [];
  }

  /** With non-negative quantities the count bounds every item's quantity. */
  lemma {:induction false} CartItemCountBoundsEach(items: seq<CarritoItem>, i: int)
    requires forall k :: 0 <= k < |items| ==> items[k].cantidad >= 0
    requires 0 <= i < |items|
    ensures 0 <= items[i].cantidad <= CartItemCount(items)
    decreases |items|
  {
    var init := items[..|items| - 1];
    CartItemCountNonNegative(init);
    if i < |items| - 1 {
      assert init[i] == items[i];
      CartItemCountBoundsEach(init, i);
    }
  }

  lemma {:induction false} CartItemCountNonNegative(items: seq<CarritoItem>)
    requires forall k :: 0 <= k < |items| ==> items[k].cantidad >= 0
    ensures CartItemCount(items) >= 0
    decreases |items|
  {
    if |items| > 0 {
      CartItemCountNonNegative(items[..|items| - 1]);
    }
  }

  /**
   * `fetchCart`, given the authentication flag and the token
   * `getAccessToken` resolved to (it never throws). Signed out: the cart is
   * emptied and the error left alone. Signed in without a token: the
   * "No autenticado" error is raised and caught, and the items are kept.
   * Signed in with a token: the items are set to the (placeholder) empty list
   * and the error stays cleared. Loading ends false in every case.
   */
  function FetchCart(s: CartState, isAuthenticated: bool, token: Option<string>): (r: CartState)
    ensures !r.isLoading
    ensures !isAuthenticated ==> r.items == [] && r.error == s.error
    ensures isAuthenticated && (token.None? || token.value == "") ==>
      r.items == s.items && r.error == Some(NotAuthenticatedMessage)
    ensures isAuthenticated && token.Some? && token.value != "" ==> r.items == [] && r.error.None?
  {
    if isAuthenticated then
      var started := s.(isLoading := true, error := None);
      if token.None? || token.value == "" then started.(error := Some(NotAuthenticatedMessage), isLoading := false)
      else started.(items := [], isLoading := false)
    else
      s.(items := [], isLoading := false)
  }

  /** What a component can do through the context. */
  datatype CartEvent =
    | Fetch(isAuthenticated: bool, token: Option<string>)
    | AddToCart(producto: ProductoListado, cantidad: int)
    | UpdateCartItemQuantity(productId: int, cantidad: int)
    | RemoveFromCart(productId: int)
    | ClearCart
    | Checkout(metodoPago: string, notasCliente: Option<string>)

  /**
   * One event: a fetch runs `FetchCart`; the four mutators only log, so the
   * state does not change; `checkout` only logs and resolves to `null`.
   */
  function Step(s: CartState, e: CartEvent): (r: (CartState, Option<Pedido>))
    ensures r.1.None?
    ensures !e.Fetch? ==> r.0 == s
    ensures e.Fetch? ==> !r.0.isLoading
  {
    match e
    case Fetch(isAuthenticated, token) => (FetchCart(s, isAuthenticated, token), None)
    case _ => (s, None)
  }

  function Run(s: CartState, events: seq<CartEvent>): CartState
    decreases |events|
  {
    if |events| == 0 then s else Run(Step(s, events[0]).0, events[1..])
  }

  /**
   * In this version nothing ever puts an item in the cart: from the initial
   * state, every run of events leaves it empty with a count of 0.
   */
  lemma {:induction false} CartStaysEmpty(s: CartState, events: seq<CartEvent>)
    requires s.items == []
    ensures Run(s, events).items == []
    ensures CartItemCount(Run(s, events).items) == 0
    decreases |events|
  {
    if |events| > 0 {
      CartStaysEmpty(Step(s, events[0]).0, events[1..]);
    }
  }

  /** After a run that includes a fetch, the context is no longer loading. */
  lemma {:induction false} FetchEndsLoading(s: CartState, events: seq<CartEvent>)
    requires exists i :: 0 <= i < |events| && events[i].Fetch?
    ensures !Run(s, events).isLoading
    decreases |events|
  {
    if events[0].Fetch? {
      MutatorsKeepLoading(Step(s, events[0]).0, events[1..]);
    } else {
      var i :| 0 <= i < |events| && events[i].Fetch?;
      assert events[1..][i - 1].Fetch?;
      FetchEndsLoading(Step(s, events[0]).0, events[1..]);
    }
  }

  /** A fetch never sets loading, so once it is off no event turns it back on. */
  lemma {:induction false} MutatorsKeepLoading(s: CartState, events: seq<CartEvent>)
    requires !s.isLoading
    ensures !Run(s, events).isLoading
    decreases |events|
  {
    if |events| > 0 {
      MutatorsKeepLoading(Step(s, events[0]).0, events[1..]);
    }
  }

  /** The names the provider's context value defines; any other name reads as `undefined`. */
  const ContextMembers: set<string> := {
    "cartItems", "cartItemCount", "isLoading", "error",
    "addToCart", "updateCartItemQuantity", "removeFromCart", "clearCart", "checkout"}

  /** `useCart`: the context value inside a provider, an error outside one. */
  function UseCart(context: Option<CartState>): (r: Result<CartState>)
    ensures r.Success? <==> context.Some?
    ensures r.Success? ==> r.value == context.value
    ensures r.Failure? ==> r.error == OutsideProviderMessage
  {
    match context
    case Some(c) => Success(c)
    case None => Failure(OutsideProviderMessage)
  }
}

=== FILE: category_form.dfy ===
/**
 * The category create/edit form (`components/CategoryForm.tsx`): two text
 * fields filled from the category being edited, and the payload it submits.
 */
module CategoryForm {
  import opened Options
  import opened Types

  datatype FormState = FormState(nombre: string, descripcion: string)

  /** Both fields start empty. */
  const InitialForm: FormState := FormState("", "")

  /**
   * The `initialData` effect: a category overwrites both fields; no category
   * leaves them as they are (there is no reset branch).
   */
  function Populate(s: FormState, initialData: Option<Categoria>): (r: FormState)
    ensures initialData.None? ==> r == s
    ensures initialData.Some? ==>
      r.nombre == initialData.value.nombreCategoria && r.descripcion == initialData.value.descripcionCategoria
  {
    match initialData
    case None => s
    case Some(c) => FormState(c.nombreCategoria, c.descripcionCategoria)
  }

  /** `handleSubmit`: the payload has exactly the two fields, and no id. */
  function Submit(s: FormState): (p: CategoriaPayload)
    ensures FormState(p.nombreCategoria, p.descripcionCategoria) == s
  {
    CategoriaPayload(s.nombre, s.descripcion)
  }

  /** Distinct forms submit distinct payloads. */
  lemma SubmitIsInjective(s1: FormState, s2: FormState)
    ensures Submit(s1) == Submit(s2) ==> s1 == s2
  {
  }

  /** Opening a category and saving it unchanged sends back its stored name and description. */
  lemma PopulateThenSubmit(s: FormState, c: Categoria)
    ensures Submit(Populate(s, Some(c))) == CategoriaPayload(c.nombreCategoria, c.descripcionCategoria)
  {
  }

  /** What the two buttons show. */
  datatype Buttons = Buttons(cancelDisabled: bool, submitDisabled: bool, caption: string)

  /**
   * Both buttons are disabled exactly while submitting; the caption is
   * "Guardando..." then, otherwise it depends on whether a category is being
   * edited (`isEditing = !!initialData`).
   */
  function RenderButtons(initialData: Option<Categoria>, isSubmitting: bool): (b: Buttons)
    ensures b.cancelDisabled == isSubmitting && b.submitDisabled == isSubmitting
    ensures isSubmitting <==> b.caption == "Guardando..."
    ensures !isSubmitting ==> (initialData.Some? <==> b.caption == "Guardar Cambios")
    ensures !isSubmitting && initialData.None? ==> b.caption == "Crear Categoría"
  {
    var isEditing := initialData.Some?;
    Buttons(isSubmitting, isSubmitting,
      if isSubmitting then "Guardando..." else if isEditing then "Guardar Cambios" else "Crear Categoría")
  }
}

=== FILE: form_urlencoded.dfy ===
/**
 * The `application/x-www-form-urlencoded` format of the WHATWG URL Standard
 * (section 5), which `URLSearchParams` writes. Each name and value is encoded
 * as UTF-8; every byte except the ASCII alphanumerics and `*-._` is written
 * as `%` and two upper-case hex digits, a space as `+`; pairs are written
 * `name=value` and joined with `&`. The parser reverses this: it splits at
 * `&`, skips empty pieces, splits each piece at its first `=`, reads `+` as a
 * space and `%XX` as a byte, and decodes the bytes as UTF-8.
 */
module FormUrlEncoded {
  import opened Options
  import opened JsText

  /** The code points the serializer writes as themselves. */
  predicate IsUnreserved(c: char) {
    ('a' <= c <= 'z') || ('A' <= c <= 'Z') || ('0' <= c <= '9') || c == '*' || c == '-' || c == '.' || c == '_'
  }

  predicate AllUnreserved(s: string) {
    forall i :: 0 <= i < |s| ==> IsUnreserved(s[i])
  }

  /** A character the serializer can write: an unreserved one, `+` or `%`. */
  predicate IsSerialChar(c: char) {
    IsUnreserved(c) || c == '+' || c == '%'
  }

  predicate IsByte(b: int) {
    0 <= b < 256
  }

  // ------------------------------------------------------------------ UTF-8

  /**
   * The UTF-8 bytes of one code point (section 3.9 of the Unicode Standard):
   * the leading byte carries the high bits, each continuation byte six more.
   */
  function Utf8(c: char): (bs: seq<int>)
    ensures 1 <= |bs| <= 4
    ensures forall i :: 0 <= i < |bs| ==> IsByte(bs[i])
    ensures |bs| == 1 <==> c as int < 0x80
    ensures |bs| == 1 ==> bs[0] == c as int
  {
    var n := c as int;
    var n1 := n / 0x40;
    var n2 := n1 / 0x40;
    if n < 0x80 then [n]
    else if n < 0x800 then [0xC0 + n1, 0x80 + n % 0x40]
    else if n < 0x1_0000 then [0xE0 + n2, 0x80 + n1 % 0x40, 0x80 + n % 0x40]
    else [0xF0 + n2 / 0x40, 0x80 + n2 % 0x40, 0x80 + n1 % 0x40, 0x80 + n % 0x40]
  }

  function Utf8Of(s: string): seq<int> {
    if |s| == 0 then [] else Utf8(s[0]) + Utf8Of(s[1..])
  }

  /** How many bytes the sequence a leading byte starts spans. */
  function SequenceLength(b: int): nat {
    if b < 0x80 then 1 else if b < 0xE0 then 2 else if b < 0xF0 then 3 else 4
  }

  /** The code point a byte sequence of one to four bytes spells. */
  function CodePoint(bs: seq<int>): int
    requires 1 <= |bs| <= 4
  {
    if |bs| == 1 then bs[0]
    else if |bs| == 2 then (bs[0] - 0xC0) * 0x40 + (bs[1] - 0x80)
    else if |bs| == 3 then (bs[0] - 0xE0) * 0x1000 + (bs[1] - 0x80) * 0x40 + (bs[2] - 0x80)
    else (bs[0] - 0xF0) * 0x4_0000 + (bs[1] - 0x80) * 0x1000 + (bs[2] - 0x80) * 0x40 + (bs[3] - 0x80)
  }

  predicate IsScalarValue(n: int) {
    (0 <= n < 0xD800) || (0xE000 <= n < 0x11_0000)
  }

  /** A byte that can start a well-formed sequence: ASCII, or 0xC2 to 0xF4. */
  predicate IsLeadByte(b: int) {
    (0 <= b < 0x80) || (0xC2 <= b < 0xF5)
  }

  predicate IsContinuation(b: int) {
    0x80 <= b < 0xC0
  }

  /** The least code point a sequence of `k` bytes may spell; a smaller one is an overlong form. */
  function MinCodePoint(k: nat): int {
    if k <= 1 then 0 else if k == 2 then 0x80 else if k == 3 then 0x800 else 0x1_0000
  }

  /**
   * One well-formed UTF-8 sequence (table 3-7 of the Unicode Standard): a
   * lead byte announcing the length, continuation bytes after it, and a
   * scalar value that is not written in more bytes than it needs.
   */
  predicate WellFormed(bs: seq<int>) {
    1 <= |bs| <= 4
    && IsLeadByte(bs[0]) && SequenceLength(bs[0]) == |bs|
    && (forall i :: 1 <= i < |bs| ==> IsContinuation(bs[i]))
    && MinCodePoint(|bs|) <= CodePoint(bs) && IsScalarValue(CodePoint(bs))
  }

  /** UTF-8 decoding; `None` as soon as a sequence is not well-formed or is cut short. */
  function DecodeUtf8(bs: seq<int>): (r: Option<string>)
    decreases |bs|
  {
    if |bs| == 0 then Some("")
    else
      var k := SequenceLength(bs[0]);
      if k > |bs| || !WellFormed(bs[..k]) then None
      else match DecodeUtf8(bs[k..])
        case Some(t) => Some([CodePoint(bs[..k]) as char] + t)
        case None => None
  }

  /** A code point's encoding is well-formed, and its bytes spell the code point. */
  lemma Utf8ReadsBack(c: char)
    ensures WellFormed(Utf8(c))
    ensures CodePoint(Utf8(c)) == c as int
  {
  }

  /** Six more low bits appended to `q` come back off by division and remainder by 0x40. */
  lemma SplitLowBits(q: int, r: int)
    requires 0 <= r < 0x40
    ensures (q * 0x40 + r) / 0x40 == q && (q * 0x40 + r) % 0x40 == r
  {
  }

  lemma Utf8OfTwoBytes(bs: seq<int>)
    requires WellFormed(bs) && |bs| == 2
    ensures Utf8(CodePoint(bs) as char) == bs
  {
    SplitLowBits(bs[0] - 0xC0, bs[1] - 0x80);
  }

  lemma Utf8OfThreeBytes(bs: seq<int>)
    requires WellFormed(bs) && |bs| == 3
    ensures Utf8(CodePoint(bs) as char) == bs
  {
    var q := (bs[0] - 0xE0) * 0x40 + (bs[1] - 0x80);
    assert CodePoint(bs) == q * 0x40 + (bs[2] - 0x80);
    SplitLowBits(q, bs[2] - 0x80);
    SplitLowBits(bs[0] - 0xE0, bs[1] - 0x80);
  }

  lemma Utf8OfFourBytes(bs: seq<int>)
    requires WellFormed(bs) && |bs| == 4
    ensures Utf8(CodePoint(bs) as char) == bs
  {
    var q2 := (bs[0] - 0xF0) * 0x40 + (bs[1] - 0x80);
    var q1 := q2 * 0x40 + (bs[2] - 0x80);
    assert CodePoint(bs) == q1 * 0x40 + (bs[3] - 0x80);
    SplitLowBits(q1, bs[3] - 0x80);
    SplitLowBits(q2, bs[2] - 0x80);
    SplitLowBits(bs[0] - 0xF0, bs[1] - 0x80);
  }

  /** A well-formed sequence is the encoding of the code point it spells. */
  lemma Utf8OfCodePoint(bs: seq<int>)
    requires WellFormed(bs)
    ensures Utf8(CodePoint(bs) as char) == bs
  {
    if |bs| == 2 {
      Utf8OfTwoBytes(bs);
    } else if |bs| == 3 {
      Utf8OfThreeBytes(bs);
    } else if |bs| == 4 {
      Utf8OfFourBytes(bs);
    }
  }

  /** UTF-8 decoding undoes UTF-8 encoding. */
  lemma {:induction false} DecodeUtf8Of(s: string)
    ensures DecodeUtf8(Utf8Of(s)) == Some(s)
  {
    if |s| > 0 {
      var bs, rest := Utf8(s[0]), Utf8Of(s[1..]);
      Utf8ReadsBack(s[0]);
      var all := bs + rest;
      assert all[0] == bs[0];
      assert all[..|bs|] == bs && all[|bs|..] == rest;
      DecodeUtf8Of(s[1..]);
      assert [s[0]] + s[1..] == s;
    }
  }

  /** Whatever UTF-8 decoding accepts is the encoding of what it returns. */
  lemma {:induction false} Utf8OfDecode(bs: seq<int>, s: string)
    requires DecodeUtf8(bs) == Some(s)
    ensures Utf8Of(s) == bs
    decreases |bs|
  {
    if |bs| > 0 {
      var k := SequenceLength(bs[0]);
      var head := bs[..k];
      assert k <= |bs| && WellFormed(head);
      var t := DecodeUtf8(bs[k..]).value;
      assert s == [CodePoint(head) as char] + t;
      Utf8OfCodePoint(head);
      Utf8OfDecode(bs[k..], t);
      assert s[0] == CodePoint(head) as char && s[1..] == t;
      assert head + bs[k..] == bs;
    }
  }

  /** UTF-8 decoding accepts exactly the encodings of strings, and inverts them. */
  lemma DecodeUtf8Exactly(bs: seq<int>, s: string)
    ensures DecodeUtf8(bs) == Some(s) <==> bs == Utf8Of(s)
  {
    if DecodeUtf8(bs) == Some(s) {
      Utf8OfDecode(bs, s);
    }
    if bs == Utf8Of(s) {
      DecodeUtf8Of(s);
    }
  }

  /** An overlong form, a stray continuation byte and a bad continuation byte are all refused. */
  lemma DecodeUtf8RefusesMalformed()
    ensures DecodeUtf8([0xC0, 0x80]) == None
    ensures DecodeUtf8([0xBF, 0xFF]) == None
    ensures DecodeUtf8([0xC3, 0x28]) == None
    ensures DecodeUtf8([0xE0, 0x80, 0x80]) == None
    ensures DecodeUtf8([0xED, 0xA0, 0x80]) == None
  {
  }

  // --------------------------------------------------------- percent-encoding

  const HexDigits: string := "0123456789ABCDEF"

  predicate IsHexDigit(c: char) {
    ('0' <= c <= '9') || ('A' <= c <= 'F') || ('a' <= c <= 'f')
  }

  function HexValue(c: char): (v: nat)
    requires IsHexDigit(c)
    ensures v < 16
  {
    if '0' <= c <= '9' then c as int - '0' as int
    else if 'A' <= c <= 'F' then c as int - 'A' as int + 10
    else c as int - 'a' as int + 10
  }

  lemma HexDigitReadsBack(d: nat)
    requires d < 16
    ensures IsHexDigit(HexDigits[d]) && IsUnreserved(HexDigits[d]) && HexValue(HexDigits[d]) == d
  {
  }

  /** `%XX` for one byte, with upper-case hex digits. */
  function PercentByte(b: int): (s: string)
    requires IsByte(b)
    ensures |s| == 3 && s[0] == '%' && IsHexDigit(s[1]) && IsHexDigit(s[2])
    ensures HexValue(s[1]) * 16 + HexValue(s[2]) == b
    ensures forall i :: 0 <= i < |s| ==> IsSerialChar(s[i])
  {
    HexDigitReadsBack(b / 16);
    HexDigitReadsBack(b % 16);
    ['%', HexDigits[b / 16], HexDigits[b % 16]]
  }

  function PercentEncode(bs: seq<int>): (s: string)
    requires forall i :: 0 <= i < |bs| ==> IsByte(bs[i])
    ensures |s| == 3 * |bs|
    ensures forall i :: 0 <= i < |s| ==> IsSerialChar(s[i])
  {
    if |bs| == 0 then "" else PercentByte(bs[0]) + PercentEncode(bs[1..])
  }

  /** One code point as the serializer writes it. */
  function EncodeChar(c: char): (s: string)
    ensures |s| > 0
    ensures forall i :: 0 <= i < |s| ==> IsSerialChar(s[i])
    ensures IsUnreserved(c) ==> s == [c]
  {
    if c == ' ' then "+" else if IsUnreserved(c) then [c] else PercentEncode(Utf8(c))
  }

  /** A name or value as the serializer writes it. */
  function Encode(s: string): (e: string)
    ensures forall i :: 0 <= i < |e| ==> IsSerialChar(e[i])
  {
    if |s| == 0 then "" else EncodeChar(s[0]) + Encode(s[1..])
  }

  /** Text made of unreserved characters is written as it is. */
  lemma {:induction false} EncodeOfUnreserved(s: string)
    requires AllUnreserved(s)
    ensures Encode(s) == s
  {
    if |s| > 0 {
      EncodeOfUnreserved(s[1..]);
      assert [s[0]] + s[1..] == s;
    }
  }

  /** `String` of an integer is written without escapes: digits and perhaps a leading `-`. */
  lemma IntToStringIsUnreserved(n: int)
    ensures AllUnreserved(IntToString(n))
  {
    var s := IntToString(n);
    if n < 0 {
      assert forall j :: 1 <= j < |s| ==> s[j] == s[1..][j - 1];
    }
  }

  /** The bytes a written name or value stands for: `+` is a space, `%XX` a byte, any other character its UTF-8 bytes. */
  function DecodeBytes(s: string): seq<int>
    decreases |s|
  {
    if |s| == 0 then []
    else if s[0] == '+' then [0x20] + DecodeBytes(s[1..])
    else if s[0] == '%' && |s| >= 3 && IsHexDigit(s[1]) && IsHexDigit(s[2]) then
      [HexValue(s[1]) * 16 + HexValue(s[2])] + DecodeBytes(s[3..])
    else Utf8(s[0]) + DecodeBytes(s[1..])
  }

  /** The text a written name or value stands for. */
  function Decode(s: string): Option<string> {
    DecodeUtf8(DecodeBytes(s))
  }

  /** A `%` followed by two hex digits stands for one byte. */
  lemma DecodeAtPercent(s: string)
    requires |s| >= 3 && s[0] == '%' && IsHexDigit(s[1]) && IsHexDigit(s[2])
    ensures DecodeBytes(s) == [HexValue(s[1]) * 16 + HexValue(s[2])] + DecodeBytes(s[3..])
  {
  }

  lemma DecodePercentByteThen(b: int, rest: string)
    requires IsByte(b)
    ensures DecodeBytes(PercentByte(b) + rest) == [b] + DecodeBytes(rest)
  {
    var e := PercentByte(b);
    var s := e + rest;
    assert s[0] == e[0] && s[1] == e[1] && s[2] == e[2] && s[3..] == rest;
    DecodeAtPercent(s);
  }

  lemma DecodePercentHead(bs: seq<int>, rest: string)
    requires |bs| > 0 && forall i :: 0 <= i < |bs| ==> IsByte(bs[i])
    ensures DecodeBytes(PercentEncode(bs) + rest) == [bs[0]] + DecodeBytes(PercentEncode(bs[1..]) + rest)
  {
    var tail := PercentEncode(bs[1..]) + rest;
    assert PercentEncode(bs) + rest == PercentByte(bs[0]) + tail;
    DecodePercentByteThen(bs[0], tail);
  }

  lemma {:induction false} DecodePercentThen(bs: seq<int>, rest: string)
    requires forall i :: 0 <= i < |bs| ==> IsByte(bs[i])
    ensures DecodeBytes(PercentEncode(bs) + rest) == bs + DecodeBytes(rest)
  {
    if |bs| > 0 {
      calc {
        DecodeBytes(PercentEncode(bs) + rest);
        == { DecodePercentHead(bs, rest); }
        [bs[0]] + DecodeBytes(PercentEncode(bs[1..]) + rest);
        == { DecodePercentThen(bs[1..], rest); }
        [bs[0]] + (bs[1..] + DecodeBytes(rest));
        == { assert [bs[0]] + bs[1..] == bs; }
        bs + DecodeBytes(rest);
      }
    } else {
      assert PercentEncode(bs) + rest == rest;
    }
  }

  lemma DecodeCharThen(c: char, rest: string)
    ensures DecodeBytes(EncodeChar(c) + rest) == Utf8(c) + DecodeBytes(rest)
  {
    var s := EncodeChar(c) + rest;
    if c == ' ' {
      assert s[0] == '+' && s[1..] == rest;
    } else if IsUnreserved(c) {
      assert s[0] == c && s[1..] == rest;
    } else {
      DecodePercentThen(Utf8(c), rest);
    }
  }

  lemma {:induction false} DecodeBytesOfEncode(s: string)
    ensures DecodeBytes(Encode(s)) == Utf8Of(s)
  {
    if |s| > 0 {
      DecodeCharThen(s[0], Encode(s[1..]));
      DecodeBytesOfEncode(s[1..]);
    }
  }

  /** Reading a written name or value gives the text back. */
  lemma DecodeOfEncode(s: string)
    ensures Decode(Encode(s)) == Some(s)
  {
    DecodeBytesOfEncode(s);
    DecodeUtf8Of(s);
  }

  /** A written name or value is read exactly when its bytes are the UTF-8 of some text, and then as that text. */
  lemma DecodeExactly(s: string, t: string)
    ensures Decode(s) == Some(t) <==> DecodeBytes(s) == Utf8Of(t)
  {
    DecodeUtf8Exactly(DecodeBytes(s), t);
  }

  /** `%C0%80`, an overlong NUL, is refused rather than read as a character. */
  lemma DecodeRefusesOverlong()
    ensures Decode("%C0%80") == None
  {
    var s := "%C0%80";
    DecodeAtPercent(s);
    DecodeAtPercent(s[3..]);
    assert s[3..][3..] == "";
    DecodeUtf8RefusesMalformed();
  }

  // ------------------------------------------------------------------- pairs

  function EncodePair(p: (string, string)): (s: string)
    ensures |s| > 0
  {
    Encode(p.0) + "=" + Encode(p.1)
  }

  /** `URLSearchParams(params).toString()`. */
  function Serialize(params: seq<(string, string)>): string {
    if |params| == 0 then ""
    else if |params| == 1 then EncodePair(params[0])
    else EncodePair(params[0]) + "&" + Serialize(params[1..])
  }

  /** One `name=value` piece; a piece without `=` is a name with an empty value. */
  function ParsePiece(piece: string): Option<(string, string)> {
    var (name, value) := match IndexOf(piece, '=')
      case Some(j) => (piece[..j], piece[j + 1..])
      case None => (piece, "");
    match (Decode(name), Decode(value))
    case (Some(n), Some(v)) => Some((n, v))
    case _ => None
  }

  /** The form-urlencoded parser: the pairs of a query, in order; `None` when a piece is not UTF-8. */
  function Parse(q: string): Option<seq<(string, string)>>
    decreases |q|
  {
    if |q| == 0 then Some([])
    else
      var (piece, rest) := match IndexOf(q, '&')
        case Some(i) => (q[..i], q[i + 1..])
        case None => (q, "");
      if |piece| == 0 then Parse(rest)
      else match (ParsePiece(piece), Parse(rest))
        case (Some(p), Some(ps)) => Some([p] + ps)
        case _ => None
  }

  /** The first `c` in `a + [c] + b` is the one after `a`, when `a` has none. */
  lemma IndexOfAfter(a: string, c: char, b: string)
    requires forall j :: 0 <= j < |a| ==> a[j] != c
    ensures IndexOf(a + [c] + b, c) == Some(|a|)
  {
    var s := a + [c] + b;
    forall j | 0 <= j < |a|
      ensures s[j] != c
    {
      assert s[j] == a[j];
    }
    assert s[|a|] == c;
  }

  /** A character absent from `a` and `b` and different from `c` is absent from `a + [c] + b`. */
  lemma AbsentFromJoin(a: string, c: char, b: string, x: char)
    requires forall j :: 0 <= j < |a| ==> a[j] != x
    requires forall j :: 0 <= j < |b| ==> b[j] != x
    requires c != x
    ensures IndexOf(a + [c] + b, x).None?
  {
    var s := a + [c] + b;
    forall j | 0 <= j < |s|
      ensures s[j] != x
    {
      if j < |a| {
        assert s[j] == a[j];
      } else if j > |a| {
        assert s[j] == b[j - |a| - 1];
      }
    }
  }

  lemma EncodePairShape(p: (string, string))
    ensures IndexOf(EncodePair(p), '=') == Some(|Encode(p.0)|)
    ensures IndexOf(EncodePair(p), '&').None?
  {
    var k, v := Encode(p.0), Encode(p.1);
    assert EncodePair(p) == k + ['='] + v;
    IndexOfAfter(k, '=', v);
    AbsentFromJoin(k, '=', v, '&');
  }

  lemma ParsePieceOfPair(p: (string, string))
    ensures ParsePiece(EncodePair(p)) == Some(p)
  {
    var s := EncodePair(p);
    EncodePairShape(p);
    var k := Encode(p.0);
    assert s[..|k|] == k && s[|k| + 1..] == Encode(p.1);
    DecodeOfEncode(p.0);
    DecodeOfEncode(p.1);
  }

  lemma JoinShape(p: (string, string), rest: string)
    ensures IndexOf(EncodePair(p) + "&" + rest, '&') == Some(|EncodePair(p)|)
  {
    var a := EncodePair(p);
    EncodePairShape(p);
    IndexOfAfter(a, '&', rest);
  }

  /** Parsing a serialized query gives back the pairs, in order. */
  lemma {:induction false} ParseOfSerialize(params: seq<(string, string)>)
    ensures Parse(Serialize(params)) == Some(params)
  {
    if |params| == 1 {
      var a := EncodePair(params[0]);
      EncodePairShape(params[0]);
      ParsePieceOfPair(params[0]);
      assert Parse("") == Some([]);
      assert Parse(a) == Some([params[0]] + []);
      assert [params[0]] + [] == params;
    } else if |params| > 1 {
      var a := EncodePair(params[0]);
      var s := Serialize(params);
      JoinShape(params[0], Serialize(params[1..]));
      assert s[..|a|] == a && s[|a| + 1..] == Serialize(params[1..]);
      ParsePieceOfPair(params[0]);
      ParseOfSerialize(params[1..]);
      assert [params[0]] + params[1..] == params;
    }
  }

  /** One pair of unreserved text is written `k=v`. */
  lemma SerializeOneUnreserved(k: string, v: string)
    requires AllUnreserved(k) && AllUnreserved(v)
    ensures Serialize([(k, v)]) == k + "=" + v
  {
    EncodeOfUnreserved(k);
    EncodeOfUnreserved(v);
  }

  /** Two pairs of unreserved text are written `k1=v1&k2=v2`. */
  lemma SerializeTwoUnreserved(k1: string, v1: string, k2: string, v2: string)
    requires AllUnreserved(k1) && AllUnreserved(v1) && AllUnreserved(k2) && AllUnreserved(v2)
    ensures Serialize([(k1, v1), (k2, v2)]) == k1 + "=" + v1 + "&" + k2 + "=" + v2
  {
    EncodeOfUnreserved(k1);
    EncodeOfUnreserved(v1);
    EncodeOfUnreserved(k2);
    EncodeOfUnreserved(v2);
    assert [(k1, v1), (k2, v2)][1..] == [(k2, v2)];
  }

  /** The query of pairs of unreserved text is the plain `name=value&…` join. */
  lemma {:induction false} SerializeOfUnreserved(params: seq<(string, string)>)
    requires forall i :: 0 <= i < |params| ==> AllUnreserved(params[i].0) && AllUnreserved(params[i].1)
    ensures |params| == 1 ==> Serialize(params) == params[0].0 + "=" + params[0].1
    ensures |params| > 1 ==> Serialize(params) == params[0].0 + "=" + params[0].1 + "&" + Serialize(params[1..])
  {
    if |params| > 0 {
      EncodeOfUnreserved(params[0].0);
      EncodeOfUnreserved(params[0].1);
    }
  }
}

=== FILE: js_text.dfy ===
/**
 * The few JavaScript string and number conversions the storefront relies on:
 * `String(n)` for integers, `Number(s)` and `parseInt(s)` on decimal text,
 * `toLowerCase`, `includes`, and the `||` fallback on strings.
 */
module JsText {
  import opened Options

  predicate IsDigit(c: char) {
    '0' <= c <= '9'
  }

  predicate AllDigits(s: string) {
    forall i :: 0 <= i < |s| ==> IsDigit(s[i])
  }

  function DigitChar(d: nat): (c: char)
    requires d < 10
    ensures IsDigit(c) && c as int - '0' as int == d
  {
    ('0' as int + d) as char
  }

  /** `String(n)` for a natural number: its decimal digits, most significant first. */
  function NatToString(n: nat): (s: string)
    ensures |s| > 0 && AllDigits(s)
    decreases n
  {
    if n < 10 then [DigitChar(n)] else NatToString(n / 10) + [DigitChar(n % 10)]
  }

  /** `String(n)` for an integer. */
  function IntToString(n: int): (s: string)
    ensures |s| > 0
    ensures n >= 0 ==> AllDigits(s)
    ensures n < 0 ==> s[0] == '-' && AllDigits(s[1..])
  {
    if n < 0 then "-" + NatToString(-n) else NatToString(n)
  }

  /** The number a run of decimal digits denotes. */
  function DigitsValue(s: string): nat
    requires AllDigits(s)
  {
    if |s| == 0 then 0 else DigitsValue(s[..|s| - 1]) * 10 + (s[|s| - 1] as int - '0' as int)
  }

  lemma {:induction false} DigitsValueOfNatToString(n: nat)
    ensures DigitsValue(NatToString(n)) == n
    decreases n
  {
    if n >= 10 {
      var s := NatToString(n);
      assert s[..|s| - 1] == NatToString(n / 10);
      DigitsValueOfNatToString(n / 10);
    }
  }

  function Pow10(k: nat): (p: nat)
    ensures p >= 1
  {
    if k == 0 then 1 else 10 * Pow10(k - 1)
  }

  /** Index of the first `c` in `s`, if any. */
  function IndexOf(s: string, c: char): (r: Option<nat>)
    ensures r.Some? ==> r.value < |s| && s[r.value] == c && forall j :: 0 <= j < r.value ==> s[j] != c
    ensures r.None? ==> forall j :: 0 <= j < |s| ==> s[j] != c
  {
    if |s| == 0 then None
    else if s[0] == c then Some(0)
    else match IndexOf(s[1..], c)
      case Some(i) => Some(i + 1)
      case None => None
  }

  // ------------------------------------------------------------ white space

  /** The white space and line terminators `Number` and `parseInt` skip (the ECMAScript `StrWhiteSpaceChar`). */
  predicate IsJsWhiteSpace(c: char) {
    || c == '\t' || c == '\n' || c == '\U{B}' || c == '\U{C}' || c == '\r' || c == ' '
    || c == '\U{A0}' || c == '\U{1680}' || ('\U{2000}' <= c <= '\U{200A}') || c == '\U{2028}'
    || c == '\U{2029}' || c == '\U{202F}' || c == '\U{205F}' || c == '\U{3000}' || c == '\U{FEFF}'
  }

  /** Length of the run of characters satisfying `p` at the start of `s`. */
  function LeadingRun(s: string, p: char -> bool): (k: nat)
    ensures k <= |s| && forall i :: 0 <= i < k ==> p(s[i])
    ensures k < |s| ==> !p(s[k])
  {
    if |s| > 0 && p(s[0]) then
      var k := 1 + LeadingRun(s[1..], p);
      assert forall i :: 1 <= i < k ==> s[i] == s[1..][i - 1];
      k
    else 0
  }

  /** Where the run of characters satisfying `p` at the end of `s` begins. */
  function TrailingRun(s: string, p: char -> bool): (k: nat)
    ensures k <= |s| && forall i :: k <= i < |s| ==> p(s[i])
    ensures k > 0 ==> !p(s[k - 1])
  {
    if |s| > 0 && p(s[|s| - 1]) then
      var k := TrailingRun(s[..|s| - 1], p);
      assert forall i :: k <= i < |s| - 1 ==> s[i] == s[..|s| - 1][i];
      k
    else |s|
  }

  /** `s` with the characters satisfying `p` removed from both ends. */
  function TrimBy(s: string, p: char -> bool): (t: string)
    ensures |t| > 0 ==> !p(t[0]) && !p(t[|t| - 1])
  {
    var u := s[LeadingRun(s, p)..];
    u[..TrailingRun(u, p)]
  }

  /** Trimming removes only what surrounds the text: padding on either side changes nothing. */
  lemma TrimByIgnoresPadding(before: string, s: string, after: string, p: char -> bool)
    requires forall i :: 0 <= i < |before| ==> p(before[i])
    requires forall i :: 0 <= i < |after| ==> p(after[i])
    ensures TrimBy(before + s + after, p) == TrimBy(s, p)
  {
    assert before + s + after == before + (s + after);
    LeadingRunOfPadded(before, s + after, p);
    if LeadingRun(s, p) < |s| {
      TrimByOfPaddedText(before, s, after, p);
    } else {
      TrimByOfPaddedBlank(before, s, after, p);
    }
  }

  lemma TrimByOfPaddedText(before: string, s: string, after: string, p: char -> bool)
    requires forall i :: 0 <= i < |after| ==> p(after[i])
    requires LeadingRun(s, p) < |s|
    requires LeadingRun(before + (s + after), p) == |before| + LeadingRun(s + after, p)
    ensures TrimBy(before + (s + after), p) == TrimBy(s, p)
  {
    var k := LeadingRun(s, p);
    LeadingRunOfPrefixed(s, after, p);
    var x := before + (s + after);
    var t := s[k..];
    assert LeadingRun(x, p) == |before| + k;
    DropIntoMiddle(before, s, after, k);
    assert t[0] == s[k];
    TrailingRunOfPadded(t, after, p);
    assert TrimBy(s, p) == t[..TrailingRun(t, p)];
  }

  /** Dropping past the first part and `k` more leaves the rest of the middle, then the last part. */
  lemma DropIntoMiddle(a: string, b: string, c: string, k: nat)
    requires k <= |b|
    ensures (a + (b + c))[|a| + k..] == b[k..] + c
  {
  }

  lemma TrimByOfPaddedBlank(before: string, s: string, after: string, p: char -> bool)
    requires forall i :: 0 <= i < |after| ==> p(after[i])
    requires LeadingRun(s, p) == |s|
    requires LeadingRun(before + (s + after), p) == |before| + LeadingRun(s + after, p)
    ensures TrimBy(before + (s + after), p) == TrimBy(s, p)
  {
    assert forall i :: 0 <= i < |s + after| ==> p((s + after)[i]) by {
      forall i | 0 <= i < |s + after|
        ensures p((s + after)[i])
      {
        if i < |s| { assert (s + after)[i] == s[i]; } else { assert (s + after)[i] == after[i - |s|]; }
      }
    }
    LeadingRunAll(s + after, p);
    var x := before + (s + after);
    assert x[|x|..] == [];
    assert s[|s|..] == [];
  }

  lemma {:induction false} LeadingRunOfPadded(w: string, s: string, p: char -> bool)
    requires forall i :: 0 <= i < |w| ==> p(w[i])
    ensures LeadingRun(w + s, p) == |w| + LeadingRun(s, p)
  {
    if |w| > 0 {
      assert (w + s)[0] == w[0];
      assert (w + s)[1..] == w[1..] + s;
      LeadingRunOfPadded(w[1..], s, p);
    } else {
      assert w + s == s;
    }
  }

  /** A run that stops inside `s` stops there in `s + t` too. */
  lemma {:induction false} LeadingRunOfPrefixed(s: string, t: string, p: char -> bool)
    requires LeadingRun(s, p) < |s|
    ensures LeadingRun(s + t, p) == LeadingRun(s, p)
  {
    if p(s[0]) {
      assert (s + t)[1..] == s[1..] + t;
      LeadingRunOfPrefixed(s[1..], t, p);
    }
  }

  lemma {:induction false} LeadingRunAll(s: string, p: char -> bool)
    requires forall i :: 0 <= i < |s| ==> p(s[i])
    ensures LeadingRun(s, p) == |s|
  {
    if |s| > 0 {
      assert forall i :: 0 <= i < |s| - 1 ==> s[1..][i] == s[i + 1];
      LeadingRunAll(s[1..], p);
    }
  }

  /** Padding after text that does not end in `p` is exactly the trailing run. */
  lemma {:induction false} TrailingRunOfPadded(u: string, w: string, p: char -> bool)
    requires |u| > 0 && !p(u[0])
    requires forall i :: 0 <= i < |w| ==> p(w[i])
    ensures TrailingRun(u + w, p) == TrailingRun(u, p)
    ensures (u + w)[..TrailingRun(u + w, p)] == u[..TrailingRun(u, p)]
    decreases |w|
  {
    if |w| > 0 {
      var w' := w[..|w| - 1];
      assert (u + w)[..|u + w| - 1] == u + w';
      TrailingRunOfPadded(u, w', p);
    } else {
      assert u + w == u;
    }
  }

  /** Text that neither starts nor ends with white space is its own trim. */
  lemma TrimOfTrimmed(s: string)
    requires |s| > 0 && !IsJsWhiteSpace(s[0]) && !IsJsWhiteSpace(s[|s| - 1])
    ensures TrimStart(s) == s && Trim(s) == s
  {
    assert LeadingRun(s, IsJsWhiteSpace) == 0;
    assert TrailingRun(s, IsJsWhiteSpace) == |s|;
  }

  /** `s` without its leading white space. */
  function TrimStart(s: string): (t: string)
    ensures |t| > 0 ==> !IsJsWhiteSpace(t[0])
  {
    s[LeadingRun(s, IsJsWhiteSpace)..]
  }

  /** `s` without white space at either end. */
  function Trim(s: string): (t: string)
    ensures |t| > 0 ==> !IsJsWhiteSpace(t[0]) && !IsJsWhiteSpace(t[|t| - 1])
  {
    TrimBy(s, IsJsWhiteSpace)
  }

  // ------------------------------------------------------------------ digits

  /** The value of `c` as a digit of base `radix`, letters in either case standing for 10 and up. */
  function DigitValue(c: char, radix: nat): (d: Option<nat>)
    ensures d.Some? ==> d.value < radix
  {
    var v :=
      if '0' <= c <= '9' then Some(c as int - '0' as int)
      else if 'a' <= c <= 'z' then Some(c as int - 'a' as int + 10)
      else if 'A' <= c <= 'Z' then Some(c as int - 'A' as int + 10)
      else None;
    if v.Some? && v.value < radix then Some(v.value) else None
  }

  predicate AllRadixDigits(s: string, radix: nat) {
    forall i :: 0 <= i < |s| ==> DigitValue(s[i], radix).Some?
  }

  /** The number a run of base-`radix` digits denotes. */
  function RadixValue(s: string, radix: nat): nat
    requires AllRadixDigits(s, radix)
  {
    if |s| == 0 then 0 else RadixValue(s[..|s| - 1], radix) * radix + DigitValue(s[|s| - 1], radix).value
  }

  /** Length of the longest run of base-`radix` digits at the start of `s`. */
  function RadixPrefixLength(s: string, radix: nat): (k: nat)
    ensures k <= |s| && AllRadixDigits(s[..k], radix)
    ensures k < |s| ==> DigitValue(s[k], radix).None?
  {
    if |s| > 0 && DigitValue(s[0], radix).Some? then
      var k := 1 + RadixPrefixLength(s[1..], radix);
      assert s[..k] == [s[0]] + s[1..][..k - 1];
      k
    else 0
  }

  /** Length of the longest run of decimal digits at the start of `s`. */
  function DigitPrefixLength(s: string): (k: nat)
    ensures k <= |s| && AllDigits(s[..k])
    ensures k < |s| ==> !IsDigit(s[k])
  {
    if |s| > 0 && IsDigit(s[0]) then
      var k := 1 + DigitPrefixLength(s[1..]);
      assert s[..k] == [s[0]] + s[1..][..k - 1];
      k
    else 0
  }

  // ------------------------------------------------------------------ Number

  /** An unsigned decimal mantissa `ddd`, `ddd.ddd`, `ddd.` or `.ddd`; `None` for anything else. */
  function ParseUnsigned(s: string): Option<real> {
    if AllDigits(s) then
      (if |s| > 0 then Some(DigitsValue(s) as real) else None)
    else match IndexOf(s, '.')
      case None => None
      case Some(i) =>
        var whole, frac := s[..i], s[i + 1..];
        if AllDigits(whole) && AllDigits(frac) && |whole| + |frac| > 0 then
          Some(DigitsValue(whole) as real + DigitsValue(frac) as real / Pow10(|frac|) as real)
        else None
  }

  predicate IsExponentMark(c: char) {
    c == 'e' || c == 'E'
  }

  /** Index of the first `e` or `E` in `s`, if any. */
  function ExponentIndex(s: string): (r: Option<nat>)
    ensures r.Some? ==> r.value < |s| && IsExponentMark(s[r.value])
    ensures r.None? <==> forall j :: 0 <= j < |s| ==> !IsExponentMark(s[j])
  {
    if |s| == 0 then None
    else if IsExponentMark(s[0]) then Some(0)
    else match ExponentIndex(s[1..])
      case Some(i) => Some(i + 1)
      case None => None
  }

  /** An exponent: an optional sign, then at least one digit. */
  function ParseExponent(x: string): Option<int> {
    var neg := |x| > 0 && x[0] == '-';
    var digits := if |x| > 0 && (x[0] == '-' || x[0] == '+') then x[1..] else x;
    if |digits| > 0 && AllDigits(digits) then
      Some(if neg then -(DigitsValue(digits) as int) else DigitsValue(digits) as int)
    else None
  }

  /** `m` times ten to the power `e`. */
  function Scale(m: real, e: int): real {
    if e >= 0 then m * Pow10(e) as real else m / Pow10(-e) as real
  }

  /** An unsigned decimal literal: a mantissa, then optionally `e` or `E` and an exponent. */
  function ParseDecimal(u: string): Option<real> {
    match ExponentIndex(u)
    case None => ParseUnsigned(u)
    case Some(i) =>
      match (ParseUnsigned(u[..i]), ParseExponent(u[i + 1..]))
      case (Some(m), Some(e)) => Some(Scale(m, e))
      case _ => None
  }

  /** The base a `0x`, `0o` or `0b` prefix (either case) selects. */
  function RadixOfPrefix(c: char): Option<nat> {
    if c == 'x' || c == 'X' then Some(16)
    else if c == 'o' || c == 'O' then Some(8)
    else if c == 'b' || c == 'B' then Some(2)
    else None
  }

  /** An unsigned `0x`, `0o` or `0b` integer literal with at least one digit. */
  function NonDecimalLiteral(t: string): Option<nat> {
    if |t| > 2 && t[0] == '0' && RadixOfPrefix(t[1]).Some? && AllRadixDigits(t[2..], RadixOfPrefix(t[1]).value) then
      Some(RadixValue(t[2..], RadixOfPrefix(t[1]).value))
    else None
  }

  /**
   * `Number(s)`: white space around the text is ignored, and blank text is 0.
   * Otherwise the text must be a `0x`, `0o` or `0b` integer literal, or a
   * decimal literal with an optional sign and exponent; anything else is NaN
   * (`None`). Values are exact reals.
   */
  function ParseNumber(s: string): Option<real> {
    var t := Trim(s);
    if t == "" then Some(0.0) else ParseNumeric(t)
  }

  /** A non-blank, trimmed numeric literal: base-prefixed, or a signed decimal one. */
  function ParseNumeric(t: string): Option<real>
    requires t != ""
  {
    match NonDecimalLiteral(t)
    case Some(v) => Some(v as real)
    case None =>
      var unsigned := if t[0] == '-' || t[0] == '+' then t[1..] else t;
      match ParseDecimal(unsigned)
      case Some(v) => Some(if t[0] == '-' then -v else v)
      case None => None
  }

  /**
   * A valid floating-point number as HTML defines it (section 2.3.4.3 of the
   * HTML Living Standard): an optional `-`, then an unsigned one. A number
   * input's value is always one of these or "".
   */
  predicate IsValidFloat(v: string) {
    IsValidUnsignedFloat(if |v| > 0 && v[0] == '-' then v[1..] else v)
  }

  /** Digits, digits `.` digits, or `.` digits; then optionally `e` or `E`, an optional sign, and digits. */
  predicate IsValidUnsignedFloat(u: string) {
    match ExponentIndex(u)
    case None => IsValidMantissa(u)
    case Some(i) => IsValidMantissa(u[..i]) && IsValidExponent(u[i + 1..])
  }

  predicate IsValidExponent(x: string) {
    var digits := if |x| > 0 && (x[0] == '-' || x[0] == '+') then x[1..] else x;
    |digits| > 0 && AllDigits(digits)
  }

  predicate IsValidMantissa(m: string) {
    (|m| > 0 && AllDigits(m))
    || exists i :: 0 <= i < |m| && m[i] == '.' && AllDigits(m[..i]) && |m[i + 1..]| > 0 && AllDigits(m[i + 1..])
  }

  /** `Number` accepts every value a number input can hold, "1e3" included. */
  lemma NumberReadsValidFloats(v: string)
    requires v == "" || IsValidFloat(v)
    ensures ParseNumber(v).Some?
  {
    if v != "" {
      if v[0] == '-' {
        assert v == "-" + v[1..];
        ValidNegativeIsNumber(v[1..]);
      } else {
        ValidUnsignedIsNumber(v);
      }
    }
  }

  lemma ValidUnsignedIsNumber(u: string)
    requires IsValidUnsignedFloat(u)
    ensures ParseNumber(u).Some?
  {
    ValidUnsignedFloatShape(u);
    TrimOfTrimmed(u);
    assert NonDecimalLiteral(u).None?;
    assert u[0] != '-' && u[0] != '+';
    ValidUnsignedFloatParses(u);
  }

  lemma ValidNegativeIsNumber(u: string)
    requires IsValidUnsignedFloat(u)
    ensures ParseNumber("-" + u).Some?
  {
    var v := "-" + u;
    ValidUnsignedFloatShape(u);
    assert v[0] == '-' && v[1..] == u && v[|v| - 1] == u[|u| - 1];
    TrimOfTrimmed(v);
    assert NonDecimalLiteral(v).None?;
    ValidUnsignedFloatParses(u);
  }

  /** An exponent scales the mantissa by a power of ten: `Number("15e2")` is 1500. */
  lemma NumberReadsExponent(m: string, x: string)
    requires |m| > 0 && AllDigits(m) && |x| > 0 && AllDigits(x)
    ensures ParseNumber(m + "e" + x) == Some(Scale(DigitsValue(m) as real, DigitsValue(x)))
  {
    var s := m + "e" + x;
    assert s[0] == m[0] && s[|s| - 1] == x[|x| - 1];
    TrimOfTrimmed(s);
    ExponentLiteral(m, x);
    assert IsDigit(s[0]) && (|s| > 2 && s[0] == '0' ==> IsDigit(s[1]) || s[1] == 'e');
    NumberOfUnsignedLiteral(s);
  }

  /** Trimmed text that starts with a digit and is no base-prefixed literal is read as an unsigned decimal. */
  lemma NumberOfUnsignedLiteral(t: string)
    requires t != "" && Trim(t) == t && IsDigit(t[0])
    requires |t| > 2 && t[0] == '0' ==> IsDigit(t[1]) || IsExponentMark(t[1])
    ensures ParseNumber(t) == ParseDecimal(t)
  {
    assert NonDecimalLiteral(t).None?;
    ParseNumericOfDigitStart(t);
  }

  lemma ParseNumericOfDigitStart(t: string)
    requires t != "" && IsDigit(t[0]) && NonDecimalLiteral(t).None?
    ensures ParseNumeric(t) == ParseDecimal(t)
  {
    assert t[0] != '-' && t[0] != '+';
  }

  lemma ExponentLiteral(m: string, x: string)
    requires |m| > 0 && AllDigits(m) && |x| > 0 && AllDigits(x)
    ensures ParseDecimal(m + "e" + x) == Some(Scale(DigitsValue(m) as real, DigitsValue(x)))
  {
    SplitAtExponent(m, x);
    assert ParseExponent(x) == Some(DigitsValue(x) as int) by {
      assert IsDigit(x[0]);
    }
  }

  lemma SplitAtExponent(m: string, x: string)
    requires AllDigits(m)
    ensures var s := m + "e" + x; ExponentIndex(s) == Some(|m|) && s[..|m|] == m && s[|m| + 1..] == x
  {
    assert m + "e" + x == m + ("e" + x);
    ExponentIndexAfter(m, "e" + x);
  }

  lemma {:induction false} ExponentIndexAfter(a: string, b: string)
    requires forall j :: 0 <= j < |a| ==> !IsExponentMark(a[j])
    requires |b| > 0 && IsExponentMark(b[0])
    ensures ExponentIndex(a + b) == Some(|a|)
  {
    if |a| > 0 {
      assert (a + b)[1..] == a[1..] + b;
      ExponentIndexAfter(a[1..], b);
    } else {
      assert a + b == b;
    }
  }

  /** A valid unsigned float starts with a digit or `.`, ends with a digit, and has no base prefix. */
  lemma ValidUnsignedFloatShape(u: string)
    requires IsValidUnsignedFloat(u)
    ensures |u| > 0 && (IsDigit(u[0]) || u[0] == '.') && IsDigit(u[|u| - 1])
    ensures |u| > 1 && u[0] == '0' ==> RadixOfPrefix(u[1]).None?
  {
    match ExponentIndex(u)
    case None =>
      ValidMantissaShape(u);
    case Some(i) =>
      ValidMantissaShape(u[..i]);
      ExponentFormShape(u, i);
  }

  /** A mantissa, an exponent mark at `i`, then a valid exponent. */
  lemma ExponentFormShape(u: string, i: nat)
    requires i < |u| && IsExponentMark(u[i]) && IsValidExponent(u[i + 1..])
    requires var m := u[..i]; |m| > 0 && (IsDigit(m[0]) || m[0] == '.') && (|m| > 1 ==> IsDigit(m[1]) || m[1] == '.')
    ensures |u| > 0 && (IsDigit(u[0]) || u[0] == '.') && IsDigit(u[|u| - 1])
    ensures |u| > 1 && u[0] == '0' ==> RadixOfPrefix(u[1]).None?
  {
    var m, x := u[..i], u[i + 1..];
    var digits := if |x| > 0 && (x[0] == '-' || x[0] == '+') then x[1..] else x;
    assert u[|u| - 1] == digits[|digits| - 1];
    assert u[0] == m[0];
    if |m| > 1 { assert u[1] == m[1]; }
  }

  lemma ValidMantissaShape(m: string)
    requires IsValidMantissa(m)
    ensures |m| > 0 && (IsDigit(m[0]) || m[0] == '.') && IsDigit(m[|m| - 1])
    ensures |m| > 1 ==> IsDigit(m[1]) || m[1] == '.'
  {
    if !(|m| > 0 && AllDigits(m)) {
      var i :| 0 <= i < |m| && m[i] == '.' && AllDigits(m[..i]) && |m[i + 1..]| > 0 && AllDigits(m[i + 1..]);
      assert m[i + 1..][|m| - i - 2] == m[|m| - 1];
      if i > 0 { assert m[..i][0] == m[0]; }
      if i > 1 { assert m[..i][1] == m[1]; }
      if i == 0 && |m| > 1 { assert m[i + 1..][0] == m[1]; }
    }
  }

  lemma ValidUnsignedFloatParses(u: string)
    requires IsValidUnsignedFloat(u)
    ensures ParseDecimal(u).Some?
  {
    match ExponentIndex(u)
    case None =>
      ValidMantissaParses(u);
    case Some(i) =>
      ValidMantissaParses(u[..i]);
  }

  /** A valid mantissa is one `ParseUnsigned` reads. */
  lemma ValidMantissaParses(m: string)
    requires IsValidMantissa(m)
    ensures ParseUnsigned(m).Some?
  {
    if !AllDigits(m) {
      var i :| 0 <= i < |m| && m[i] == '.' && AllDigits(m[..i]) && |m[i + 1..]| > 0 && AllDigits(m[i + 1..]);
      assert forall k :: 0 <= k < i ==> m[k] != '.' by {
        forall k | 0 <= k < i
          ensures m[k] != '.'
        {
          assert m[..i][k] == m[k];
        }
      }
      assert IndexOf(m, '.') == Some(i);
    }
  }

  // ---------------------------------------------------------------- parseInt

  /** The magnitude `parseInt` reads after the sign: base 16 after `0x`/`0X`, base 10 otherwise. */
  function ParseIntMagnitude(u: string): Option<nat> {
    if |u| >= 2 && u[0] == '0' && (u[1] == 'x' || u[1] == 'X') then
      var k := RadixPrefixLength(u[2..], 16);
      if k == 0 then None else Some(RadixValue(u[2..][..k], 16))
    else
      var k := DigitPrefixLength(u);
      if k == 0 then None else Some(DigitsValue(u[..k]))
  }

  /**
   * `parseInt(s)` with no radix: leading white space is skipped, then an
   * optional `+` or `-`; a `0x` prefix selects base 16; then the longest run
   * of digits is read, and the result is NaN (`None`) when the run is empty.
   */
  function ParseInt(s: string): Option<int> {
    var t := TrimStart(s);
    var unsigned := if |t| > 0 && (t[0] == '-' || t[0] == '+') then t[1..] else t;
    match ParseIntMagnitude(unsigned)
    case None => None
    case Some(m) => Some(if |t| > 0 && t[0] == '-' then -(m as int) else m as int)
  }

  /** Leading white space does not change what `parseInt` reads. */
  lemma ParseIntSkipsWhiteSpace(w: string, s: string)
    requires forall i :: 0 <= i < |w| ==> IsJsWhiteSpace(w[i])
    ensures ParseInt(w + s) == ParseInt(s)
  {
    TrimStartOfPadded(w, s);
  }

  /** Leading white space is exactly what `TrimStart` removes first. */
  lemma TrimStartOfPadded(w: string, s: string)
    requires forall i :: 0 <= i < |w| ==> IsJsWhiteSpace(w[i])
    ensures TrimStart(w + s) == TrimStart(s)
  {
    var k := LeadingRun(s, IsJsWhiteSpace);
    LeadingRunOfPadded(w, s, IsJsWhiteSpace);
    DropAfterPrefix(w, s, k);
  }

  lemma DropAfterPrefix(a: string, b: string, k: nat)
    requires k <= |b|
    ensures (a + b)[|a| + k..] == b[k..]
  {
  }

  /** White space around the text does not change what `Number` reads. */
  lemma NumberSkipsWhiteSpace(before: string, s: string, after: string)
    requires forall i :: 0 <= i < |before| ==> IsJsWhiteSpace(before[i])
    requires forall i :: 0 <= i < |after| ==> IsJsWhiteSpace(after[i])
    ensures ParseNumber(before + s + after) == ParseNumber(s)
  {
    TrimByIgnoresPadding(before, s, after, IsJsWhiteSpace);
  }

  /** A non-empty run of decimal digits is a decimal literal of its value. */
  lemma DigitsAreDecimal(d: string)
    requires |d| > 0 && AllDigits(d)
    ensures ParseDecimal(d) == Some(DigitsValue(d) as real)
  {
    assert ExponentIndex(d).None?;
  }

  /** `parseInt` reads the whole of a non-empty run of decimal digits. */
  lemma DigitsAreIntMagnitude(d: string)
    requires |d| > 0 && AllDigits(d)
    ensures ParseIntMagnitude(d) == Some(DigitsValue(d))
  {
    DigitPrefixAllDigits(d);
    assert d[..|d|] == d;
    if |d| >= 2 { assert IsDigit(d[1]); }
  }

  /** `Number` undoes `String` on every integer. */
  lemma NumberOfIntToString(n: int)
    ensures ParseNumber(IntToString(n)) == Some(n as real)
  {
    if n < 0 {
      var m: nat := -n;
      var d := NatToString(m);
      assert IntToString(n) == "-" + d;
      NumberOfNegatedNat(m);
      assert -(m as real) == n as real;
    } else {
      NumberOfNatToString(n);
    }
  }

  lemma NumberOfNegatedNat(m: nat)
    ensures ParseNumber("-" + NatToString(m)) == Some(-(m as real))
  {
    NumberOfNatToString(m);
    NegatedDigits(NatToString(m), m as real);
  }

  /** A minus sign before a run of digits negates the decimal value of the run. */
  lemma NegatedDigits(d: string, x: real)
    requires |d| > 0 && AllDigits(d) && ParseDecimal(d) == Some(x)
    ensures ParseNumber("-" + d) == Some(-x)
  {
    assert IsDigit(d[0]) && IsDigit(d[|d| - 1]);
    TrimOfSigned(d);
    NumberOfNegative(d);
  }

  lemma TrimOfSigned(d: string)
    requires |d| > 0 && IsDigit(d[0]) && IsDigit(d[|d| - 1])
    ensures Trim("-" + d) == "-" + d
  {
    var v := "-" + d;
    assert v[0] == '-' && v[|v| - 1] == d[|d| - 1];
    TrimOfTrimmed(v);
  }

  lemma NumberOfNatToString(m: nat)
    ensures ParseNumber(NatToString(m)) == Some(m as real)
    ensures ParseDecimal(NatToString(m)) == Some(m as real)
  {
    var s := NatToString(m);
    DigitsValueOfNatToString(m);
    DigitsAreDecimal(s);
    TrimOfTrimmed(s);
    if |s| > 2 && s[0] == '0' { assert IsDigit(s[1]); }
    NumberOfUnsignedLiteral(s);
  }

  /** A minus sign before a decimal literal negates it. */
  lemma NumberOfNegative(d: string)
    requires |d| > 0 && IsDigit(d[0]) && Trim("-" + d) == "-" + d
    ensures ParseNumber("-" + d) == match ParseDecimal(d) case Some(v) => Some(-v) case None => None
  {
    assert ("-" + d)[1..] == d;
    assert NonDecimalLiteral("-" + d).None?;
  }

  /** `parseInt` undoes `String` on every integer. */
  lemma ParseIntOfIntToString(n: int)
    ensures ParseInt(IntToString(n)) == Some(n)
  {
    if n < 0 {
      var d := NatToString(-n);
      DigitsValueOfNatToString(-n);
      ParseIntOfNegativeDigits(d, -n);
      assert IntToString(n) == "-" + d;
    } else {
      var d := NatToString(n);
      DigitsValueOfNatToString(n);
      ParseIntOfDigits(d, n);
      assert IntToString(n) == d;
    }
  }

  lemma ParseIntOfDigits(d: string, m: nat)
    requires |d| > 0 && AllDigits(d) && DigitsValue(d) == m
    ensures ParseInt(d) == Some(m)
  {
    assert IsDigit(d[0]);
    TrimStartOfUnpadded(d);
    DigitsAreIntMagnitude(d);
  }

  lemma ParseIntOfNegativeDigits(d: string, m: nat)
    requires |d| > 0 && AllDigits(d) && DigitsValue(d) == m
    ensures ParseInt("-" + d) == Some(-(m as int))
  {
    DigitsAreIntMagnitude(d);
    NegatedMagnitude(d, m);
  }

  lemma NegatedMagnitude(u: string, m: nat)
    requires ParseIntMagnitude(u) == Some(m)
    ensures ParseInt("-" + u) == Some(-(m as int))
  {
    ParseIntOfMinus(u);
  }

  /** After a minus sign `parseInt` negates the magnitude it reads. */
  lemma ParseIntOfMinus(u: string)
    ensures ParseIntMagnitude(u).None? ==> ParseInt("-" + u).None?
    ensures ParseIntMagnitude(u).Some? ==> ParseInt("-" + u) == Some(-(ParseIntMagnitude(u).value as int))
  {
    var s := "-" + u;
    assert s[0] == '-' && s[1..] == u;
    TrimStartOfUnpadded(s);
  }

  /** Text that does not start with white space is its own `TrimStart`. */
  lemma TrimStartOfUnpadded(s: string)
    requires |s| > 0 && !IsJsWhiteSpace(s[0])
    ensures TrimStart(s) == s
  {
    assert LeadingRun(s, IsJsWhiteSpace) == 0;
  }

  lemma {:induction false} DigitPrefixAllDigits(s: string)
    requires AllDigits(s)
    ensures DigitPrefixLength(s) == |s|
  {
    if |s| > 0 {
      DigitPrefixAllDigits(s[1..]);
    }
  }

  /** Distinct integers print differently, so an id in a path names exactly one record. */
  lemma IntToStringInjective(a: int, b: int)
    requires IntToString(a) == IntToString(b)
    ensures a == b
  {
    ParseIntOfIntToString(a);
    ParseIntOfIntToString(b);
  }

  /** `toLowerCase` on ASCII and Latin-1 capitals (A–Z, À–Þ except ×); other characters are kept. */
  function LowerChar(c: char): char {
    if 'A' <= c <= 'Z' || ('À' <= c <= 'Þ' && c != '×') then (c as int + 32) as char else c
  }

  function ToLower(s: string): (r: string)
    ensures |r| == |s| && forall i :: 0 <= i < |s| ==> r[i] == LowerChar(s[i])
  {
    if |s| == 0 then "" else [LowerChar(s[0])] + ToLower(s[1..])
  }

  predicate IsPrefix(t: string, s: string) {
    |t| <= |s| && s[..|t|] == t
  }

  /** `s.includes(t)`. */
  predicate Contains(s: string, t: string)
    decreases |s|
  {
    IsPrefix(t, s) || (|s| > 0 && Contains(s[1..], t))
  }

  /** `t` occurs in `s` starting at offset `i`. */
  predicate OccursAt(s: string, t: string, i: int) {
    0 <= i && i + |t| <= |s| && s[i..i + |t|] == t
  }

  /** `includes` holds exactly when `t` occurs at some offset of `s`. */
  lemma {:induction false} ContainsIffOccurs(s: string, t: string)
    ensures Contains(s, t) <==> exists i :: OccursAt(s, t, i)
    decreases |s|
  {
    if |s| > 0 {
      ContainsIffOccurs(s[1..], t);
      OccursInTail(s, t);
    } else {
      if exists i :: OccursAt(s, t, i) {
        var i :| OccursAt(s, t, i);
        assert IsPrefix(t, s);
      }
      if IsPrefix(t, s) {
        assert OccursAt(s, t, 0);
      }
    }
  }

  /** An occurrence in non-empty text is at its start or is one in its tail. */
  lemma OccursInTail(s: string, t: string)
    requires |s| > 0
    ensures (exists i :: OccursAt(s, t, i)) <==> IsPrefix(t, s) || exists i :: OccursAt(s[1..], t, i)
  {
    if exists i :: OccursAt(s, t, i) {
      var i :| OccursAt(s, t, i);
      if i > 0 {
        assert s[1..][i - 1..i - 1 + |t|] == s[i..i + |t|];
        assert OccursAt(s[1..], t, i - 1);
      }
    }
    if IsPrefix(t, s) {
      assert OccursAt(s, t, 0);
    }
    if exists i :: OccursAt(s[1..], t, i) {
      var i :| OccursAt(s[1..], t, i);
      assert s[1..][i..i + |t|] == s[i + 1..i + 1 + |t|];
      assert OccursAt(s, t, i + 1);
    }
  }

  /** The `TypeError` raised by calling a member that reads as `undefined`. */
  function NotAFunction(member: string): string {
    member + " is not a function"
  }

  /** JavaScript's `a || b` on strings: the empty string is falsy. */
  function OrElse(a: string, b: string): (r: string)
    ensures |a| > 0 ==> r == a
    ensures |a| == 0 ==> r == b
  {
    if |a| > 0 then a else b
  }

  /** `e || d` on an optional string (`undefined`, `null` and `""` fall back). */
  function OptionOrElse(e: Option<string>, d: string): (r: string)
    ensures e.Some? && |e.value| > 0 ==> r == e.value
    ensures (e.None? || e.value == "") ==> r == d
  {
    match e
    case Some(s) => OrElse(s, d)
    case None => d
  }
}

=== FILE: options.dfy ===
/** The optional value used wherever the source has `T | null`, `T | undefined` or an optional field. */
module Options {

  datatype Option<+T> = None | Some(value: T) {

    /** The value, or `default` when absent (the `x ?? d` of the source's nullable fields). */
    function GetOr(default: T): T {
      match this
      case Some(v) => v
      case None => default
    }
  }

  /** The outcome of a call that either returns a value or throws an `Error` with a message. */
  datatype Result<+T> = Success(value: T) | Failure(error: string)
}

=== FILE: product_card.dfy ===
/**
 * A catalogue card (`components/ProductCard.tsx`): the image it shows, the
 * state of its add-to-cart button, and what a click on that button does.
 */
module ProductCard {
  import opened Options
  import opened JsText
  import opened Types
  import CartContext

  const DefaultBackendUrl: string := "http://localhost:8080"
  const PlaceholderImage: string := "/placeholder.png"

  /** `process.env.NEXT_PUBLIC_API_URL || 'http://localhost:8080'`. */
  function BackendUrl(env: Option<string>): (url: string)
    ensures |url| > 0
    ensures env.Some? && env.value != "" ==> url == env.value
    ensures env.None? || env.value == "" ==> url == DefaultBackendUrl
  {
    OptionOrElse(env, DefaultBackendUrl)
  }

  /** The image path is used, prefixed with the backend URL, exactly when it is non-empty. */
  function ImageUrl(p: ProductoListado, env: Option<string>): (url: string)
    ensures p.imagenUrlPrincipal.Some? && p.imagenUrlPrincipal.value != "" ==>
      url == BackendUrl(env) + p.imagenUrlPrincipal.value
    ensures p.imagenUrlPrincipal.None? || p.imagenUrlPrincipal.value == "" ==> url == PlaceholderImage
  {
    match p.imagenUrlPrincipal
    case Some(path) => if path != "" then BackendUrl(env) + path else PlaceholderImage
    case None => PlaceholderImage
  }

  /** The URL of a stored image extends the backend URL by the stored path. */
  lemma StoredImageIsServedByBackend(p: ProductoListado, env: Option<string>)
    requires p.imagenUrlPrincipal.Some? && p.imagenUrlPrincipal.value != ""
    ensures |ImageUrl(p, env)| > |BackendUrl(env)|
    ensures ImageUrl(p, env)[..|BackendUrl(env)|] == BackendUrl(env)
    ensures ImageUrl(p, env)[|BackendUrl(env)|..] == p.imagenUrlPrincipal.value
  {
  }

  /** The add-to-cart button: whether it is disabled, and its caption. */
  datatype AddButton = AddButton(disabled: bool, caption: string)

  const OutOfStockCaption: string := "Sin Stock"
  const AddingCaption: string := "Añadiendo..."
  const AddCaption: string := "Añadir al Carrito"

  /**
   * Disabled while adding or when out of stock. An out-of-stock product shows
   * "Sin Stock" whatever the adding flag; otherwise the caption follows it.
   */
  function RenderButton(p: ProductoListado, isAdding: bool): (b: AddButton)
    ensures b.disabled <==> isAdding || p.stockActual == 0
    ensures p.stockActual == 0 ==> b.caption == OutOfStockCaption
    ensures p.stockActual != 0 ==> (b.caption == AddingCaption <==> isAdding)
    ensures p.stockActual != 0 && !isAdding ==> b.caption == AddCaption
  {
    AddButton(isAdding || p.stockActual == 0,
      if p.stockActual == 0 then OutOfStockCaption else if isAdding then AddingCaption else AddCaption)
  }

  /** The button can be pressed exactly when it offers to add. */
  lemma EnabledIffOffersAdd(p: ProductoListado, isAdding: bool)
    ensures !RenderButton(p, isAdding).disabled <==> RenderButton(p, isAdding).caption == AddCaption
  {
  }

  /** The cart call a click makes: which product, and how many units. */
  datatype AddCall = AddCall(productoId: int, cantidad: int)

  /** How an awaited call settles. */
  datatype Settled = Resolved | Rejected(message: string)

  /**
   * What one click does: the values written to `isAdding`, in order; the cart
   * call made, if any; and the reason the handler's promise rejected, if it did.
   */
  datatype Click = Click(writes: seq<bool>, call: Option<AddCall>, rejection: Option<string>)

  /** `isAdding` once the click has settled: the last value written, or `before` when nothing was. */
  function AddingAfter(before: bool, c: Click): bool {
    if |c.writes| == 0 then before else c.writes[|c.writes| - 1]
  }

  /**
   * The click handler: `setIsAdding(true)`, then `await` the context member
   * `member` called with this product and quantity 1, then
   * `setIsAdding(false)`. `provided` is the set of members the context value
   * defines; calling one it does not define throws. When the awaited call
   * rejects, the last write runs only if it sits in a `finally` block.
   */
  function Handle(provided: set<string>, member: string, p: ProductoListado, outcome: Settled, inFinally: bool): (c: Click)
    // the flag is raised first, whatever happens next
    ensures |c.writes| > 0 && c.writes[0]
    // the cart is called exactly when the member exists, with this product and one unit
    ensures c.call.Some? <==> member in provided
    ensures c.call.Some? ==> c.call.value == AddCall(p.productoId, 1)
    // a missing member rejects the handler with a TypeError
    ensures member !in provided ==> c.rejection == Some(NotAFunction(member))
    ensures member in provided ==> (c.rejection.Some? <==> outcome.Rejected?)
    // the flag comes down exactly when the call resolved or the reset is in a `finally`
    ensures !AddingAfter(true, c) <==> inFinally || (member in provided && outcome.Resolved?)
  {
    var settled := if member in provided then outcome else Rejected(NotAFunction(member));
    var call := if member in provided then Some(AddCall(p.productoId, 1)) else None;
    match settled
    case Resolved => Click([true, false], call, None)
    case Rejected(m) => Click(if inFinally then [true, false] else [true], call, Some(m))
  }

  /** The member the card reads from the context as written. */
  const AsWrittenMember: string := "addItem"

  /** The member the context provides for this: `addToCart`. */
  const ProvidedMember: string := "addToCart"

  /**
   * `onAddToCartClick` as written: it awaits `addItem`, which the provider's
   * context value does not define, with the reset after the `await` rather
   * than in a `finally`.
   */
  function ClickAsWritten(p: ProductoListado, outcome: Settled): (c: Click)
    ensures c.call.None?
    ensures c.rejection == Some(NotAFunction(AsWrittenMember))
    ensures AddingAfter(false, c)
  {
    assert AsWrittenMember !in CartContext.ContextMembers;
    Handle(CartContext.ContextMembers, AsWrittenMember, p, outcome, false)
  }

  /** After one click as written the button stays disabled, and no product was ever added. */
  lemma ClickAsWrittenLocksButton(p: ProductoListado, outcome: Settled)
    requires p.stockActual != 0
    ensures !RenderButton(p, false).disabled
    ensures RenderButton(p, AddingAfter(false, ClickAsWritten(p, outcome))).disabled
    ensures RenderButton(p, AddingAfter(false, ClickAsWritten(p, outcome))).caption == AddingCaption
    ensures ClickAsWritten(p, outcome).call.None?
  {
  }

  /**
   * Without the `finally`, the flag sticks even for a member the context does
   * provide, as soon as the awaited call rejects.
   */
  lemma {:induction false} MissingFinallyLocksOnRejection(p: ProductoListado, provided: set<string>, member: string, message: string)
    requires p.stockActual != 0
    ensures RenderButton(p, AddingAfter(false, Handle(provided, member, p, Rejected(message), false))).disabled
  {
    var c := Handle(provided, member, p, Rejected(message), false);
    assert AddingAfter(false, c);
  }

  /**
   * The evidently intended click: `addToCart` from the context, with the
   * reset in a `finally`, so the flag comes down whether the call resolves or
   * rejects.
   */
  function ClickCorrected(p: ProductoListado, outcome: Settled): (c: Click)
    ensures c.call == Some(AddCall(p.productoId, 1))
    ensures c.rejection.Some? <==> outcome.Rejected?
    ensures |c.writes| > 0 && c.writes[0] && !AddingAfter(false, c)
  {
    Handle(CartContext.ContextMembers, ProvidedMember, p, outcome, true)
  }

  /** A corrected click disables the button while pending and leaves it as it was before, whatever the outcome. */
  lemma ClickCorrectedRestoresButton(p: ProductoListado, isAdding: bool, outcome: Settled)
    requires !RenderButton(p, isAdding).disabled
    ensures RenderButton(p, ClickCorrected(p, outcome).writes[0]).disabled
    ensures RenderButton(p, AddingAfter(isAdding, ClickCorrected(p, outcome))) == RenderButton(p, isAdding)
  {
  }
}

=== FILE: product_form.dfy ===
/**
 * The product create/edit form (`components/ProductForm.tsx`): populating
 * the fields from the product being edited, editing one field of a
 * type-specific detail block, and building the multipart payload whose
 * detail part is selected by the product-type discriminator.
 */
module ProductForm {
  import opened Options
  import opened JsText
  import opened Types

  datatype FormState = FormState(
    nombre: string,
    descripcion: string,
    stockActual: real,
    precio: real,
    costo: real,
    categoriaId: string,
    tipoProductoId: string,
    detallesPlanta: DetallesPlanta,
    detallesHerramienta: DetallesHerramienta,
    detallesSemilla: DetallesSemilla,
    imagenes: Option<seq<File>>)

  const EmptyPlanta: DetallesPlanta := DetallesPlanta("", "", "", false, "", "")
  const EmptyHerramienta: DetallesHerramienta := DetallesHerramienta("", "", 0.0, "", false)
  const EmptySemilla: DetallesSemilla := DetallesSemilla("", "", 0.0, "", "")

  const InitialForm: FormState :=
    FormState("", "", 0.0, 0.0, 0.0, "", "", EmptyPlanta, EmptyHerramienta, EmptySemilla, None)

  // ------------------------------------------------------------ population

  /** `String(id || '')`: the id in decimal, or the empty string for the falsy id 0. */
  function IdText(id: int): (t: string)
    ensures id == 0 <==> t == ""
  {
    if id != 0 then IntToString(id) else ""
  }

  /** `Number` recovers the id from its select value, 0 included (`Number('')` is 0). */
  lemma IdTextRoundTrip(id: int)
    ensures ParseNumber(IdText(id)) == Some(id as real)
  {
    if id != 0 {
      NumberOfIntToString(id);
    }
  }

  /** The select value of a type id is "1", "2" or "3" exactly for those ids. */
  lemma IdTextOfSmallIds(id: int)
    ensures IdText(id) == "1" <==> id == 1
    ensures IdText(id) == "2" <==> id == 2
    ensures IdText(id) == "3" <==> id == 3
  {
    assert IntToString(1) == "1" && IntToString(2) == "2" && IntToString(3) == "3";
    if IdText(id) in {"1", "2", "3"} {
      assert id != 0;
      if IdText(id) == "1" { IntToStringInjective(id, 1); }
      if IdText(id) == "2" { IntToStringInjective(id, 2); }
      if IdText(id) == "3" { IntToStringInjective(id, 3); }
    }
  }

  /**
   * The `initialData` effect. A product overwrites every managed field with
   * its stored value (prices and costs fall back to 0, absent detail blocks to
   * their empty defaults); no product resets every managed field. The chosen
   * images are not touched either way.
   */
  function Populate(s: FormState, initialData: Option<ProductoDetalle>): (r: FormState)
    ensures r.imagenes == s.imagenes
    ensures initialData.None? ==> r == InitialForm.(imagenes := s.imagenes)
    ensures initialData.Some? ==>
      var d := initialData.value;
      && r.nombre == d.nombreProducto && r.descripcion == d.descripcionGeneral && r.stockActual == d.stockActual as real
      && r.precio == (if d.precioActual.Some? then d.precioActual.value.precioVenta else 0.0)
      && r.costo == (if d.costoActual.Some? then d.costoActual.value.precioCosto else 0.0)
      && ParseNumber(r.categoriaId) == Some(d.categoria.categoriaId as real)
      && ParseNumber(r.tipoProductoId) == Some(d.tipoProducto.tipoProductoId as real)
      && (d.detallesPlanta.Some? ==> r.detallesPlanta == d.detallesPlanta.value)
      && (d.detallesPlanta.None? ==> r.detallesPlanta == EmptyPlanta)
      && (d.detallesHerramienta.Some? ==> r.detallesHerramienta == d.detallesHerramienta.value)
      && (d.detallesHerramienta.None? ==> r.detallesHerramienta == EmptyHerramienta)
      && (d.detallesSemilla.Some? ==> r.detallesSemilla == d.detallesSemilla.value)
      && (d.detallesSemilla.None? ==> r.detallesSemilla == EmptySemilla)
  {
    match initialData
    case None => InitialForm.(imagenes := s.imagenes)
    case Some(d) =>
      IdTextRoundTrip(d.categoria.categoriaId);
      IdTextRoundTrip(d.tipoProducto.tipoProductoId);
      s.(
        nombre := d.nombreProducto,
        descripcion := d.descripcionGeneral,
        stockActual := d.stockActual as real,
        precio := if d.precioActual.Some? then d.precioActual.value.precioVenta else 0.0,
        costo := if d.costoActual.Some? then d.costoActual.value.precioCosto else 0.0,
        categoriaId := IdText(d.categoria.categoriaId),
        tipoProductoId := IdText(d.tipoProducto.tipoProductoId),
        detallesPlanta := d.detallesPlanta.GetOr(EmptyPlanta),
        detallesHerramienta := d.detallesHerramienta.GetOr(EmptyHerramienta),
        detallesSemilla := d.detallesSemilla.GetOr(EmptySemilla))
  }

  /** The effect depends only on `initialData`: whatever was typed before is overwritten. */
  lemma PopulateForgetsPriorEdits(s1: FormState, s2: FormState, initialData: Option<ProductoDetalle>)
    requires s1.imagenes == s2.imagenes
    ensures Populate(s1, initialData) == Populate(s2, initialData)
  {
  }

  // --------------------------------------------------------- detail edits

  /** The three detail blocks, named as `handleDetailsChange` names them. */
  datatype DetailKind = Planta | Herramienta | Semilla

  /** The fields of the detail blocks; each has an input whose `name` is `InputName` of it. */
  datatype DetailField =
    | NombreCientifico | NivelLuzDescripcion | FrecuenciaRiegoDescripcion | EsVenenosa
    | CuidadosEspeciales | TipoAmbiente
    | MaterialPrincipal | Dimensiones | PesoKG | UsoRecomendado | RequiereMantenimiento
    | EspecieVariedad | TiempoGerminacionDias | ProfundidadSiembraCM | EpocaSiembraIdeal | InstruccionesSiembra

  /** The block a field belongs to. */
  function BlockOf(g: DetailField): DetailKind {
    match g
    case NombreCientifico | NivelLuzDescripcion | FrecuenciaRiegoDescripcion | EsVenenosa
      | CuidadosEspeciales | TipoAmbiente => Planta
    case MaterialPrincipal | Dimensiones | PesoKG | UsoRecomendado | RequiereMantenimiento => Herramienta
    case EspecieVariedad | TiempoGerminacionDias | ProfundidadSiembraCM | EpocaSiembraIdeal
      | InstruccionesSiembra => Semilla
  }

  /** The `name` attribute of the field's input, which is also its key in the block. */
  function InputName(g: DetailField): string {
    match g
    case NombreCientifico => "nombreCientifico"
    case NivelLuzDescripcion => "nivelLuzDescripcion"
    case FrecuenciaRiegoDescripcion => "frecuenciaRiegoDescripcion"
    case EsVenenosa => "esVenenosa"
    case CuidadosEspeciales => "cuidadosEspeciales"
    case TipoAmbiente => "tipoAmbiente"
    case MaterialPrincipal => "materialPrincipal"
    case Dimensiones => "dimensiones"
    case PesoKG => "pesoKG"
    case UsoRecomendado => "usoRecomendado"
    case RequiereMantenimiento => "requiereMantenimiento"
    case EspecieVariedad => "especieVariedad"
    case TiempoGerminacionDias => "tiempoGerminacionDias"
    case ProfundidadSiembraCM => "profundidadSiembraCM"
    case EpocaSiembraIdeal => "epocaSiembraIdeal"
    case InstruccionesSiembra => "instruccionesSiembra"
  }

  /** Distinct inputs have distinct names, so `[name]` picks exactly one field. */
  lemma InputNamesAreDistinct(g1: DetailField, g2: DetailField)
    ensures InputName(g1) == InputName(g2) ==> g1 == g2
  {
  }

  /** The only fields converted with `Number`. */
  predicate IsNumericField(g: DetailField) {
    g == PesoKG || g == ProfundidadSiembraCM
  }

  /** The fields rendered as checkboxes. */
  predicate IsCheckboxField(g: DetailField) {
    g == EsVenenosa || g == RequiereMantenimiento
  }

  /** A detail field's value, by its JavaScript type. */
  datatype FieldValue = Text(text: string) | Flag(flag: bool) | Num(num: real)

  /** The current value of a detail field. */
  function FieldOf(s: FormState, g: DetailField): (v: FieldValue)
    ensures v.Num? <==> IsNumericField(g)
    ensures v.Flag? <==> IsCheckboxField(g)
  {
    match BlockOf(g)
    case Planta => PlantaField(s.detallesPlanta, g)
    case Herramienta => HerramientaField(s.detallesHerramienta, g)
    case Semilla => SemillaField(s.detallesSemilla, g)
  }

  function PlantaField(p: DetallesPlanta, g: DetailField): (v: FieldValue)
    requires BlockOf(g) == Planta
    ensures v.Num? <==> IsNumericField(g)
    ensures v.Flag? <==> IsCheckboxField(g)
  {
    match g
    case NombreCientifico => Text(p.nombreCientifico)
    case NivelLuzDescripcion => Text(p.nivelLuzDescripcion)
    case FrecuenciaRiegoDescripcion => Text(p.frecuenciaRiegoDescripcion)
    case EsVenenosa => Flag(p.esVenenosa)
    case CuidadosEspeciales => Text(p.cuidadosEspeciales)
    case TipoAmbiente => Text(p.tipoAmbiente)
  }

  function HerramientaField(h: DetallesHerramienta, g: DetailField): (v: FieldValue)
    requires BlockOf(g) == Herramienta
    ensures v.Num? <==> IsNumericField(g)
    ensures v.Flag? <==> IsCheckboxField(g)
  {
    match g
    case MaterialPrincipal => Text(h.materialPrincipal)
    case Dimensiones => Text(h.dimensiones)
    case PesoKG => Num(h.pesoKG)
    case UsoRecomendado => Text(h.usoRecomendado)
    case RequiereMantenimiento => Flag(h.requiereMantenimiento)
  }

  function SemillaField(m: DetallesSemilla, g: DetailField): (v: FieldValue)
    requires BlockOf(g) == Semilla
    ensures v.Num? <==> IsNumericField(g)
    ensures v.Flag? <==> IsCheckboxField(g)
  {
    match g
    case EspecieVariedad => Text(m.especieVariedad)
    case TiempoGerminacionDias => Text(m.tiempoGerminacionDias)
    case ProfundidadSiembraCM => Num(m.profundidadSiembraCM)
    case EpocaSiembraIdeal => Text(m.epocaSiembraIdeal)
    case InstruccionesSiembra => Text(m.instruccionesSiembra)
  }

  /** Forms that agree on every detail field have the same three detail blocks. */
  lemma FieldsDetermineBlocks(s1: FormState, s2: FormState)
    requires forall g :: FieldOf(s1, g) == FieldOf(s2, g)
    ensures s1.detallesPlanta == s2.detallesPlanta
    ensures s1.detallesHerramienta == s2.detallesHerramienta
    ensures s1.detallesSemilla == s2.detallesSemilla
  {
    forall g | BlockOf(g) == Planta
      ensures PlantaField(s1.detallesPlanta, g) == PlantaField(s2.detallesPlanta, g)
    {
      assert FieldOf(s1, g) == FieldOf(s2, g);
    }
    forall g | BlockOf(g) == Herramienta
      ensures HerramientaField(s1.detallesHerramienta, g) == HerramientaField(s2.detallesHerramienta, g)
    {
      assert FieldOf(s1, g) == FieldOf(s2, g);
    }
    forall g | BlockOf(g) == Semilla
      ensures SemillaField(s1.detallesSemilla, g) == SemillaField(s2.detallesSemilla, g)
    {
      assert FieldOf(s1, g) == FieldOf(s2, g);
    }
    PlantaFieldsDetermineBlock(s1.detallesPlanta, s2.detallesPlanta);
    HerramientaFieldsDetermineBlock(s1.detallesHerramienta, s2.detallesHerramienta);
    SemillaFieldsDetermineBlock(s1.detallesSemilla, s2.detallesSemilla);
  }

  lemma PlantaFieldsDetermineBlock(p1: DetallesPlanta, p2: DetallesPlanta)
    requires forall g :: BlockOf(g) == Planta ==> PlantaField(p1, g) == PlantaField(p2, g)
    ensures p1 == p2
  {
    assert PlantaField(p1, NombreCientifico) == PlantaField(p2, NombreCientifico);
    assert PlantaField(p1, NivelLuzDescripcion) == PlantaField(p2, NivelLuzDescripcion);
    assert PlantaField(p1, FrecuenciaRiegoDescripcion) == PlantaField(p2, FrecuenciaRiegoDescripcion);
    assert PlantaField(p1, EsVenenosa) == PlantaField(p2, EsVenenosa);
    assert PlantaField(p1, CuidadosEspeciales) == PlantaField(p2, CuidadosEspeciales);
    assert PlantaField(p1, TipoAmbiente) == PlantaField(p2, TipoAmbiente);
  }

  lemma HerramientaFieldsDetermineBlock(h1: DetallesHerramienta, h2: DetallesHerramienta)
    requires forall g :: BlockOf(g) == Herramienta ==> HerramientaField(h1, g) == HerramientaField(h2, g)
    ensures h1 == h2
  {
    assert HerramientaField(h1, MaterialPrincipal) == HerramientaField(h2, MaterialPrincipal);
    assert HerramientaField(h1, Dimensiones) == HerramientaField(h2, Dimensiones);
    assert HerramientaField(h1, PesoKG) == HerramientaField(h2, PesoKG);
    assert HerramientaField(h1, UsoRecomendado) == HerramientaField(h2, UsoRecomendado);
    assert HerramientaField(h1, RequiereMantenimiento) == HerramientaField(h2, RequiereMantenimiento);
  }

  lemma SemillaFieldsDetermineBlock(m1: DetallesSemilla, m2: DetallesSemilla)
    requires forall g :: BlockOf(g) == Semilla ==> SemillaField(m1, g) == SemillaField(m2, g)
    ensures m1 == m2
  {
    assert SemillaField(m1, EspecieVariedad) == SemillaField(m2, EspecieVariedad);
    assert SemillaField(m1, TiempoGerminacionDias) == SemillaField(m2, TiempoGerminacionDias);
    assert SemillaField(m1, ProfundidadSiembraCM) == SemillaField(m2, ProfundidadSiembraCM);
    assert SemillaField(m1, EpocaSiembraIdeal) == SemillaField(m2, EpocaSiembraIdeal);
    assert SemillaField(m1, InstruccionesSiembra) == SemillaField(m2, InstruccionesSiembra);
  }

  /** The fields of a change event the handler reads; the input's name is `InputName(field)`. */
  datatype ChangeEvent = ChangeEvent(field: DetailField, value: string, inputType: string, checked: bool)

  /**
   * The events the rendered form produces: `handleDetailsChange` is wired
   * with the block the input belongs to, checkboxes are exactly the boolean
   * fields, and the numeric fields are number inputs, whose value `Number`
   * reads (a number input only ever holds "" or a valid floating-point
   * number, and `JsText.NumberReadsValidFloats` shows `Number` reads all of them).
   */
  predicate WiredEvent(kind: DetailKind, e: ChangeEvent) {
    && BlockOf(e.field) == kind
    && (IsCheckboxField(e.field) <==> e.inputType == "checkbox")
    && (IsNumericField(e.field) ==> e.inputType == "number" && ParseNumber(e.value).Some?)
  }

  /** The value the handler stores: a number, a checkbox's state, or the raw text. */
  function NewValue(e: ChangeEvent): (v: FieldValue)
    requires IsNumericField(e.field) ==> ParseNumber(e.value).Some?
  {
    if IsNumericField(e.field) then Num(ParseNumber(e.value).value)
    else if e.inputType == "checkbox" then Flag(e.checked)
    else Text(e.value)
  }

  /** `{ ...block, [name]: v }` on the block of `g`, for a value of the field's type. */
  function SetField(s: FormState, g: DetailField, v: FieldValue): (r: FormState)
    requires v.Num? <==> IsNumericField(g)
    requires v.Flag? <==> IsCheckboxField(g)
    ensures FieldOf(r, g) == v
    ensures forall f :: f != g ==> FieldOf(r, f) == FieldOf(s, f)
    ensures BlockOf(g) != Planta ==> r.detallesPlanta == s.detallesPlanta
    ensures BlockOf(g) != Herramienta ==> r.detallesHerramienta == s.detallesHerramienta
    ensures BlockOf(g) != Semilla ==> r.detallesSemilla == s.detallesSemilla
    ensures r.(detallesPlanta := s.detallesPlanta, detallesHerramienta := s.detallesHerramienta,
               detallesSemilla := s.detallesSemilla) == s
  {
    match BlockOf(g)
    case Planta => s.(detallesPlanta := SetPlantaField(s.detallesPlanta, g, v))
    case Herramienta => s.(detallesHerramienta := SetHerramientaField(s.detallesHerramienta, g, v))
    case Semilla => s.(detallesSemilla := SetSemillaField(s.detallesSemilla, g, v))
  }

  function SetPlantaField(p: DetallesPlanta, g: DetailField, v: FieldValue): (q: DetallesPlanta)
    requires BlockOf(g) == Planta
    requires v.Num? <==> IsNumericField(g)
    requires v.Flag? <==> IsCheckboxField(g)
    ensures PlantaField(q, g) == v
    ensures forall f :: BlockOf(f) == Planta && f != g ==> PlantaField(q, f) == PlantaField(p, f)
  {
    match g
    case NombreCientifico => p.(nombreCientifico := v.text)
    case NivelLuzDescripcion => p.(nivelLuzDescripcion := v.text)
    case FrecuenciaRiegoDescripcion => p.(frecuenciaRiegoDescripcion := v.text)
    case EsVenenosa => p.(esVenenosa := v.flag)
    case CuidadosEspeciales => p.(cuidadosEspeciales := v.text)
    case TipoAmbiente => p.(tipoAmbiente := v.text)
  }

  function SetHerramientaField(h: DetallesHerramienta, g: DetailField, v: FieldValue): (q: DetallesHerramienta)
    requires BlockOf(g) == Herramienta
    requires v.Num? <==> IsNumericField(g)
    requires v.Flag? <==> IsCheckboxField(g)
    ensures HerramientaField(q, g) == v
    ensures forall f :: BlockOf(f) == Herramienta && f != g ==> HerramientaField(q, f) == HerramientaField(h, f)
  {
    match g
    case MaterialPrincipal => h.(materialPrincipal := v.text)
    case Dimensiones => h.(dimensiones := v.text)
    case PesoKG => h.(pesoKG := v.num)
    case UsoRecomendado => h.(usoRecomendado := v.text)
    case RequiereMantenimiento => h.(requiereMantenimiento := v.flag)
  }

  function SetSemillaField(m: DetallesSemilla, g: DetailField, v: FieldValue): (q: DetallesSemilla)
    requires BlockOf(g) == Semilla
    requires v.Num? <==> IsNumericField(g)
    requires v.Flag? <==> IsCheckboxField(g)
    ensures SemillaField(q, g) == v
    ensures forall f :: BlockOf(f) == Semilla && f != g ==> SemillaField(q, f) == SemillaField(m, f)
  {
    match g
    case EspecieVariedad => m.(especieVariedad := v.text)
    case TiempoGerminacionDias => m.(tiempoGerminacionDias := v.text)
    case ProfundidadSiembraCM => m.(profundidadSiembraCM := v.num)
    case EpocaSiembraIdeal => m.(epocaSiembraIdeal := v.text)
    case InstruccionesSiembra => m.(instruccionesSiembra := v.text)
  }

  /**
   * `handleDetailsChange(e, kind)`: `{ ...prev, [name]: value }` on the
   * selected block, where the value is a number for `pesoKG` and
   * `profundidadSiembraCM`, a boolean for checkboxes and text otherwise.
   */
  function HandleDetailsChange(s: FormState, kind: DetailKind, e: ChangeEvent): (r: FormState)
    requires WiredEvent(kind, e)
    // the named field takes the event's value, converted by field type
    ensures FieldOf(r, e.field) == NewValue(e)
    ensures IsNumericField(e.field) ==> FieldOf(r, e.field) == Num(ParseNumber(e.value).value)
    ensures IsCheckboxField(e.field) ==> FieldOf(r, e.field) == Flag(e.checked)
    ensures !IsNumericField(e.field) && !IsCheckboxField(e.field) ==> FieldOf(r, e.field) == Text(e.value)
    // no other detail field changes
    ensures forall g :: g != e.field ==> FieldOf(r, g) == FieldOf(s, g)
    // only the selected block changes, and the common fields do not
    ensures kind != Planta ==> r.detallesPlanta == s.detallesPlanta
    ensures kind != Herramienta ==> r.detallesHerramienta == s.detallesHerramienta
    ensures kind != Semilla ==> r.detallesSemilla == s.detallesSemilla
    ensures r.(detallesPlanta := s.detallesPlanta, detallesHerramienta := s.detallesHerramienta,
               detallesSemilla := s.detallesSemilla) == s
  {
    SetField(s, e.field, NewValue(e))
  }

  // -------------------------------------------------------------- payload

  function ProductoJson(s: FormState): Json {
    ProductoJsonWith(s, NumberJson(ParseNumber(s.categoriaId)), NumberJson(ParseNumber(s.tipoProductoId)))
  }

  /** The product object with the two converted ids given. */
  function ProductoJsonWith(s: FormState, categoriaId: Json, tipoProductoId: Json): Json {
    JObject(map[
      "nombreProducto" := JString(s.nombre),
      "descripcionGeneral" := JString(s.descripcion),
      "stockActual" := JNumber(s.stockActual),
      "precioVenta" := JNumber(s.precio),
      "costo" := JNumber(s.costo),
      "categoriaId" := categoriaId,
      "tipoProductoId" := tipoProductoId])
  }

  function PlantaJson(p: DetallesPlanta): Json {
    JObject(map[
      "nombreCientifico" := JString(p.nombreCientifico),
      "nivelLuzDescripcion" := JString(p.nivelLuzDescripcion),
      "frecuenciaRiegoDescripcion" := JString(p.frecuenciaRiegoDescripcion),
      "tipoAmbiente" := JString(p.tipoAmbiente),
      "esVenenosa" := JBool(p.esVenenosa),
      "cuidadosEspeciales" := JString(p.cuidadosEspeciales)])
  }

  function HerramientaJson(h: DetallesHerramienta): Json {
    JObject(map[
      "materialPrincipal" := JString(h.materialPrincipal),
      "dimensiones" := JString(h.dimensiones),
      "pesoKG" := JNumber(h.pesoKG),
      "usoRecomendado" := JString(h.usoRecomendado),
      "requiereMantenimiento" := JBool(h.requiereMantenimiento)])
  }

  function SemillaJson(m: DetallesSemilla): Json {
    JObject(map[
      "especieVariedad" := JString(m.especieVariedad),
      "epocaSiembraIdeal" := JString(m.epocaSiembraIdeal),
      "profundidadSiembraCM" := JNumber(m.profundidadSiembraCM),
      "tiempoGerminacionDias" := JString(m.tiempoGerminacionDias),
      "instruccionesSiembra" := JString(m.instruccionesSiembra)])
  }

  function JsonPart(name: string, j: Json): FormEntry {
    FormEntry(name, BlobValue(JsonBlob(j)))
  }

  predicate IsDetailName(name: string) {
    name == "detallesPlanta" || name == "detallesHerramienta" || name == "detallesSemilla"
  }

  /** The entry for the detail block the discriminator selects, if any. */
  function DetailPart(s: FormState): (d: seq<FormEntry>)
    ensures |d| <= 1 && forall i :: 0 <= i < |d| ==> IsDetailName(d[i].name)
  {
    if s.tipoProductoId == "1" then [JsonPart("detallesPlanta", PlantaJson(s.detallesPlanta))]
    else if s.tipoProductoId == "2" then [JsonPart("detallesHerramienta", HerramientaJson(s.detallesHerramienta))]
    else if s.tipoProductoId == "3" then [JsonPart("detallesSemilla", SemillaJson(s.detallesSemilla))]
    else []
  }

  function ImagePart(s: FormState): (m: seq<FormEntry>)
    ensures |m| <= 1 && forall i :: 0 <= i < |m| ==> m[i].name == "imagen"
  {
    if s.imagenes.Some? && |s.imagenes.value| > 0 then [FormEntry("imagen", FileValue(s.imagenes.value[0]))] else []
  }

  /** Some entry of the payload has this name. */
  predicate HasEntry(fd: seq<FormEntry>, name: string) {
    exists i :: 0 <= i < |fd| && fd[i].name == name
  }

  /** The payload with the given first part, then the optional detail and image. */
  function Assemble(first: FormEntry, s: FormState): (fd: seq<FormEntry>)
    ensures 1 <= |fd| <= 3 && fd[0] == first
    ensures forall i :: 1 <= i < |fd| ==> fd[i].name == "imagen" || IsDetailName(fd[i].name)
  {
    [first] + DetailPart(s) + ImagePart(s)
  }

  /** The parts of the payload in order: the first one, then the optional detail and image. */
  lemma AssembleParts(first: FormEntry, s: FormState)
    ensures var fd := Assemble(first, s);
      && |fd| == 1 + |DetailPart(s)| + |ImagePart(s)|
      && (forall i :: 1 <= i <= |DetailPart(s)| ==> fd[i] == DetailPart(s)[i - 1])
      && (forall i :: 1 + |DetailPart(s)| <= i < |fd| ==> fd[i] == ImagePart(s)[i - 1 - |DetailPart(s)|])
  {
  }

  /**
   * `handleSubmit`: the `producto` part first, then at most one detail part
   * chosen by the discriminator, then at most one image.
   */
  function Submit(s: FormState): (fd: seq<FormEntry>)
    ensures 1 <= |fd| <= 3
    // the product part is always present and first
    ensures fd[0].name == "producto" && fd[0].value.BlobValue? && fd[0].value.blob.JsonBlob?
    // every part is the product, a detail block or the image
    ensures forall i :: 0 <= i < |fd| ==> fd[i].name == "producto" || fd[i].name == "imagen" || IsDetailName(fd[i].name)
  {
    Assemble(JsonPart("producto", ProductoJson(s)), s)
  }

  /** The product part carries the form's fields, the ids converted with `Number`. */
  lemma ProductoPartFields(s: FormState)
    ensures var p := Submit(s)[0].value.blob.json;
      && Field(p, "nombreProducto") == Some(JString(s.nombre))
      && Field(p, "descripcionGeneral") == Some(JString(s.descripcion))
      && Field(p, "stockActual") == Some(JNumber(s.stockActual))
      && Field(p, "precioVenta") == Some(JNumber(s.precio))
      && Field(p, "costo") == Some(JNumber(s.costo))
      && Field(p, "categoriaId") == Some(NumberJson(ParseNumber(s.categoriaId)))
      && Field(p, "tipoProductoId") == Some(NumberJson(ParseNumber(s.tipoProductoId)))
  {
    ProductoJsonFields(s);
  }

  lemma ProductoJsonFields(s: FormState)
    ensures var p := ProductoJson(s);
      && Field(p, "nombreProducto") == Some(JString(s.nombre))
      && Field(p, "descripcionGeneral") == Some(JString(s.descripcion))
      && Field(p, "stockActual") == Some(JNumber(s.stockActual))
      && Field(p, "precioVenta") == Some(JNumber(s.precio))
      && Field(p, "costo") == Some(JNumber(s.costo))
      && Field(p, "categoriaId") == Some(NumberJson(ParseNumber(s.categoriaId)))
      && Field(p, "tipoProductoId") == Some(NumberJson(ParseNumber(s.tipoProductoId)))
  {
    var c, t := NumberJson(ParseNumber(s.categoriaId)), NumberJson(ParseNumber(s.tipoProductoId));
    ProductoJsonTextFields(s, c, t);
    ProductoJsonAmounts(s, c, t);
    ProductoJsonIds(s, c, t);
  }

  lemma ProductoJsonTextFields(s: FormState, c: Json, t: Json)
    ensures Field(ProductoJsonWith(s, c, t), "nombreProducto") == Some(JString(s.nombre))
    ensures Field(ProductoJsonWith(s, c, t), "descripcionGeneral") == Some(JString(s.descripcion))
  {
    ProductoKeysDiffer();
  }

  lemma ProductoJsonAmounts(s: FormState, c: Json, t: Json)
    ensures Field(ProductoJsonWith(s, c, t), "stockActual") == Some(JNumber(s.stockActual))
    ensures Field(ProductoJsonWith(s, c, t), "precioVenta") == Some(JNumber(s.precio))
    ensures Field(ProductoJsonWith(s, c, t), "costo") == Some(JNumber(s.costo))
  {
    ProductoKeysDiffer();
  }

  lemma ProductoJsonIds(s: FormState, c: Json, t: Json)
    ensures Field(ProductoJsonWith(s, c, t), "categoriaId") == Some(c)
    ensures Field(ProductoJsonWith(s, c, t), "tipoProductoId") == Some(t)
  {
    ProductoKeysDiffer();
  }

  /** The keys of the product part that have equal lengths differ in their first letter. */
  lemma ProductoKeysDiffer()
    ensures "nombreProducto" != "tipoProductoId"
    ensures "stockActual" != "precioVenta" && "stockActual" != "categoriaId" && "precioVenta" != "categoriaId"
  {
    assert "nombreProducto"[0] != "tipoProductoId"[0];
    assert "stockActual"[0] != "precioVenta"[0] && "stockActual"[0] != "categoriaId"[0];
    assert "precioVenta"[0] != "categoriaId"[0];
  }

  /** The discriminator selects exactly one detail block, or none when it is not "1", "2" or "3". */
  lemma SubmitSelectsDetail(s: FormState)
    ensures var fd := Submit(s);
      && (forall i, j :: 0 <= i < j < |fd| && IsDetailName(fd[i].name) ==> !IsDetailName(fd[j].name))
      && (HasEntry(fd, "detallesPlanta") <==> s.tipoProductoId == "1")
      && (HasEntry(fd, "detallesHerramienta") <==> s.tipoProductoId == "2")
      && (HasEntry(fd, "detallesSemilla") <==> s.tipoProductoId == "3")
      && (s.tipoProductoId == "1" ==> fd[1] == JsonPart("detallesPlanta", PlantaJson(s.detallesPlanta)))
      && (s.tipoProductoId == "2" ==> fd[1] == JsonPart("detallesHerramienta", HerramientaJson(s.detallesHerramienta)))
      && (s.tipoProductoId == "3" ==> fd[1] == JsonPart("detallesSemilla", SemillaJson(s.detallesSemilla)))
  {
    AssembleSelectsDetail(JsonPart("producto", ProductoJson(s)), s);
  }

  lemma AssembleSelectsDetail(first: FormEntry, s: FormState)
    requires first.name == "producto"
    ensures var fd := Assemble(first, s);
      && (forall i, j :: 0 <= i < j < |fd| && IsDetailName(fd[i].name) ==> !IsDetailName(fd[j].name))
      && (HasEntry(fd, "detallesPlanta") <==> s.tipoProductoId == "1")
      && (HasEntry(fd, "detallesHerramienta") <==> s.tipoProductoId == "2")
      && (HasEntry(fd, "detallesSemilla") <==> s.tipoProductoId == "3")
      && (s.tipoProductoId == "1" ==> fd[1] == JsonPart("detallesPlanta", PlantaJson(s.detallesPlanta)))
      && (s.tipoProductoId == "2" ==> fd[1] == JsonPart("detallesHerramienta", HerramientaJson(s.detallesHerramienta)))
      && (s.tipoProductoId == "3" ==> fd[1] == JsonPart("detallesSemilla", SemillaJson(s.detallesSemilla)))
  {
    AssembleParts(first, s);
    var fd := Assemble(first, s);
    assert forall i :: 0 <= i < |fd| && IsDetailName(fd[i].name) ==> i == 1 && |DetailPart(s)| == 1;
    if s.tipoProductoId == "1" { assert fd[1].name == "detallesPlanta"; }
    if s.tipoProductoId == "2" { assert fd[1].name == "detallesHerramienta"; }
    if s.tipoProductoId == "3" { assert fd[1].name == "detallesSemilla"; }
  }

  /** An image part is sent exactly when a file was chosen, and it is the first one. */
  lemma SubmitSendsFirstImage(s: FormState)
    ensures var fd := Submit(s);
      && (HasEntry(fd, "imagen") <==> s.imagenes.Some? && |s.imagenes.value| > 0)
      && (HasEntry(fd, "imagen") ==> fd[|fd| - 1] == FormEntry("imagen", FileValue(s.imagenes.value[0])))
  {
    AssembleSendsFirstImage(JsonPart("producto", ProductoJson(s)), s);
  }

  lemma AssembleSendsFirstImage(first: FormEntry, s: FormState)
    requires first.name == "producto"
    ensures var fd := Assemble(first, s);
      && (HasEntry(fd, "imagen") <==> s.imagenes.Some? && |s.imagenes.value| > 0)
      && (HasEntry(fd, "imagen") ==> fd[|fd| - 1] == FormEntry("imagen", FileValue(s.imagenes.value[0])))
  {
    AssembleParts(first, s);
    var fd := Assemble(first, s);
    assert forall i :: 0 <= i < |fd| && fd[i].name == "imagen" ==> i == |fd| - 1 && |ImagePart(s)| == 1;
    if s.imagenes.Some? && |s.imagenes.value| > 0 {
      assert fd[|fd| - 1].name == "imagen";
    }
  }

  /** The submit button's label. */
  function SubmitLabel(isSubmitting: bool, isEditing: bool): (caption: string)
    ensures isSubmitting <==> caption == "Guardando..."
    ensures !isSubmitting ==> (isEditing <==> caption == "Guardar Cambios")
    ensures !isSubmitting && !isEditing ==> caption == "Crear Producto"
  {
    if isSubmitting then "Guardando..." else if isEditing then "Guardar Cambios" else "Crear Producto"
  }

  /**
   * Editing a stored product and submitting it unchanged sends its category and
   * type ids back, and the detail block of its type as stored (or empty).
   */
  lemma PopulateThenSubmit(s: FormState, d: ProductoDetalle)
    ensures var fd := Submit(Populate(s, Some(d)));
      && Field(fd[0].value.blob.json, "categoriaId") == Some(JNumber(d.categoria.categoriaId as real))
      && Field(fd[0].value.blob.json, "tipoProductoId") == Some(JNumber(d.tipoProducto.tipoProductoId as real))
      && (d.tipoProducto.tipoProductoId == 1 ==>
            fd[1] == JsonPart("detallesPlanta", PlantaJson(d.detallesPlanta.GetOr(EmptyPlanta))))
      && (d.tipoProducto.tipoProductoId == 2 ==>
            fd[1] == JsonPart("detallesHerramienta", HerramientaJson(d.detallesHerramienta.GetOr(EmptyHerramienta))))
      && (d.tipoProducto.tipoProductoId == 3 ==>
            fd[1] == JsonPart("detallesSemilla", SemillaJson(d.detallesSemilla.GetOr(EmptySemilla))))
      && (d.tipoProducto.tipoProductoId !in {1, 2, 3} ==> forall i :: 0 <= i < |fd| ==> !IsDetailName(fd[i].name))
  {
    IdTextOfSmallIds(d.tipoProducto.tipoProductoId);
    var f := Populate(s, Some(d));
    ProductoPartFields(f);
    SubmitSelectsDetail(f);
    var fd := Submit(f);
    if d.tipoProducto.tipoProductoId !in {1, 2, 3} {
      assert !HasEntry(fd, "detallesPlanta") && !HasEntry(fd, "detallesHerramienta") && !HasEntry(fd, "detallesSemilla");
    }
  }
}

=== FILE: products_page.dfy ===
/**
 * The catalogue page (`app/products/page.tsx`): loading the product list
 * from its envelope, filtering by a search term on the product name, and
 * sorting by price or by name.
 */
module ProductsPage {
  import opened Options
  import opened JsText
  import opened Types
  import Api

  // ------------------------------------------------------------ name order

  /**
   * Ordinal lexicographic order on strings, the model of `localeCompare(..) <= 0`:
   * compare character codes, and a proper prefix comes first.
   */
  predicate NameLe(a: string, b: string)
    decreases |a|
  {
    |a| == 0 || (|b| > 0 && (a[0] < b[0] || (a[0] == b[0] && NameLe(a[1..], b[1..]))))
  }

  lemma {:induction false} NameLeTotal(a: string, b: string)
    ensures NameLe(a, b) || NameLe(b, a)
    decreases |a|
  {
    if |a| > 0 && |b| > 0 && a[0] == b[0] {
      NameLeTotal(a[1..], b[1..]);
    }
  }

  lemma {:induction false} NameLeTransitive(a: string, b: string, c: string)
    requires NameLe(a, b) && NameLe(b, c)
    ensures NameLe(a, c)
    decreases |a|
  {
    if |a| > 0 && a[0] == b[0] && b[0] == c[0] {
      NameLeTransitive(a[1..], b[1..], c[1..]);
    }
  }

  // ------------------------------------------------------------ sort order

  const PriceAsc: string := "price-asc"
  const PriceDesc: string := "price-desc"
  const NameAsc: string := "name-asc"

  /**
   * `a` may precede `b` under the page's comparator (it returns a value <= 0):
   * "price-asc" and "price-desc" compare `precioVentaActual`, every other
   * sort key (including "name-asc") compares names.
   */
  predicate Before(order: string, a: ProductoListado, b: ProductoListado) {
    if order == PriceAsc then a.precioVentaActual <= b.precioVentaActual
    else if order == PriceDesc then b.precioVentaActual <= a.precioVentaActual
    else NameLe(a.nombreProducto, b.nombreProducto)
  }

  /** Any two products are ordered one way or the other. */
  lemma BeforeTotal(order: string, a: ProductoListado, b: ProductoListado)
    ensures Before(order, a, b) || Before(order, b, a)
  {
    NameLeTotal(a.nombreProducto, b.nombreProducto);
  }

  lemma BeforeTransitive(order: string, a: ProductoListado, b: ProductoListado, c: ProductoListado)
    requires Before(order, a, b) && Before(order, b, c)
    ensures Before(order, a, c)
  {
    if order != PriceAsc && order != PriceDesc {
      NameLeTransitive(a.nombreProducto, b.nombreProducto, c.nombreProducto);
    }
  }

  ghost predicate Sorted(order: string, s: seq<ProductoListado>) {
    forall i, j :: 0 <= i < j < |s| ==> Before(order, s[i], s[j])
  }

  /** Putting a lower bound in front of a sorted list keeps it sorted. */
  lemma SortedCons(order: string, y: ProductoListado, t: seq<ProductoListado>)
    requires Sorted(order, t)
    requires forall k :: 0 <= k < |t| ==> Before(order, y, t[k])
    ensures Sorted(order, [y] + t)
  {
    var r := [y] + t;
    forall i, j | 0 <= i < j < |r|
      ensures Before(order, r[i], r[j])
    {
      if i > 0 {
        assert r[i] == t[i - 1] && r[j] == t[j - 1];
      }
    }
  }

  /** An element that may precede the head of a sorted list may precede all of it. */
  lemma BoundsSorted(order: string, x: ProductoListado, s: seq<ProductoListado>)
    requires Sorted(order, s) && |s| > 0 && Before(order, x, s[0])
    ensures forall k :: 0 <= k < |s| ==> Before(order, x, s[k])
  {
    forall k | 0 < k < |s|
      ensures Before(order, x, s[k])
    {
      BeforeTransitive(order, x, s[0], s[k]);
    }
  }

  /** The head of a sorted list bounds every element of its tail with `x` inserted. */
  lemma HeadBoundsInsertion(order: string, x: ProductoListado, s: seq<ProductoListado>, t: seq<ProductoListado>)
    requires Sorted(order, s) && |s| > 0 && Before(order, s[0], x)
    requires multiset(t) == multiset(s[1..]) + multiset{x}
    ensures forall k :: 0 <= k < |t| ==> Before(order, s[0], t[k])
  {
    forall k | 0 <= k < |t|
      ensures Before(order, s[0], t[k])
    {
      assert t[k] in multiset(t);
      if t[k] != x {
        assert t[k] in multiset(s[1..]);
        var m :| 0 <= m < |s[1..]| && s[1..][m] == t[k];
        assert s[m + 1] == t[k];
      }
    }
  }

  /**
   * Insert `x` in front of the first element it may precede. `SortBy` inserts
   * each element into the sorted rest of the list, so an element is placed
   * ahead of the later elements it ties with: the sort is stable.
   */
  function Insert(order: string, x: ProductoListado, s: seq<ProductoListado>): (r: seq<ProductoListado>)
    requires Sorted(order, s)
    ensures multiset(r) == multiset(s) + multiset{x}
    ensures Sorted(order, r)
  {
    if |s| == 0 then [x]
    else if Before(order, x, s[0]) then
      BoundsSorted(order, x, s);
      SortedCons(order, x, s);
      [x] + s
    else
      BeforeTotal(order, x, s[0]);
      var t := Insert(order, x, s[1..]);
      assert s == [s[0]] + s[1..];
      HeadBoundsInsertion(order, x, s, t);
      SortedCons(order, s[0], t);
      [s[0]] + t
  }

  /** `Array.prototype.sort` with the page's comparator: a stable insertion sort. */
  function SortBy(order: string, s: seq<ProductoListado>): (r: seq<ProductoListado>)
    ensures multiset(r) == multiset(s)
    ensures Sorted(order, r)
  {
    if |s| == 0 then []
    else
      assert s == [s[0]] + s[1..];
      Insert(order, s[0], SortBy(order, s[1..]))
  }

  // ---------------------------------------------------------------- filter

  /** A product matches a search term when its lower-cased name contains the lower-cased term. */
  predicate Matches(p: ProductoListado, term: string) {
    Contains(ToLower(p.nombreProducto), ToLower(term))
  }

  /** `products.filter(p => Matches(p, term))`. */
  function FilterByName(products: seq<ProductoListado>, term: string): (r: seq<ProductoListado>)
    ensures forall p :: multiset(r)[p] == if Matches(p, term) then multiset(products)[p] else 0
  {
    if |products| == 0 then []
    else
      assert products == [products[0]] + products[1..];
      (if Matches(products[0], term) then [products[0]] else []) + FilterByName(products[1..], term)
  }

  /** The filter keeps a sub-multiset of the input, and exactly the matching products. */
  lemma FilterByNameKeepsMatches(products: seq<ProductoListado>, term: string)
    ensures multiset(FilterByName(products, term)) <= multiset(products)
    ensures forall p :: p in FilterByName(products, term) <==> p in products && Matches(p, term)
  {
    var r := FilterByName(products, term);
    forall p | p in r
      ensures p in products && Matches(p, term)
    {
      assert multiset(r)[p] > 0;
    }
    forall p | p in products && Matches(p, term)
      ensures p in r
    {
      assert multiset(products)[p] > 0;
    }
  }

  lemma SubMultisetIsShorter(a: seq<ProductoListado>, b: seq<ProductoListado>)
    requires multiset(a) <= multiset(b)
    ensures |a| <= |b|
  {
    var extra := multiset(b) - multiset(a);
    assert multiset(b) == multiset(a) + extra;
    assert |multiset(b)| == |multiset(a)| + |extra|;
  }

  /** Sorted by price ascending, descending, or by name, according to the sort key. */
  ghost predicate OrderedAsSelected(order: string, r: seq<ProductoListado>) {
    && (order == PriceAsc ==> forall i, j :: 0 <= i < j < |r| ==> r[i].precioVentaActual <= r[j].precioVentaActual)
    && (order == PriceDesc ==> forall i, j :: 0 <= i < j < |r| ==> r[i].precioVentaActual >= r[j].precioVentaActual)
    && (order != PriceAsc && order != PriceDesc ==>
          forall i, j :: 0 <= i < j < |r| ==> NameLe(r[i].nombreProducto, r[j].nombreProducto))
  }

  lemma SortedIsOrderedAsSelected(order: string, r: seq<ProductoListado>)
    requires Sorted(order, r)
    ensures OrderedAsSelected(order, r)
  {
  }

  /**
   * `filteredAndSortedProducts`: a copy of the list, filtered by the search
   * term when it is non-empty, then sorted by the selected order.
   */
  function FilterAndSort(products: seq<ProductoListado>, term: string, order: string): (r: seq<ProductoListado>)
    // only products of the input, never more copies than it has
    ensures multiset(r) <= multiset(products) && |r| <= |products|
    // an empty term keeps every product
    ensures term == "" ==> multiset(r) == multiset(products)
    // a non-empty term keeps exactly the matching products, with their multiplicity
    ensures term != "" ==> forall p :: multiset(r)[p] == if Matches(p, term) then multiset(products)[p] else 0
    ensures term != "" ==> forall p :: p in r <==> p in products && Matches(p, term)
    // the result is ordered by the selected comparator
    ensures OrderedAsSelected(order, r)
  {
    var kept := if term != "" then FilterByName(products, term) else products;
    FilterByNameKeepsMatches(products, term);
    var r := SortBy(order, kept);
    SortedIsOrderedAsSelected(order, r);
    SubMultisetIsShorter(r, products);
    r
  }

  // ------------------------------------------------------------ page state

  datatype State = State(
    products: seq<ProductoListado>,
    loading: bool,
    error: Option<string>,
    searchTerm: string,
    sortOrder: string)

  const InitialState: State := State([], true, None, "", NameAsc)

  const NoDataMessage: string := "No se recibieron datos de productos o el formato fue inesperado."

  /**
   * `fetchProducts` once the envelope has arrived: a page whose `content` is
   * an array replaces the list and clears the error; anything else empties
   * the list and reports the envelope's error or a default message.
   */
  function FetchProducts(s: State, response: ApiResponse<Page<ProductoListado>>): (r: State)
    ensures !r.loading && r.searchTerm == s.searchTerm && r.sortOrder == s.sortOrder
    ensures response.data.Some? && response.data.value.content.Some? ==>
      r.products == response.data.value.content.value && r.error.None?
    ensures !(response.data.Some? && response.data.value.content.Some?) ==>
      r.products == [] && r.error.Some? && |r.error.value| > 0
      && (response.error.Some? && response.error.value != "" ==> r.error == response.error)
      && (response.error.None? || response.error.value == "" ==> r.error == Some(NoDataMessage))
  {
    if response.data.Some? && response.data.value.content.Some? then
      s.(products := response.data.value.content.value, error := None, loading := false)
    else
      s.(products := [], error := Some(OptionOrElse(response.error, NoDataMessage)), loading := false)
  }

  /** What the page shows. */
  datatype View = LoadingView | ErrorView(message: string) | ProductGrid(cards: seq<ProductoListado>) | NoMatchesView

  /** The page's render: the loading text, then a truthy error, then the grid or the no-match message. */
  function Render(s: State): (v: View)
    ensures s.loading ==> v == LoadingView
    ensures !s.loading && s.error.Some? && s.error.value != "" ==> v == ErrorView(s.error.value)
    // an error view shows the state's own truthy error, and only once loading is over
    ensures v.ErrorView? ==> !s.loading && s.error == Some(v.message) && v.message != ""
    // with no error to show, the grid appears exactly when the filtered, sorted list is non-empty, and shows that list
    ensures !s.loading && (s.error.None? || s.error.value == "") ==>
      (v.ProductGrid? <==> |FilterAndSort(s.products, s.searchTerm, s.sortOrder)| > 0)
      && (v.ProductGrid? ==> v.cards == FilterAndSort(s.products, s.searchTerm, s.sortOrder))
      && (!v.ProductGrid? ==> v == NoMatchesView)
    ensures v.ProductGrid? ==> |v.cards| > 0 && multiset(v.cards) <= multiset(s.products)
    ensures v == NoMatchesView ==> !s.loading && (s.searchTerm != "" || |s.products| == 0)
  {
    if s.loading then LoadingView
    else if s.error.Some? && s.error.value != "" then ErrorView(s.error.value)
    else
      var shown := FilterAndSort(s.products, s.searchTerm, s.sortOrder);
      if |shown| > 0 then ProductGrid(shown) else NoMatchesView
  }

  /**
   * What the page shows once `fetchProducts` has settled. With a page of
   * content, the grid lists exactly the fetched products that match the
   * search term, in the selected order, and the no-match message appears
   * exactly when none matches; without one, the error view shows the
   * envelope's error or the default message.
   */
  lemma {:induction false} RenderAfterFetch(s: State, response: ApiResponse<Page<ProductoListado>>)
    ensures var v := Render(FetchProducts(s, response));
      && (response.data.Some? && response.data.value.content.Some? ==>
            var content := response.data.value.content.value;
            && (v.ProductGrid? || v == NoMatchesView)
            && (v.ProductGrid? ==>
                  OrderedAsSelected(s.sortOrder, v.cards)
                  && forall p :: p in v.cards <==> p in content && Matches(p, s.searchTerm))
            && (v == NoMatchesView <==> forall p :: p in content ==> !Matches(p, s.searchTerm)))
      && (!(response.data.Some? && response.data.value.content.Some?) ==>
            v == ErrorView(OptionOrElse(response.error, NoDataMessage)))
  {
    var after := FetchProducts(s, response);
    if response.data.Some? && response.data.value.content.Some? {
      var content := response.data.value.content.value;
      var shown := FilterAndSort(content, s.searchTerm, s.sortOrder);
      if s.searchTerm == "" {
        forall p | p in content
          ensures p in shown && Matches(p, s.searchTerm)
        {
          assert multiset(content)[p] > 0;
          assert OccursAt(ToLower(p.nombreProducto), ToLower(s.searchTerm), 0);
          ContainsIffOccurs(ToLower(p.nombreProducto), ToLower(s.searchTerm));
        }
        forall p | p in shown
          ensures p in content
        {
          assert multiset(shown)[p] > 0;
        }
      }
      if |shown| == 0 {
        forall p | p in content
          ensures !Matches(p, s.searchTerm)
        {
          assert p !in shown;
        }
      } else {
        assert shown[0] in content && Matches(shown[0], s.searchTerm);
      }
    }
  }
}

=== FILE: register_page.dfy ===
/**
 * The client registration page (`app/register/page.tsx`): editing the
 * eleven-field form, validating that the passwords match, stripping the
 * confirmation field from the payload, the redirect once signed in, and the
 * submit button. The page reads `register` and `loading` from `useAuth()`,
 * whose value defines neither; the handlers take the set of names the
 * context defines, and the result of a `register` call is an input.
 */
module RegisterPage {
  import opened Options
  import opened JsText
  import opened Types
  import AuthContext

  datatype RegisterForm = RegisterForm(
    nombre: string,
    apellido: string,
    email: string,
    contrasena: string,
    confirmContrasena: string,
    telefono: string,
    calle: string,
    numero: string,
    codigoPostal: string,
    ciudad: string,
    provincia: string)

  const InitialForm: RegisterForm := RegisterForm("", "", "", "", "", "", "", "", "", "", "")

  const PasswordMismatchMessage: string := "Las contraseñas no coinciden."
  const RegisterFailedMessage: string := "Error al registrar el usuario."

  /** The form's fields; each has an input whose `name` is `InputName` of it. */
  datatype FormField =
    | Nombre | Apellido | Email | Contrasena | ConfirmContrasena | Telefono
    | Calle | Numero | CodigoPostal | Ciudad | Provincia

  /** The `name` attribute of the field's input, which is also its key in the form state. */
  function InputName(k: FormField): string {
    match k
    case Nombre => "nombre"
    case Apellido => "apellido"
    case Email => "email"
    case Contrasena => "contrasena"
    case ConfirmContrasena => "confirmContrasena"
    case Telefono => "telefono"
    case Calle => "calle"
    case Numero => "numero"
    case CodigoPostal => "codigoPostal"
    case Ciudad => "ciudad"
    case Provincia => "provincia"
  }

  /** Distinct inputs have distinct names, so `[name]` picks exactly one field. */
  lemma InputNamesAreDistinct(k1: FormField, k2: FormField)
    ensures InputName(k1) == InputName(k2) ==> k1 == k2
  {
  }

  function FieldOf(f: RegisterForm, k: FormField): string {
    match k
    case Nombre => f.nombre
    case Apellido => f.apellido
    case Email => f.email
    case Contrasena => f.contrasena
    case ConfirmContrasena => f.confirmContrasena
    case Telefono => f.telefono
    case Calle => f.calle
    case Numero => f.numero
    case CodigoPostal => f.codigoPostal
    case Ciudad => f.ciudad
    case Provincia => f.provincia
  }

  /** Forms that agree on every field are equal. */
  lemma FieldsDetermineForm(f1: RegisterForm, f2: RegisterForm)
    requires forall k :: FieldOf(f1, k) == FieldOf(f2, k)
    ensures f1 == f2
  {
    assert FieldOf(f1, Nombre) == FieldOf(f2, Nombre);
    assert FieldOf(f1, Apellido) == FieldOf(f2, Apellido);
    assert FieldOf(f1, Email) == FieldOf(f2, Email);
    assert FieldOf(f1, Contrasena) == FieldOf(f2, Contrasena);
    assert FieldOf(f1, ConfirmContrasena) == FieldOf(f2, ConfirmContrasena);
    assert FieldOf(f1, Telefono) == FieldOf(f2, Telefono);
    assert FieldOf(f1, Calle) == FieldOf(f2, Calle);
    assert FieldOf(f1, Numero) == FieldOf(f2, Numero);
    assert FieldOf(f1, CodigoPostal) == FieldOf(f2, CodigoPostal);
    assert FieldOf(f1, Ciudad) == FieldOf(f2, Ciudad);
    assert FieldOf(f1, Provincia) == FieldOf(f2, Provincia);
  }

  /** `handleChange` for the input of field `k`: `{ ...prev, [name]: value }`. */
  function HandleChange(f: RegisterForm, k: FormField, value: string): (r: RegisterForm)
    ensures FieldOf(r, k) == value
    ensures forall j :: j != k ==> FieldOf(r, j) == FieldOf(f, j)
  {
    match k
    case Nombre => f.(nombre := value)
    case Apellido => f.(apellido := value)
    case Email => f.(email := value)
    case Contrasena => f.(contrasena := value)
    case ConfirmContrasena => f.(confirmContrasena := value)
    case Telefono => f.(telefono := value)
    case Calle => f.(calle := value)
    case Numero => f.(numero := value)
    case CodigoPostal => f.(codigoPostal := value)
    case Ciudad => f.(ciudad := value)
    case Provincia => f.(provincia := value)
  }

  /** The payload's fields; the confirmation is not one of them. */
  function PayloadField(p: ClienteRegistro, k: FormField): Option<string> {
    match k
    case Nombre => Some(p.nombre)
    case Apellido => Some(p.apellido)
    case Email => Some(p.email)
    case Contrasena => Some(p.contrasena)
    case ConfirmContrasena => None
    case Telefono => Some(p.telefono)
    case Calle => Some(p.calle)
    case Numero => Some(p.numero)
    case CodigoPostal => Some(p.codigoPostal)
    case Ciudad => Some(p.ciudad)
    case Provincia => Some(p.provincia)
  }

  /** `const { confirmContrasena, ...dataToRegister } = formData`. */
  function StripConfirmation(f: RegisterForm): (p: ClienteRegistro)
    ensures forall k :: k != ConfirmContrasena ==> PayloadField(p, k) == Some(FieldOf(f, k))
    ensures PayloadField(p, ConfirmContrasena).None?
  {
    ClienteRegistro(f.nombre, f.apellido, f.email, f.contrasena, f.telefono,
                    f.calle, f.numero, f.codigoPostal, f.ciudad, f.provincia)
  }

  /** The form a payload and a confirmation came from. */
  function WithConfirmation(p: ClienteRegistro, confirm: string): RegisterForm {
    RegisterForm(p.nombre, p.apellido, p.email, p.contrasena, confirm,
                 p.telefono, p.calle, p.numero, p.codigoPostal, p.ciudad, p.provincia)
  }

  /** Stripping loses only the confirmation: putting it back restores the form, and vice versa. */
  lemma StripConfirmationRoundTrip(f: RegisterForm, p: ClienteRegistro, confirm: string)
    ensures WithConfirmation(StripConfirmation(f), f.confirmContrasena) == f
    ensures StripConfirmation(WithConfirmation(p, confirm)) == p
  {
  }

  /** What the `register` call resolved to. */
  datatype RegisterResult = RegisterResult(success: bool, error: Option<string>)

  /**
   * The outcome of one submit: the page's error, the payload sent (if any),
   * and the reason the handler's promise rejected (if it did).
   */
  datatype SubmitOutcome = SubmitOutcome(error: Option<string>, sent: Option<ClienteRegistro>, rejection: Option<string>)

  /** The member the page calls to register. */
  const RegisterMember: string := "register"

  /**
   * `handleSubmit` against a context value that defines the names in
   * `provided`. The error is cleared first. Mismatched passwords set the
   * mismatch message and send nothing. Otherwise `register` is called with
   * the form minus its confirmation: when the context does not define it the
   * call throws a `TypeError`, so nothing is sent, the error stays cleared and
   * the handler rejects; when it does, a failed result shows its own error or
   * the default message.
   */
  function HandleSubmit(provided: set<string>, f: RegisterForm, result: RegisterResult): (r: SubmitOutcome)
    ensures f.contrasena != f.confirmContrasena ==> r == SubmitOutcome(Some(PasswordMismatchMessage), None, None)
    ensures f.contrasena == f.confirmContrasena && RegisterMember !in provided ==>
      r == SubmitOutcome(None, None, Some(NotAFunction(RegisterMember)))
    ensures r.sent.Some? <==> f.contrasena == f.confirmContrasena && RegisterMember in provided
    ensures r.sent.Some? ==> WithConfirmation(r.sent.value, f.confirmContrasena) == f && r.rejection.None?
    ensures r.sent.Some? && result.success ==> r.error.None?
    ensures r.sent.Some? && !result.success ==> r.error.Some? && |r.error.value| > 0
    ensures r.sent.Some? && !result.success && result.error.Some? && result.error.value != "" ==>
      r.error == result.error
    ensures r.sent.Some? && !result.success && (result.error.None? || result.error.value == "") ==>
      r.error == Some(RegisterFailedMessage)
  {
    if f.contrasena != f.confirmContrasena then
      SubmitOutcome(Some(PasswordMismatchMessage), None, None)
    else if RegisterMember !in provided then
      SubmitOutcome(None, None, Some(NotAFunction(RegisterMember)))
    else
      var sent := StripConfirmation(f);
      StripConfirmationRoundTrip(f, sent, f.confirmContrasena);
      SubmitOutcome(if result.success then None else Some(OptionOrElse(result.error, RegisterFailedMessage)), Some(sent), None)
  }

  /**
   * `handleSubmit` as written: `useAuth()` defines no `register`, so with
   * matching passwords the call throws and nothing is ever sent.
   */
  function SubmitAsWritten(f: RegisterForm, result: RegisterResult): (r: SubmitOutcome)
    ensures r.sent.None?
    ensures f.contrasena != f.confirmContrasena ==> r.error == Some(PasswordMismatchMessage) && r.rejection.None?
    ensures f.contrasena == f.confirmContrasena ==> r.error.None? && r.rejection == Some(NotAFunction(RegisterMember))
  {
    assert RegisterMember !in AuthContext.ContextMembers;
    HandleSubmit(AuthContext.ContextMembers, f, result)
  }

  /**
   * The evidently intended submit: against a context value that also defines
   * `register`, matching passwords send the form minus its confirmation, and
   * a failure shows the result's error or the default message.
   */
  function Submit(f: RegisterForm, result: RegisterResult): (r: SubmitOutcome)
    ensures r.rejection.None?
    ensures r.sent.None? <==> f.contrasena != f.confirmContrasena
    ensures r.sent.None? ==> r.error == Some(PasswordMismatchMessage)
    ensures r.sent.Some? ==> WithConfirmation(r.sent.value, f.confirmContrasena) == f
    ensures r.sent.Some? && result.success ==> r.error.None?
    ensures r.sent.Some? && !result.success ==> r.error.Some? && |r.error.value| > 0
    ensures r.sent.Some? && !result.success && result.error.Some? && result.error.value != "" ==>
      r.error == result.error
    ensures r.sent.Some? && !result.success && (result.error.None? || result.error.value == "") ==>
      r.error == Some(RegisterFailedMessage)
  {
    HandleSubmit(AuthContext.ContextMembers + {RegisterMember}, f, result)
  }

  /**
   * With matching passwords the page as written shows no error and sends
   * nothing, whatever `register` would have answered, where the intended one
   * sends the form minus its confirmation.
   */
  lemma SubmitAsWrittenNeverRegisters(f: RegisterForm, result: RegisterResult)
    requires f.contrasena == f.confirmContrasena
    ensures SubmitAsWritten(f, result).sent.None? && SubmitAsWritten(f, result).error.None?
    ensures Submit(f, result).sent == Some(StripConfirmation(f))
  {
    var p := Submit(f, result).sent.value;
    StripConfirmationRoundTrip(f, p, f.confirmContrasena);
    assert StripConfirmation(WithConfirmation(p, f.confirmContrasena)) == p;
  }

  /** A boolean member read from the context value: `undefined` (`None`) when the value does not define it. */
  function ReadFlag(provided: set<string>, member: string, value: bool): (v: Option<bool>)
    ensures v.Some? <==> member in provided
    ensures v.Some? ==> v.value == value
  {
    if member in provided then Some(value) else None
  }

  /** JavaScript truthiness of a boolean that may be `undefined`. */
  predicate IsTrue(v: Option<bool>) {
    v.Some? && v.value
  }

  /** The member the page reads its loading flag from, and the one the context defines. */
  const LoadingMember: string := "loading"
  const IsLoadingMember: string := "isLoading"

  /** The effect's condition `isAuthenticated && !loading`. */
  function Redirect(isAuthenticated: bool, loading: Option<bool>): bool {
    isAuthenticated && !IsTrue(loading)
  }

  /**
   * The redirect as written: `loading` reads as `undefined`, so it fires as
   * soon as the user is signed in, even while the context is still loading.
   */
  function RedirectAsWritten(isAuthenticated: bool, isLoading: bool): (go: bool)
    ensures go <==> isAuthenticated
  {
    assert LoadingMember !in AuthContext.ContextMembers;
    Redirect(isAuthenticated, ReadFlag(AuthContext.ContextMembers, LoadingMember, isLoading))
  }

  /** The evidently intended redirect, reading the context's `isLoading`: once signed in and done loading. */
  function ShouldRedirect(isAuthenticated: bool, isLoading: bool): (go: bool)
    ensures go ==> isAuthenticated
    ensures isLoading ==> !go
    ensures isAuthenticated && !isLoading ==> go
  {
    assert IsLoadingMember in AuthContext.ContextMembers;
    Redirect(isAuthenticated, ReadFlag(AuthContext.ContextMembers, IsLoadingMember, isLoading))
  }

  /** Signed in while the context is still loading: the page as written redirects, the intended one waits. */
  lemma RedirectAsWrittenIgnoresLoading()
    ensures RedirectAsWritten(true, true) && !ShouldRedirect(true, true)
  {
  }

  const SubmitCaption: string := "Registrarse"
  const SubmittingCaption: string := "Registrando..."

  /** The submit button: `disabled={loading}`, and its caption. */
  datatype Button = Button(disabled: bool, caption: string)

  function SubmitButton(loading: Option<bool>): Button {
    if IsTrue(loading) then Button(true, SubmittingCaption) else Button(false, SubmitCaption)
  }

  /** The button as written is never disabled and always reads "Registrarse". */
  function ButtonAsWritten(isLoading: bool): (b: Button)
    ensures b == Button(false, SubmitCaption)
  {
    SubmitButton(ReadFlag(AuthContext.ContextMembers, LoadingMember, isLoading))
  }

  /** The intended button is disabled, reading "Registrando...", exactly while the context is loading. */
  function ButtonCorrected(isLoading: bool): (b: Button)
    ensures b.disabled <==> isLoading
    ensures b.caption == SubmittingCaption <==> isLoading
    ensures !isLoading ==> b.caption == SubmitCaption
  {
    SubmitButton(ReadFlag(AuthContext.ContextMembers, IsLoadingMember, isLoading))
  }

  /** While the context is loading, the button as written stays enabled; the intended one is disabled. */
  lemma ButtonAsWrittenIgnoresLoading()
    ensures !ButtonAsWritten(true).disabled && ButtonCorrected(true).disabled
  {
  }
}

=== FILE: types.dfy ===
/**
 * The storefront's record shapes (the interfaces of `libs/types.ts`), the JSON
 * values that travel in request and response bodies, and the multipart
 * `FormData` payload used for product uploads.
 */
module Types {
  import opened Options

  /** A parsed JSON value. Objects are maps because `JSON.parse` keeps the last of repeated keys. */
  datatype Json =
    | JNull
    | JBool(b: bool)
    | JNumber(n: real)
    | JString(s: string)
    | JArray(items: seq<Json>)
    | JObject(fields: map<string, Json>)

  /** JavaScript truthiness of a JSON value (NaN is not a JSON value). */
  predicate Truthy(j: Json) {
    match j
    case JNull => false
    case JBool(b) => b
    case JNumber(n) => n != 0.0
    case JString(s) => |s| > 0
    case JArray(_) => true
    case JObject(_) => true
  }

  /** Property `key` of an object; `None` is `undefined` (also for non-objects other than `null`). */
  function Field(j: Json, key: string): (r: Option<Json>)
    ensures r.Some? <==> j.JObject? && key in j.fields
  {
    if j.JObject? && key in j.fields then Some(j.fields[key]) else None
  }

  /** A number as `JSON.stringify` writes it: NaN (`None`) becomes `null`. */
  function NumberJson(n: Option<real>): (j: Json)
    ensures n.Some? ==> j == JNumber(n.value)
    ensures n.None? ==> j == JNull
  {
    match n
    case Some(v) => JNumber(v)
    case None => JNull
  }

  datatype Categoria = Categoria(categoriaId: int, nombreCategoria: string, descripcionCategoria: string)

  /** `Omit<Categoria, 'categoriaId'>`: what the category form submits. */
  datatype CategoriaPayload = CategoriaPayload(nombreCategoria: string, descripcionCategoria: string)

  datatype TipoProducto = TipoProducto(tipoProductoId: int, nombreTipoProducto: string)

  datatype ProductoListado = ProductoListado(
    productoId: int,
    nombreProducto: string,
    categoriaNombre: string,
    precioVentaActual: real,
    imagenUrlPrincipal: Option<string>,
    stockActual: int)

  datatype PrecioProductoActual = PrecioProductoActual(precioVenta: real, fechaInicioVigencia: string)

  datatype CostoProductoActual = CostoProductoActual(precioCosto: real, fechaInicioVigencia: string)

  datatype DetallesPlanta = DetallesPlanta(
    nombreCientifico: string,
    nivelLuzDescripcion: string,
    frecuenciaRiegoDescripcion: string,
    esVenenosa: bool,
    cuidadosEspeciales: string,
    tipoAmbiente: string)

  datatype DetallesHerramienta = DetallesHerramienta(
    materialPrincipal: string,
    dimensiones: string,
    pesoKG: real,
    usoRecomendado: string,
    requiereMantenimiento: bool)

  datatype DetallesSemilla = DetallesSemilla(
    especieVariedad: string,
    tiempoGerminacionDias: string,
    profundidadSiembraCM: real,
    epocaSiembraIdeal: string,
    instruccionesSiembra: string)

  datatype ImagenProducto = ImagenProducto(imagenId: int, urlImagen: string, textoAlternativo: string)

  datatype ProductoDetalle = ProductoDetalle(
    productoId: int,
    nombreProducto: string,
    descripcionGeneral: string,
    stockActual: int,
    puntoDeReorden: int,
    categoria: Categoria,
    tipoProducto: TipoProducto,
    precioActual: Option<PrecioProductoActual>,
    costoActual: Option<CostoProductoActual>,
    imagenes: seq<ImagenProducto>,
    detallesPlanta: Option<DetallesPlanta>,
    detallesHerramienta: Option<DetallesHerramienta>,
    detallesSemilla: Option<DetallesSemilla>)

  datatype CarritoItem = CarritoItem(
    productoId: int,
    nombreProducto: string,
    cantidad: int,
    precioUnitario: real,
    imagenProductoUrl: Option<string>)

  datatype CheckoutRequest = CheckoutRequest(metodoPago: string, notasCliente: Option<string>, clienteId: int)

  datatype Pedido = Pedido(pedidoId: int, fechaPedido: string, estadoActual: string)

  /** A page of results. `content` is `None` when the payload's `content` is missing or not an array. */
  datatype Page<T> = Page(content: Option<seq<T>>, totalPages: int, totalElements: int, size: int, number: int)

  /** The envelope every backend call resolves to. */
  datatype ApiResponse<T> = ApiResponse(data: Option<T>, error: Option<string>, status: Option<int>)

  datatype Usuario = Usuario(
    id: int,
    email: string,
    nombre: string,
    apellido: string,
    auth0Id: Option<string>,
    roles: seq<string>,
    registroCompleto: bool)

  datatype AuthRequest = AuthRequest(email: string, contrasena: string)

  datatype ClienteRegistro = ClienteRegistro(
    nombre: string,
    apellido: string,
    email: string,
    contrasena: string,
    telefono: string,
    calle: string,
    numero: string,
    codigoPostal: string,
    ciudad: string,
    provincia: string)

  /** A file picked in a file input; its bytes are not modelled. */
  datatype File = File(name: string)

  /** The content of a `Blob`: serialized JSON with type `application/json`, or opaque bytes. */
  datatype Blob = JsonBlob(json: Json) | OpaqueBlob(bytes: seq<int>)

  /** One `FormData.append(name, value)` entry. */
  datatype FormValue = BlobValue(blob: Blob) | FileValue(file: File)
  datatype FormEntry = FormEntry(name: string, value: FormValue)

  /** The names of the entries of a multipart payload, in append order. */
  function EntryNames(fd: seq<FormEntry>): (names: seq<string>)
    ensures |names| == |fd| && forall i :: 0 <= i < |fd| ==> names[i] == fd[i].name
  {
    if |fd| == 0 then [] else [fd[0].name] + EntryNames(fd[1..])
  }
}
